=== FILE: README.md ===
# A Dafny model of the catalogue bot's session layer and helpers

The system is a Telegram bot that looks up car parts in a catalogue by VIN.
A user sends a VIN and gets a vehicle card. They then browse the catalogue's
category tree, open a category to see its units, and open a unit. Between
button presses the bot keeps each user's state in a cache with expiring
entries: the vehicle context, the category list with each category's `ssd`
(the upstream's session descriptor), the whole category tree, the units of
each category, and the last category opened. This project models that state
layer and the pure logic around it, and proves its properties:

- **The expiring stores.**
  - `TtlStore` is the in-memory cache map of `src/cache.js`.
  - `SessionCache` holds the namespaced helpers built on it, and the field
    normalisers that give upstream records one canonical shape.
  - `SessionState` is the 24-hour per-user session of `src/core/state.js`.
  - `ChatHistory` is the 12-message chat history of `src/gpt.js`.
- **The callback language of the bot's buttons and its keyboard
  transforms** (`Callbacks`, from `src/telegram.js`):
  - the `unit:`/`node:` grammar;
  - the order in which the callback handler tries the button kinds;
  - page and category extraction;
  - the category resolution of the unit handler;
  - the footer row;
  - the patching of unit buttons;
  - `extractRoot`.
- **The category keyboard** (`CategoriesView`, from
  `src/helpers/renderCategories.js`): normalised entries, captions cut to 48
  characters, two buttons to a row, page clamping and the navigation row.
  It also covers the two callbacks that redraw the keyboard from the cache,
  as written and with the corrected listing of the finding below.
  `Paging` holds the page arithmetic it shares with `formatUnitsPage`.
- **The text helpers:**
  - `Utils` (`ensure`, `maskVin`, `detectLangFromLocale`, `brandEmoji`);
  - `Chunking` (`chunk`, on UTF-16 code units);
  - `HtmlEscape` (both `escapeHtml` functions);
  - `Formatters` (`formatUnitsPage`, and the attribute and language logic of
    `formatVinCardHtml`);
  - `Intent` (`detectIntent`).
- **JavaScript semantics** that the code relies on (`JsValue`, `JsText`):
  - values and their truthiness, `??`, `||`, property access and `String(x)`;
  - `trim`, `split`, `slice` with negative indices, ASCII case mapping;
  - `Number(text)` on integer text.

Modelling choices:

- **Time is an argument.** The clock is an explicit `now` in milliseconds.
- **JSON is not serialised.** A stored value is kept as a `JsValue.Value`,
  so `JSON.stringify` followed by `JSON.parse` is the identity. A stored raw
  string is read through an abstract `Codec` parameter.
- **Stores are immutable values.** Every store is a map threaded through
  pure functions, and a read returns the store after lazy expiry alongside
  the value.

Behaviours of the code worth knowing:

- There is no periodic sweep of expired cache entries. An entry leaves only
  when a read finds it expired. The model follows this.
- A failed Redis connection is not a permanent fall-back: `redis` is reset
  to `null`, so every later call tries again. Redis is not modelled (see
  "Left out").
- There is no callback-token store. Callback data is plain text, as in the
  model.
- The source does not load as written. src/helpers/renderCategories.js
  declares `export function renderCategoriesList` twice (lines 77 and 111),
  which an ES module rejects as a duplicate declaration and a duplicate
  export. And src/telegram.js:4-8 imports `renderUnitsList`, which that
  module does not export, so linking fails. The model takes the paginated
  definition at lines 111-185 as the intended `renderCategoriesList`.

## Model

| member | source | states |
|---|---|---|
| TtlStore.Set | src/cache.js:30-32 | writing a key adds it and leaves every other entry as it was; the entry is live at the write instant exactly when the ttl is positive |
| TtlStore.Get | src/cache.js:33-38 | a read returns a value exactly when the entry exists and its expiry is after `now`, and then leaves the store alone; otherwise it returns null and the key is gone from the store |
| TtlStore.GetAfterSet | src/cache.js:30-38 | a value written with `ttl` at `t` reads back at any `now < t + ttl*1000`; from that instant it reads as null and is deleted |
| TtlStore.SetOverwrites | src/cache.js:30-32 | the second write of a key erases every trace of the first, its value and its expiry |
| TtlStore.GetOtherKey | src/cache.js:30-32 | writing one key does not change what any other key reads |
| TtlStore.GetLeavesOtherKeys | src/cache.js:33-38 | the deletion done by an expired read does not change what any other key reads |
| TtlStore.AbsentStaysAbsent | src/cache.js:33-38 | once a key reads as absent, it stays absent at every later instant until it is written again |
| SessionCache.Encode | src/cache.js:65 | `JSON.stringify` produces no text exactly for `undefined`, and otherwise carries the value |
| SessionCache.ParseOrRaw | src/cache.js:170-175 | a stored JSON value reads back as itself, and a missing entry as null |
| SessionCache.NamespaceOfNsKey | src/cache.js:63 | the text before the first colon of a namespaced key is its namespace |
| SessionCache.KeysNeverCollide | src/cache.js:63-150 | keys of the `cats:`, `catsroot:`, `units:`, `lastcat:` and `ctx:` namespaces never coincide, whatever the user, catalog, vehicle and category |
| SessionCache.FirstPresent | src/cache.js:43-45 | the field found by a `??` chain is never null or undefined |
| SessionCache.NormalizeCategory | src/cache.js:42-47 | every non-null record normalises to the canonical shape (only `null` fails, on its property access) |
| SessionCache.NormalizeCategoryPriority | src/cache.js:43-45 | the id comes from `categoryId`, then `id`, then `code`, else null; the name from `name`, then `title`, else ''; the ssd from `ssd`, then `SSD`, then `sSd`, else null |
| SessionCache.NormalizeCategoryIdempotent | src/cache.js:42-47 | normalising a normalised category gives it back unchanged |
| SessionCache.NormalizeUnit | src/cache.js:49-54 | every non-null unit normalises to the canonical shape, and the original record is kept as `raw` |
| SessionCache.NormalizeUnitPriority | src/cache.js:50-53 | the unit id is the stringified first of `unitId`, `id`, `UnitId`, `ID`, `Id`, or null; the name is the first of `name`, `UnitName`, `title`, or ''; the ssd is the first of `ssd`, `SSD`, `Ssd`, `sSd`, or null |
| SessionCache.NormalizeUnitKeepsCanonicalFields | src/cache.js:49-54 | normalising the stored form of any canonical unit, which is what every normalised unit is, keeps its id, name and ssd; only `raw` changes, to the stored object |
| SessionCache.NormalizeCategories | src/cache.js:59-60 | normalising the list fails exactly when it holds a null; otherwise each record is normalised in place |
| SessionCache.WithId | src/cache.js:61 | the filter keeps exactly the records whose normalised id is neither null nor undefined |
| SessionCache.CategoryValues | src/cache.js:65 | the saved list holds each kept record as a plain object, in order |
| SessionCache.SaveCategoriesSession | src/cache.js:58-67 | saving fails exactly when the array holds a null; otherwise it writes only the user's `cats:` key |
| SessionCache.ReadCategoriesSession | src/cache.js:69-75 | the read expires only the `cats:` key it looks at |
| SessionCache.FindByCategoryId | src/cache.js:80 | `find` returns the first element of the list whose stringified `categoryId` equals the query (no earlier element matches), and none when no element matches |
| SessionCache.Spread | src/cache.js:81 | `{ ...found }` of an object is a copy of it |
| SessionCache.GetCategoryRecord | src/cache.js:77-82 | a found record is an object, and the read expires only the `cats:` key |
| SessionCache.GetCategorySsd | src/cache.js:84-87 | the ssd is never undefined, and it is null whenever no record is found |
| SessionCache.FirstWithId | src/cache.js:80 | the first saved record whose stringified id is the query (no earlier record has it), or none when no record has it |
| SessionCache.FindInCategoryValues | src/cache.js:80 | looking a category up in the saved list finds the first saved record with that id |
| SessionCache.ReadAfterSave | src/cache.js:58-75 | a saved list reads back unchanged for 900 s, and as absent from then on |
| SessionCache.CategoryLookupAfterSave | src/cache.js:58-82 | for 900 s after a save the lookup returns the first saved record with the id, or null when there is none; afterwards it returns null |
| SessionCache.SavedCategorySsd | src/cache.js:58-87 | after saving a one-category list `[{id, name, ssd}]`, for 15 minutes the ssd of that id reads as the saved one and the ssd of every other id as null |
| SessionCache.CacheSet | src/cache.js:164-168 | a write touches only its key |
| SessionCache.CacheGet | src/cache.js:170-175 | a read expires only its key |
| SessionCache.CacheRoundTrip | src/cache.js:164-175 | a value reads back until its ttl runs out, and `undefined` (which has no JSON text) reads as null |
| SessionCache.SetCategoriesRoot | src/cache.js:90-95 | the write touches only the user's `catsroot:` key |
| SessionCache.GetCategoriesRoot | src/cache.js:96-102 | the read expires only the `catsroot:` key |
| SessionCache.CategoriesRootRoundTrip | src/cache.js:90-102 | the stored tree reads back for 900 s, with a missing tree stored as `[]`; afterwards it reads as null |
| SessionCache.UnitsMap | src/cache.js:109-113 | building the unit map fails exactly when the list holds a null |
| SessionCache.LastKept | src/cache.js:110-113 | the last position holding a unit with the given kept id, or none when no unit has it |
| SessionCache.UnitsMapLastWins | src/cache.js:109-113 | an id is in the map exactly when some unit kept it, and it maps to the last such unit: a later duplicate overwrites an earlier one, and units with a null or empty id are dropped |
| SessionCache.SaveUnitsSession | src/cache.js:107-117 | saving writes only the user's `units:` key of the category, and fails exactly when the unit list cannot be read |
| SessionCache.StringUnitsKeepNone | src/cache.js:110 | a text in place of the unit list saves an empty map |
| SessionCache.GetUnitRecord | src/cache.js:119-131 | a found unit record is truthy, and the read expires only the `units:` key |
| SessionCache.UnitLookupAfterSave | src/cache.js:107-131 | for 900 s after a save the lookup of `String(unitId)` returns that unit's saved record, or null when the map lacks it; afterwards it returns null |
| SessionCache.SetLastCategory | src/cache.js:134-139 | the write touches only the user's `lastcat:` key |
| SessionCache.GetLastCategory | src/cache.js:140-145 | the read expires only the `lastcat:` key |
| SessionCache.LastCategoryRoundTrip | src/cache.js:134-145 | the category id reads back as its string for 900 s; a null, undefined or '' id is stored as '' and reads back as null |
| SessionCache.SetUserVehicle | src/cache.js:149-154 | the write touches only the user's `ctx:` key |
| SessionCache.GetUserVehicle | src/cache.js:155-160 | the read expires only the `ctx:` key |
| SessionCache.VehicleRoundTrip | src/cache.js:149-160 | the vehicle context (or `{}` for a falsy one) reads back for 3600 s, and as null from then on |
| SessionCache.VehicleUnaffectedByCatalogWrites | src/cache.js:58-145 | saving categories, a tree, units and the last category leaves every user's vehicle context reading as before |
| SessionState.GetSession | src/core/state.js:5-10 | a session is returned exactly when it exists and `now - ts` is at most 24 hours; otherwise the record is deleted |
| SessionState.SetSession | src/core/state.js:11-13 | setting a session touches only that user |
| SessionState.ClearSession | src/core/state.js:14-16 | clearing removes only that user |
| SessionState.GetAfterSet | src/core/state.js:3-13 | the data reads back while `now - t <= 24h`, and past that it reads as null and is deleted |
| SessionState.SetRestartsClock | src/core/state.js:11-13 | a second set replaces the data and restarts the timestamp |
| SessionState.ClearIsolated | src/core/state.js:14-16 | after a clear the user reads null, and every other user reads as before |
| SessionState.ExpiryBoundariesDiffer | src/core/state.js:8 | exactly at the expiry instant the cache has already dropped an entry (`exp <= now`) while the session is still returned (`now - ts > TTL` is strict) |
| ChatHistory.LastN | src/gpt.js:14 | dropping the oldest messages down to the limit leaves `min(len, n)` of them |
| ChatHistory.LastNIsSuffix | src/gpt.js:14 | what remains is the newest messages in order |
| ChatHistory.LastNAppend | src/gpt.js:12-14 | trimming after every push equals trimming once after all pushes |
| ChatHistory.Push | src/gpt.js:11-16 | a push touches only its chat's history |
| ChatHistory.PushAppendsLast | src/gpt.js:11-16 | after a push, that chat's history holds at most 12 messages and ends with the new one |
| ChatHistory.PushHistory | src/gpt.js:11-16 | the shift loop computes exactly the last 12 messages of the old history plus the new one |
| ChatHistory.PushBounded | src/gpt.js:9-15 | pushing keeps every chat's history at 12 messages or fewer |
| ChatHistory.PushAllKeepsLast | src/gpt.js:12-14 | after any sequence of pushes the history is the last 12 of the old history followed by the pushed messages |
| ChatHistory.ReplyText | src/gpt.js:28-37 | the reply is never empty: the model's answer when it has one, else '…' |
| ChatHistory.Chat | src/gpt.js:18-41 | a turn touches only its chat and asks the model with the history that already holds the user's message; an answer gives a reply, never empty, and a thrown call rejects with its error |
| ChatHistory.ChatTurnShape | src/gpt.js:19-38 | the model sees the user's message last; after an answered turn the history ends with the user's message then the reply, within 12 messages, and after a thrown call it ends with the user's message alone |
| ChatHistory.ChatAppendsWhileShort | src/gpt.js:18-41 | while there is room, an answered turn appends exactly the user message and the reply, and a thrown call the user message alone |
| ChatHistory.Reset | src/gpt.js:43-45 | reset removes only the given chat's history |
| ChatHistory.ChatAfterReset | src/gpt.js:43-45 | after a reset, the next push starts a fresh history |
| Intent.DetectIntent | src/core/nlu.js:1-6 | the intent is VIN exactly when the trimmed text is a VIN (17 letters other than I, O, Q, or digits, in either case), OEM exactly when it is not a VIN but is an OEM code (3 or more of letters, digits, `.`, `_`, `-`), and OTHER for everything else |
| Intent.VinIsAlsoOem | src/core/nlu.js:3-4 | every VIN also matches the OEM pattern, so the order of the tests decides that VIN wins |
| Intent.IntentIgnoresPadding | src/core/nlu.js:2 | surrounding whitespace never changes the intent |
| Intent.IntentIgnoresCase | src/core/nlu.js:3-4 | upper-casing the text never changes the intent |
| Intent.InnerSpaceIsOther | src/core/nlu.js:2-5 | a trimmed text containing a space is OTHER |
| Intent.ExcludedLetterIsOem | src/core/nlu.js:3-4 | 17 code characters with an I, O or Q among them are an OEM code and not a VIN |
| Intent.SampleVin | src/core/nlu.js:3 | a lower-case VIN is recognised |
| Intent.SampleOem | src/core/nlu.js:4 | a part number is OEM |
| Intent.SampleOther | src/core/nlu.js:4-5 | a two-letter word is OTHER |
| Utils.Ensure | src/utils.js:10-15 | ensure fails exactly for undefined, null, '' and false, with the given message or the default one, and otherwise returns its argument unchanged |
| Utils.EnsureVersusTruthy | src/utils.js:10-15 | every truthy value passes, and the only falsy value that passes is 0 |
| Utils.Text | src/utils.js:41 | `String(v \|\| '')` is '' for every falsy value and the text itself for a string |
| Utils.NormalVin | src/utils.js:41 | trimming and upper-casing yield a normal text (no padding, no lower-case letters) |
| Utils.NormalVinOfNormal | src/utils.js:41 | a normal text is left as it is |
| Utils.MaskText | src/utils.js:42-43 | a text shorter than 6 is returned as is; a longer one becomes its first 3 characters, `***`, its last 3 (9 in all) |
| Utils.MaskKeepsNormal | src/utils.js:40-44 | masking a normal text gives a normal text |
| Utils.MaskTextIdempotent | src/utils.js:40-44 | masking a masked text changes nothing |
| Utils.MaskVinIdempotent | src/utils.js:40-44 | `maskVin(maskVin(v)) == maskVin(v)` |
| Utils.MaskVin | src/utils.js:40-44 | the mask of the trimmed, upper-cased text: a text shorter than 6 as it is, else its first 3 characters, `***` and its last 3 |
| Utils.MaskHidesMiddle | src/utils.js:43 | two long texts with the same first and last three characters mask identically |
| Utils.DetectLang | src/utils.js:65-68 | the language is always 'ru' or 'en' |
| Utils.DetectLangIsRuPrefix | src/utils.js:65-68 | the language is 'ru' exactly when the locale's text starts with "ru" in any case |
| Utils.DetectLangSamples | src/utils.js:65-68 | `ru_RU` and `RU` are Russian; `en_US` and a missing locale are English |
| Utils.CollapseIsCollapsed | src/utils.js:76 | `replace(/\s+/g, ' ')` leaves no two spaces in a row and never lengthens the text |
| Utils.BrandKeyIgnoresCase | src/utils.js:76 | the lookup key does not depend on case |
| Utils.BrandKeyIgnoresPadding | src/utils.js:76 | the lookup key does not depend on surrounding whitespace |
| Utils.BrandKeyIgnoresInnerSpacing | src/utils.js:76 | any run of spaces between two words gives the same key |
| Utils.BrandEmojiIgnoresSpelling | src/utils.js:75-115 | the emoji is insensitive to case, to surrounding whitespace and to the length of inner space runs |
| Utils.EmojiForHyphenated | src/utils.js:114 | a hyphenated brand not in the table is retried with a space, and defaults to 🚗 |
| Utils.EmojiFor | src/utils.js:114 | the emoji is the table's entry for a key the table has, and always either a table entry or the 🚗 default |
| Utils.BrandEmoji | src/utils.js:75-115 | the emoji of a brand whose normalised key is in the table is that entry; every other brand gets a table entry or 🚗 |
| Chunking.CodePoints | src/utils.js:26 | `Array.from` splits the text into pieces that join back to it, no more pieces than units |
| Chunking.CodePointsCanonical | src/utils.js:26 | every piece is one code point, and a surrogate pair is never split |
| Chunking.CodePointsOfFlatten | src/utils.js:26-28 | reading the code points of joined code points gives them back |
| Chunking.Pieces | src/utils.js:27-29 | the groups of `size` code points; there are none exactly when there are no code points |
| Chunking.PiecesFlatten | src/utils.js:27-29 | joining the pieces gives back all the code points' units |
| Chunking.Chunk | src/utils.js:24-31 | the loop computes the pieces; joining them reproduces the input, and empty input gives no piece |
| Chunking.PieceCodePoints | src/utils.js:26 | the code points of each piece |
| Chunking.PiecesKeepCodePoints | src/utils.js:24-31 | the pieces' code points, read in order, are the input's code points |
| Chunking.PiecesSizes | src/utils.js:27-29 | every piece has 1 to `size` code points, and all but the last exactly `size` |
| Chunking.ChunkShape | src/utils.js:24-31 | `chunk` keeps every code point, in order, in non-empty pieces of at most `size`, all but the last full |
| Chunking.ShortTextOnePiece | src/utils.js:24-31 | a non-empty text of at most `size` code points is one piece |
| HtmlEscape.EscapeHtmlAppend | src/utils.js:51-58 | escaping distributes over concatenation |
| HtmlEscape.EscapeHtmlBasicAppend | src/telegram.js:521-526 | the three-character escape distributes over concatenation |
| HtmlEscape.EscapeHtmlIsPerChar | src/utils.js:51-58 | the five chained replacements escape each character independently (the `&` pass first is what makes this hold) |
| HtmlEscape.EscapeHtmlBasicIsPerChar | src/telegram.js:521-526 | the three chained replacements escape each character independently |
| HtmlEscape.EscapeRoundTrip | src/utils.js:51-58 | decoding the five entities recovers the original text, for both escapes |
| HtmlEscape.EscapedHasNoMarkup | src/utils.js:51-58 | the output has no `<`, `>`, `"` or `'` |
| HtmlEscape.BasicEscapedHasNoTags | src/telegram.js:521-526 | the three-character escape leaves no `<` or `>` |
| HtmlEscape.EscapedAmpersands | src/utils.js:51-58 | every `&` in the output begins one of the five entities |
| HtmlEscape.EscapeHtml | src/utils.js:51-58 | the output holds no `<`, `>`, `"` or `'`; EscapeRoundTrip proves it decodes back to the input |
| HtmlEscape.EscapeHtmlBasic | src/telegram.js:521-526 | the output holds no `<` or `>`; EscapeRoundTrip proves it decodes back to the input |
| JsValue.Coalesce | src/cache.js:43 | `a ?? b` is `a` unless it is null or undefined |
| JsValue.Or | src/cache.js:152 | `a \|\| b` is `a` when truthy, else `b` |
| JsValue.Truthy | src/utils.js:41 | exactly `undefined`, `null`, `false`, `0` and `''` are falsy |
| JsValue.Prop | src/cache.js:80 | `x?.key` is undefined for a non-object and for a missing key, and otherwise the object's own field |
| JsValue.ToStr | src/cache.js:80 | `String(s)` of a text is the text, and `Number(String(n))` gives back the integer `n` |
| JsText.Trim | src/core/nlu.js:2 | `trim` leaves no whitespace at either end |
| JsText.TrimIdempotent | src/core/nlu.js:2 | trimming twice equals trimming once |
| JsText.TrimPadded | src/core/nlu.js:2 | one more space at either end does not change the trimmed text |
| JsText.TrimUpper | src/utils.js:41 | trimming and upper-casing commute |
| JsText.Split | src/telegram.js:190 | `split(':')` yields at least one part, none containing a colon |
| JsText.JoinSplit | src/telegram.js:190 | joining the parts with the separator gives back the text |
| JsText.SplitJoin | src/telegram.js:190 | splitting colon-free parts joined with colons gives back the parts |
| JsText.IntToDecimal | src/helpers/renderCategories.js:173-175 | the decimal text is non-empty and starts with '-' exactly for negatives |
| JsText.DecimalInjective | src/helpers/renderCategories.js:173-175 | two integers with the same decimal text are equal |
| JsText.NumberOfDecimal | src/telegram.js:220 | `Number` of an integer's decimal text is that integer |
| JsText.NumberOfText | src/telegram.js:220 | blank text is 0, and any other text that is a number ends in a digit; NumberOfDecimal proves it reads back every integer's decimal text |
| JsText.JsSlice | src/helpers/renderCategories.js:189 | `slice` never lengthens, and with indices in range it is the plain subsequence |
| JsText.ReplaceChar | src/utils.js:52-57 | replacing a character by a text without it removes it, and introduces no character outside the text and the replacement |
| Paging.Window | src/formatters.js:63-65 | a page has at most `perPage` items; a page starting inside the list is the slice from `page*perPage`; one starting past the end is empty |
| Paging.PageCount | src/helpers/renderCategories.js:152 | `max(1, ceil(total/perPage))` is at least 1, its pages hold every item, and the last page is not empty |
| Paging.ClampPage | src/helpers/renderCategories.js:153 | the shown page is always in range: the requested one when it is, the first for a negative request, the last for one past the end |
| Paging.ClampedPageStartsInside | src/helpers/renderCategories.js:151-156 | the shown page starts inside the list, and holds an item whenever the list has any |
| Paging.ItemOnItsPage | src/helpers/renderCategories.js:151-156 | item `j` is on page `j / perPage` at offset `j % perPage`, and that page is counted |
| Paging.FirstPagesArePrefix | src/helpers/renderCategories.js:154-156 | the first `k` pages in order are the first `k*perPage` items |
| Paging.AllPagesCover | src/helpers/renderCategories.js:151-156 | all the counted pages together are the whole item list, in order |
| Formatters.UnitLabel | src/formatters.js:71 | a unit's label is its `name`, then `text`, then `title`, else `#` and its id |
| Formatters.FormatUnitsPage | src/formatters.js:61-76 | the title is Russian exactly when the locale starts with "ru" (case-sensitive); the page has one line per unit of its window, numbered from `page*perPage + 1`; the subtitle's `to` is `min(from + perPage, total)`, which on a page in range is `from` plus the number of lines |
| Formatters.UnitLinesAreNumberedGlobally | src/formatters.js:62-71 | at most `perPage` lines, and each line's number is the unit's 1-based position in the whole list, shown with that unit's label |
| Formatters.UnitsPagePastEnd | src/formatters.js:63-65 | a page past the end lists no unit |
| Formatters.EveryUnitIsListed | src/formatters.js:61-71 | every unit is line `j % perPage` of page `j / perPage`, numbered `j + 1` |
| Formatters.Selected | src/formatters.js:36-45 | the kept attributes have truthy values and keys from the list, each with its value and its label in the card's language |
| Formatters.SelectedComplete | src/formatters.js:45 | every attribute with a truthy value is kept |
| Formatters.SelectedInCardOrder | src/formatters.js:36-45 | the attributes appear in the fixed order of the 8 keys, each exactly when its value is truthy |
| Formatters.NoneSelected | src/formatters.js:45 | without a truthy value nothing is listed |
| Formatters.EveryKeyOnTheCard | src/formatters.js:36-44 | each of the 8 keys is considered, once |
| Formatters.FirstVehicleShapes | src/formatters.js:9-15 | samples: the vehicle is the first one under a `data` array or under a bare response, and null for an empty `data` or a first element without vehicles |
| Formatters.FirstVehicleOfEveryShape | src/formatters.js:9-15 | for each of the four response shapes (`data` an array, `data` another value, no `data` with an array or a non-array response), the vehicle is the first element of the vehicle list, and null whenever that list is not an array |
| Formatters.FormatVinCard | src/formatters.js:8-55 | the locale is the response's own when truthy, else `ru_RU`, and the language, 'ru' or 'en', is detected from it; the VIN is the response's when truthy, else ''; brand, model, catalog and ssd are the first vehicle's truthy values, else ''; the items are its truthy attributes in card order |
| Formatters.VinCardListsEveryTruthyAttribute | src/formatters.js:17-45 | an attribute with a truthy value is always on the card |
| Formatters.VinCardDefaultsToRussian | src/formatters.js:11-12 | without a locale the card is Russian |
| Formatters.VinCardLanguageFromLocale | src/formatters.js:11-12 | with a locale given, the card is Russian exactly when the locale begins with `ru` in either case |
| Formatters.VinCardWithoutVehicle | src/formatters.js:15-52 | without a vehicle the card lists no attribute and `tech` is empty |
| Callbacks.KindOf | src/telegram.js:196 | a button is a unit or node button exactly when its data starts with `unit:` or `node:` |
| Callbacks.MatchUnit | src/telegram.js:42 | a match is well formed (non-empty, colon-free id and category) and of the button's kind |
| Callbacks.MatchFormat | src/telegram.js:42 | a well-formed button's data matches back to it |
| Callbacks.FormatMatch | src/telegram.js:42 | matched data is exactly the data its parts spell |
| Callbacks.ParseUnitCbData | src/telegram.js:40-45 | parsing succeeds exactly when the data matches, with a non-empty colon-free unit id |
| Callbacks.ParseUnitCbDataExactly | src/telegram.js:40-45 | parsing succeeds exactly on `unit:a`, `node:a`, `unit:a:b`, `node:a:b` with a and b non-empty and colon-free, and returns their parts |
| Callbacks.ParseUnitCbDataRoundTrip | src/telegram.js:42-44 | `unit:a:b` parses to unit a and category b, and `unit:a` to unit a with no category |
| Callbacks.CategoryOfCallback | src/telegram.js:190 | the category taken from `cat:` data never holds a colon |
| Callbacks.CategoryOfCallbackReads | src/telegram.js:190 | `cat:<id>` yields the id, and anything after a further colon is dropped |
| Callbacks.PageOfDecimal | src/telegram.js:219-220 | `noop:page:<n>` yields page n |
| Callbacks.PageOfNonNumber | src/telegram.js:219-220 | an empty or non-numeric page text yields page 0 |
| Callbacks.PageOfWord | src/telegram.js:219-220 | an unpadded, colon-free page text that starts with neither a sign nor a digit yields page 0 |
| Callbacks.PageOfStay | src/telegram.js:219-220 | `noop:page:stay` yields page 0 |
| Callbacks.PageOf | src/telegram.js:219-220 | data with no third colon-separated part shows page 0; PageOfDecimal proves it reads back the page a button spells |
| Callbacks.VehicleKey | src/telegram.js:173 | a context without a truthy `vehicleId` is keyed as vehicle "0", and a text id is kept as it is |
| Callbacks.Route | src/telegram.js:155-237 | a unit is opened only with the ids parsed from the data, and a unit-looking button is reported as unreadable exactly when it does not parse |
| Callbacks.RouteCategoryButton | src/telegram.js:189-193 | a `cat:` button with a colon-free id opens that category |
| Callbacks.RouteUnitButton | src/telegram.js:196-204 | a well-formed unit or node button opens its unit, with its category when it has one |
| Callbacks.RouteNoopPage | src/telegram.js:207-229 | every `noop:page:` button shows the page read from it (the `noop:page:` test comes before the plain `noop:` one) |
| Callbacks.RoutePageButton | src/telegram.js:207-221 | a page button with a number shows that page |
| Callbacks.RouteStayButton | src/telegram.js:207-221 | the page counter button shows the first page |
| Callbacks.RouteMissingData | src/telegram.js:234-236 | a query without data reaches the "unknown button" branch |
| Callbacks.PrepareUnit | src/telegram.js:390-407 | the unit request goes out only with a truthy catalog, a non-empty category and a truthy unit ssd; the category is the callback's whenever the callback carries one |
| Callbacks.UnitCategoryFallback | src/telegram.js:398-402 | without a category in the callback, the stored last category is used, and with none stored the handler fails with "cannot determine the category" |
| Callbacks.UnitNeedsContext | src/telegram.js:392-393 | without a vehicle context holding a catalog the handler fails with "vehicle context not found" |
| Callbacks.AddCatsFooter | src/telegram.js:476-484 | the keyboard's rows are kept unchanged, plus exactly one final row |
| Callbacks.FooterRoutes | src/telegram.js:479-482 | that row's two buttons redraw from the cache and reload the categories |
| Callbacks.FooterOnly | src/telegram.js:477-478 | a missing keyboard yields just the footer row |
| Callbacks.PatchButton | src/telegram.js:489-497 | patching never changes a button's caption |
| Callbacks.PatchRow | src/telegram.js:489 | each button of a row is patched in place |
| Callbacks.EnsureCategoryInUnitCallbacks | src/telegram.js:487-501 | a missing keyboard stays missing; otherwise the number of rows and each row's length are kept |
| Callbacks.PatchButtonEffect | src/telegram.js:490-497 | a unit button without a category, patched with a non-empty colon-free category, gets it appended, keeps its prefix and unit id, and then parses with that category |
| Callbacks.PatchLeavesOtherButtons | src/telegram.js:490-495 | buttons without data, non-unit buttons and unit buttons that already have a category are left untouched, whatever the category |
| Callbacks.PatchedUnitsCarryCategory | src/telegram.js:487-501 | after patching, every unit or node button carries a category, and those that lacked one parse with the given category |
| Callbacks.PatchButtonIdempotent | src/telegram.js:489-497 | patching a button twice changes nothing more |
| Callbacks.EnsureCategoryIdempotent | src/telegram.js:487-501 | patching a keyboard twice changes nothing more |
| Callbacks.RootShape | src/telegram.js:507-509 | a recognised shape always yields an array |
| Callbacks.ExtractRoot | src/telegram.js:503-519 | the result is always an array, and it is the outer shape's array whenever one of the three outer shapes matches |
| Callbacks.ExtractRootShapes | src/telegram.js:503-519 | `[{root}]`, `{root}` and a bare array are accepted in that order, then the same three under `.data`; as samples, a number, null and `{}` yield `[]` |
| Callbacks.ExtractRootFallsBack | src/telegram.js:512-518 | a value of none of the three shapes is read under `.data`, and any value with none of the shapes at either level yields `[]` |
| CategoriesView.Truncate | src/helpers/renderCategories.js:187-190 | a caption never exceeds n characters; a short one is kept; a long one keeps its first n-1 characters and ends in '…' |
| CategoriesView.TruncateIdempotent | src/helpers/renderCategories.js:187-190 | truncating twice equals truncating once |
| CategoriesView.Items | src/helpers/renderCategories.js:143-148 | no listed entry has an empty id |
| CategoriesView.ItemsExactly | src/helpers/renderCategories.js:143-148 | an entry is listed exactly when it is the normalisation of an element of the tree with a non-empty id |
| CategoriesView.ItemIdPriority | src/helpers/renderCategories.js:145-146 | for every entry, the id is the first non-nullish of `id`, `categoryId`, `code`, else '', and the name is the text of the first non-nullish of `name`, `title`, else "Без названия" |
| CategoriesView.ToItem | src/helpers/renderCategories.js:144-147 | an entry's id is never null or undefined, and a non-object entry has id '' and the untitled name |
| CategoriesView.CategoryButtons | src/helpers/renderCategories.js:163-166 | one button per entry of the page, in order |
| CategoriesView.CategoryButtonOpens | src/helpers/renderCategories.js:164-165 | a category button opens its category when its id has no colon, and its caption has at most 48 characters |
| CategoriesView.Rows | src/helpers/renderCategories.js:159-168 | rows hold one or two buttons, all but the last two; there are no rows exactly when there are no buttons |
| CategoriesView.RowsFlatten | src/helpers/renderCategories.js:159-168 | the rows read in order give back the buttons |
| CategoriesView.LayOutRows | src/helpers/renderCategories.js:159-168 | the `i += 2` loop builds exactly those rows |
| CategoriesView.NavKinds | src/helpers/renderCategories.js:172-175 | the counter is always there; back is there exactly when cur > 0 and then comes first; forward exactly when cur < pages-1 and then comes last |
| CategoriesView.NavRow | src/helpers/renderCategories.js:172-176 | the navigation row holds one button per kind, in that order |
| CategoriesView.NavButtonRoutes | src/helpers/renderCategories.js:173-175 | back asks for page cur-1, forward for cur+1, and the counter for page 0 |
| CategoriesView.NavRowTurnsPages | src/helpers/renderCategories.js:171-177 | every navigation button asks for a page that exists |
| CategoriesView.CurrentPage | src/helpers/renderCategories.js:152-153 | the shown page is below the page count |
| CategoriesView.RenderFrom | src/helpers/renderCategories.js:134-184 | there is no keyboard exactly when the root is not an array or is empty, and the text then says "not found"; otherwise it says "choose a section" |
| CategoriesView.RenderedKeyboard | src/helpers/renderCategories.js:150-177 | the category buttons are those of the shown page's entries, in order, and the navigation row follows exactly when there is more than one page |
| CategoriesView.EveryCategoryReachable | src/helpers/renderCategories.js:150-168 | entry `j` is shown, as button `j % perPage`, on page `j / perPage`, which is not clamped away |
| CategoriesView.NavigationLandsOnNamedPage | src/helpers/renderCategories.js:171-177 | pressing a navigation button shows exactly the page it names |
| CategoriesView.RootAsWritten | src/helpers/renderCategories.js:117-131 | the array looked at is always an array |
| CategoriesView.AsWrittenIgnoresData | src/helpers/renderCategories.js:117-131 | as written, only the three outer shapes are ever listed |
| CategoriesView.RenderAsWritten | src/helpers/renderCategories.js:111-140 | a value of none of the outer shapes renders "not found" without a keyboard |
| CategoriesView.WrappedListNotFoundAsWritten | src/helpers/renderCategories.js:123-140 | a list wrapped in `{data: [...]}`, which `extractRoot` accepts, renders as "not found" |
| CategoriesView.RenderCategoriesList | src/helpers/renderCategories.js:111-185 | with the `.data` branch working, there is a keyboard exactly when `extractRoot` finds entries, and on the outer shapes the result is the same as written |
| CategoriesView.WrappedListListed | src/helpers/renderCategories.js:123-131 | the corrected listing shows the wrapped list |
| CategoriesView.RedrawFromCache | src/telegram.js:167-229 | both redraw branches as written: without a context or a cached tree the reply is the branch's "press Reload" text; otherwise the tree is listed by the as-written `renderCategoriesList` and the keyboard always ends with the footer row |
| CategoriesView.RedrawShowsCachedTree | src/telegram.js:167-229 | within 15 minutes of caching the tree for the user's vehicle, a redraw shows the requested page of that tree, as the as-written listing renders it, with the footer |
| CategoriesView.CachedTree | src/telegram.js:171-173 | the tree a redraw lists is read under the context's catalog and `vehicleId \|\| '0'`; a missing context or tree gives none, and a found tree is truthy |
| CategoriesView.CachedTreeAfterSave | src/telegram.js:171-173 | within 15 minutes of caching the tree for the user's vehicle, the redraw reads back exactly that tree |
| CategoriesView.RedrawWrappedTreeNotFound | src/telegram.js:179-184 | a cached tree wrapped in `{ data: [...] }` is redrawn as "Категории не найдены." with the footer row alone |
| CategoriesView.RedrawFromCacheCorrected | src/telegram.js:167-229 | the same two branches with the corrected listing: the "press Reload" text without a tree, else a keyboard ending with the footer row |
| CategoriesView.RedrawsAgreeOnOuterShapes | src/telegram.js:179 | the written and the corrected redraw give the same reply whenever the cached tree has one of the three outer shapes |
| CategoriesView.RedrawCorrectedShowsCachedTree | src/telegram.js:167-229 | with the corrected listing, a redraw within 15 minutes shows the requested page of the cached tree, a wrapped one included, with the footer |

## Left out

- Redis (`getRedis` and every `r ?` branch of src/cache.js): network I/O; only the in-memory map is modelled.
- JSON text: `JSON.stringify`/`JSON.parse` are the identity on values. Parsing of raw text goes through the abstract `Codec`, so the `catch` branches are reached only through it.
- `Date.now()`: the clock is the `now` parameter.
- The `ttlSec` parameters of the cache setters: no caller passes one, so the fixed TTLs are used.
- Numbers are integers: floats, `NaN`, `Infinity` and hexadecimal or exponent text are not modelled.
- Callbacks.PageOf: a fractional page text such as `noop:page:1.5` is page 1.5 in JavaScript; the model reads it as 0.
- CategoriesView.Truncate: counts code points, while JavaScript's `length` and `slice` count UTF-16 units; only `chunk` is modelled on UTF-16 units, because its point is the surrogate pairs.
- Utils.MaskText, Utils.MaskVin: count code points for the same reason; `maskVin` applies the same mask.
- `toUpperCase`/`toLowerCase`: only ASCII letters are mapped.
- Chunking.Chunk: requires `size >= 1`; `chunk` with a size below 1 never ends in the source, and every caller uses the default 3500.
- CategoriesView.RenderFrom: requires `perPage >= 1`; no caller passes a `perPage`, so it is always 40.
- CategoriesView.RedrawFromCache: the early return for a query without a chat or user id is not modelled, since the user id is a parameter.
- Callbacks.PrepareUnit: the early return of `_handleUnit` for a query without a chat or user id is not modelled, for the same reason.
- The OpenAI calls of src/gpt.js: the model's answer, or the error the call throws, is a function parameter of ChatHistory.Chat.
- ChatHistory.Chat: a turn is atomic. In the source two concurrent `chat()` calls for one chat interleave at the `await`, so the history can read user, user, reply, reply; the model has no concurrency.
- ChatHistory.ChatTurnShape: holds of a turn that no other turn of the same chat interleaves with, for the reason above.
- ChatHistory.ChatAppendsWhileShort: holds of a turn that no other turn of the same chat interleaves with, for the reason above.
- JsValue.Prop: reads an object's own fields only. JavaScript also finds the members of `Object.prototype` (`constructor`, `toString`, `hasOwnProperty`, `__proto__` and the rest), and assigning to `__proto__` sets the prototype instead of a field. This matters only where the key comes from data, in the units map.
- SessionCache.GetUnitRecord: for a unit id naming an `Object.prototype` member, `obj[String(unitId)]` returns the inherited member (a truthy function, or the prototype for `__proto__`) where the model returns null.
- SessionCache.UnitsMapLastWins: a unit with id `__proto__` sets the map's prototype in the source, so `JSON.stringify` drops it; the model keeps it as an ordinary entry.
- SessionCache.UnitLookupAfterSave: the null it promises for an id the map lacks, and the record it promises for id `__proto__`, do not hold in the source for ids naming `Object.prototype` members, for the two reasons above.
- The bot's transport: sending and editing messages, `fetch` to the catalogue service, and the text layout of replies other than the category keyboard.
- `_handleCategory` and `_handleVin` of src/telegram.js: their logic is upstream requests around the cache calls already modelled.
- The first `renderCategoriesList` (src/helpers/renderCategories.js:77-102): the duplicate declaration keeps the module from loading, and the paginated definition at lines 111-185 is the one modelled.
- `renderVehicleHeader`: HTML layout only.
- `renderUnitsList`, which src/telegram.js imports: src/helpers/renderCategories.js does not define it, so the import fails at link time; it is not part of this model.
- `inline_keyboard` values that are not arrays: keyboards are modelled as rows of buttons.
- Formatters.FormatVinCard: the card's HTML text is not modelled. The title's emoji is `Utils.BrandEmoji` of the brand and is not stored in the card.
- `fmtMoney`: floating point and `Intl.NumberFormat`.
- src/index.js, src/userStore.js, src/bot/keyboards.js, src/core/actions.js and src/laximoClient.js: server plumbing and API wrappers outside the core.

## Findings

| source | as written | input that shows it | evidently intended | confidence | as-written member | corrected member |
|---|---|---|---|---|---|---|
| src/helpers/renderCategories.js:123-131 | the `.data` unwrapping runs only when `root` is not an array, but lines 117-121 always leave an array in `root` | `{ data: [{ id: 1, name: "A" }] }` renders "Категории не найдены.", although `extractRoot` accepts it and the categories are saved from it | unwrap `.data` as `extractRoot` (src/telegram.js:503-519) does, so the keyboard lists what the session holds | not executed; the branch is dead by the code's own structure | CategoriesView.WrappedListNotFoundAsWritten | CategoriesView.WrappedListListed |

=== FILE: chat_history.dfy ===
/** The per-chat conversation memory of src/gpt.js: each chat keeps its last
    12 messages, oldest first. The language model is a parameter: a function
    from the history it is shown to the text it answers, empty text standing
    for an answer without text, or to `Err` when the call throws. */
module ChatHistory {
  import opened Wrappers

  /** At most this many messages are kept per chat. */
  const Limit: nat := 12

  datatype Role = User | Assistant

  datatype Message = Message(role: Role, content: string)

  /** A Telegram chat id. */
  type ChatId = int

  type Store = map<ChatId, seq<Message>>

  /** `store.get(chatId) || []`. */
  function History(store: Store, chat: ChatId): seq<Message> {
    if chat in store then store[chat] else []
  }

  /** `a` is what remains of `b` after dropping some of its first elements. */
  predicate IsSuffix<T(==)>(a: seq<T>, b: seq<T>) {
    |a| <= |b| && a == b[|b| - |a|..]
  }

  /** The last `n` elements of `s`, or all of `s` when it is shorter. */
  function LastN<T>(s: seq<T>, n: nat): (r: seq<T>)
    ensures |r| == if |s| <= n then |s| else n
  {
    if |s| <= n then s else s[|s| - n..]
  }

  lemma LastNIsSuffix<T>(s: seq<T>, n: nat)
    ensures IsSuffix(LastN(s, n), s)
  {
  }

  /** Keeping the last `n` after each append is keeping the last `n` of the
      whole: truncating early loses nothing a later truncation would keep. */
  lemma LastNAppend<T>(s: seq<T>, m: T, n: nat)
    ensures LastN(LastN(s, n) + [m], n) == LastN(s + [m], n)
  {
    if |s| > n && n > 0 {
      var t := s[|s| - n..];
      assert (t + [m])[1..] == s[|s| - n + 1..] + [m];
      assert (s + [m])[|s| + 1 - n..] == s[|s| + 1 - n..] + [m];
    }
  }

  /** Every chat's history within the limit. */
  predicate Bounded(store: Store) {
    forall c :: c in store ==> |store[c]| <= Limit
  }

  /** What `pushHistory(chatId, role, content)` leaves in the store. */
  function Push(store: Store, chat: ChatId, m: Message): (r: Store)
    ensures r.Keys == store.Keys + {chat}
    ensures forall c :: c in store && c != chat ==> r[c] == store[c]
  {
    store[chat := LastN(History(store, chat) + [m], Limit)]
  }

  /** The pushed message is the newest of the chat's history, which stays
      within the limit. */
  lemma PushAppendsLast(store: Store, chat: ChatId, m: Message)
    ensures var h := History(Push(store, chat, m), chat);
            |h| <= Limit && h != [] && h[|h| - 1] == m
  {
    var full := History(store, chat) + [m];
    var h := LastN(full, Limit);
    assert History(Push(store, chat, m), chat) == h;
    LastNIsSuffix(full, Limit);
  }

  /** `pushHistory` as the source runs it: append, then drop the oldest
      message while the history is over the limit. */
  method PushHistory(store: Store, chat: ChatId, role: Role, content: string) returns (r: Store)
    ensures r == Push(store, chat, Message(role, content))
  {
    var full := History(store, chat) + [Message(role, content)];
    var arr := full;
    ghost var dropped := 0;
    while |arr| > Limit
      invariant 0 <= dropped <= |full| && arr == full[dropped..]
      invariant dropped == 0 || |arr| >= Limit
      decreases |arr|
    {
      arr := arr[1..];
      dropped := dropped + 1;
    }
    r := store[chat := arr];
  }

  /** Pushing keeps every history within the limit. */
  lemma PushBounded(store: Store, chat: ChatId, m: Message)
    requires Bounded(store)
    ensures Bounded(Push(store, chat, m))
  {
  }

  /** The history after any run of pushes is the last 12 messages of the
      whole conversation of that chat. */
  lemma {:induction false} PushAllKeepsLast(store: Store, chat: ChatId, ms: seq<Message>)
    ensures ms != [] ==> History(PushAll(store, chat, ms), chat) == LastN(History(store, chat) + ms, Limit)
    decreases |ms|
  {
    if |ms| > 0 {
      var init := ms[..|ms| - 1];
      var last := ms[|ms| - 1];
      PushAllKeepsLast(store, chat, init);
      var h := History(store, chat);
      var before := PushAll(store, chat, init);
      assert PushAll(store, chat, ms) == Push(before, chat, last);
      assert History(PushAll(store, chat, ms), chat) == LastN(History(before, chat) + [last], Limit);
      assert h + init + [last] == h + ms;
      if init == [] {
        assert before == store;
      } else {
        assert History(before, chat) == LastN(h + init, Limit);
        LastNAppend(h + init, last, Limit);
      }
    }
  }

  /** `ms` pushed to one chat in order. */
  function PushAll(store: Store, chat: ChatId, ms: seq<Message>): Store
    decreases |ms|
  {
    if ms == [] then store
    else Push(PushAll(store, chat, ms[..|ms| - 1]), chat, ms[|ms| - 1])
  }

  /** The reply `chat` returns: the model's text, or '…' when it has none. */
  function ReplyText(answer: string): (r: string)
    ensures r != ""
    ensures answer != "" ==> r == answer
  {
    if answer != "" then answer else "…"
  }

  /** The store after a turn, and the reply `chat` resolves to or the error
      it rejects with. */
  datatype Turn = Turn(store: Store, reply: Result<string>)

  /** `chat(chatId, userText)`: the user's message joins the history and the
      model is asked with that history; when it answers, its reply joins the
      history too, and when the call throws the error propagates and the
      history keeps the user's message without a reply. */
  function Chat(store: Store, chat: ChatId, userText: string, model: seq<Message> -> Result<string>): (r: Turn)
    ensures var answer := model(History(Push(store, chat, Message(User, userText)), chat));
            && (answer.Ok? <==> r.reply.Ok?)
            && (answer.Ok? ==> r.reply.value == ReplyText(answer.value))
            && (answer.Err? ==> r.reply == Err(answer.message))
    ensures r.store.Keys == store.Keys + {chat}
    ensures forall c :: c in store && c != chat ==> r.store[c] == store[c]
  {
    var asked := Push(store, chat, Message(User, userText));
    match model(History(asked, chat))
    case Err(e) => Turn(asked, Err(e))
    case Ok(answer) =>
      var reply := ReplyText(answer);
      Turn(Push(asked, chat, Message(Assistant, reply)), Ok(reply))
  }

  /** The model always sees the user's new message last. After an answered
      turn the history ends with that message and the reply, the reply never
      empty; after a failed one it ends with the user's message. */
  lemma ChatTurnShape(store: Store, chat: ChatId, userText: string, model: seq<Message> -> Result<string>)
    ensures var seen := History(Push(store, chat, Message(User, userText)), chat);
            seen != [] && seen[|seen| - 1] == Message(User, userText)
    ensures var t := Chat(store, chat, userText, model);
            var h := History(t.store, chat);
            t.reply.Ok? ==>
              && 2 <= |h| <= Limit
              && h[|h| - 2] == Message(User, userText)
              && h[|h| - 1] == Message(Assistant, t.reply.value)
              && t.reply.value != ""
    ensures var t := Chat(store, chat, userText, model);
            var h := History(t.store, chat);
            t.reply.Err? ==> 1 <= |h| <= Limit && h[|h| - 1] == Message(User, userText)
  {
    var t := Chat(store, chat, userText, model);
    var h0 := History(store, chat) + [Message(User, userText)];
    assert |LastN(h0, Limit)| >= 1;
    if t.reply.Ok? {
      var h1 := LastN(h0, Limit) + [Message(Assistant, t.reply.value)];
      assert History(t.store, chat) == LastN(h1, Limit);
    }
  }

  /** While a chat holds fewer than 11 messages, an answered turn appends
      exactly the user's message and the reply and a failed one the user's
      message alone, dropping nothing. */
  lemma ChatAppendsWhileShort(store: Store, chat: ChatId, userText: string, model: seq<Message> -> Result<string>)
    requires |History(store, chat)| + 2 <= Limit
    ensures var t := Chat(store, chat, userText, model);
            t.reply.Ok? ==>
              History(t.store, chat) == History(store, chat) + [Message(User, userText), Message(Assistant, t.reply.value)]
    ensures var t := Chat(store, chat, userText, model);
            t.reply.Err? ==> History(t.store, chat) == History(store, chat) + [Message(User, userText)]
  {
  }

  /** `reset(chatId)`. */
  function Reset(store: Store, chat: ChatId): (r: Store)
    ensures chat !in r
    ensures r.Keys == store.Keys - {chat}
    ensures forall c :: c in store && c != chat ==> r[c] == store[c]
  {
    store - {chat}
  }

  /** After a reset the model is shown only the new message. */
  lemma ChatAfterReset(store: Store, chat: ChatId, userText: string)
    ensures History(Push(Reset(store, chat), chat, Message(User, userText)), chat) == [Message(User, userText)]
  {
  }
}

=== FILE: chunk.dfy ===
/** `chunk(str, size)` of src/utils.js: the text is split into its code
    points (`Array.from`), and each run of `size` code points is joined back
    into one piece. Texts are modelled here as UTF-16 code units, the way
    JavaScript stores them, so that the grouping into code points — a high
    surrogate followed by a low one is one code point, every other unit is
    one by itself — is part of the model. */
module Chunking {
  import opened JsText

  /** A UTF-16 code unit. */
  newtype CodeUnit = x: int | 0 <= x < 0x1_0000

  /** `chunk`'s default piece size. */
  const DefaultSize: nat := 3500

  predicate IsHigh(u: CodeUnit) {
    0xD800 <= u <= 0xDBFF
  }

  predicate IsLow(u: CodeUnit) {
    0xDC00 <= u <= 0xDFFF
  }

  /** The units of one code point as `Array.from` yields it: a surrogate
      pair, or a single unit. */
  predicate IsCodePoint(c: seq<CodeUnit>) {
    |c| == 1 || (|c| == 2 && IsHigh(c[0]) && IsLow(c[1]))
  }

  /** No lone high surrogate is directly followed by a low one: a pair is
      never split across two code points. */
  predicate Canonical(g: seq<seq<CodeUnit>>) {
    && (forall i :: 0 <= i < |g| ==> IsCodePoint(g[i]))
    && (forall i :: 0 <= i < |g| - 1 && |g[i]| == 1 && IsHigh(g[i][0]) ==> !IsLow(g[i + 1][0]))
  }

  /** `pieces.join('')`. */
  function Flatten<T>(pieces: seq<seq<T>>): seq<T>
    decreases |pieces|
  {
    if pieces == [] then [] else pieces[0] + Flatten(pieces[1..])
  }

  lemma {:induction false} FlattenAppend<T>(a: seq<seq<T>>, b: seq<seq<T>>)
    ensures Flatten(a + b) == Flatten(a) + Flatten(b)
    decreases |a|
  {
    if a == [] {
      assert a + b == b;
    } else {
      assert (a + b)[1..] == a[1..] + b;
      FlattenAppend(a[1..], b);
    }
  }

  /** `Array.from(str)`: the code points of a text, in order. */
  function CodePoints(u: seq<CodeUnit>): (g: seq<seq<CodeUnit>>)
    ensures Flatten(g) == u
    ensures |g| <= |u|
    decreases |u|
  {
    if u == [] then []
    else
      var n := if |u| >= 2 && IsHigh(u[0]) && IsLow(u[1]) then 2 else 1;
      var rest := CodePoints(u[n..]);
      assert u == u[..n] + u[n..];
      [u[..n]] + rest
  }

  /** `Array.from` yields code points and never splits a surrogate pair. */
  lemma {:induction false} CodePointsCanonical(u: seq<CodeUnit>)
    ensures Canonical(CodePoints(u))
    ensures u != [] ==> CodePoints(u) != [] && CodePoints(u)[0][0] == u[0]
    decreases |u|
  {
    if u != [] {
      var n := if |u| >= 2 && IsHigh(u[0]) && IsLow(u[1]) then 2 else 1;
      CodePointsCanonical(u[n..]);
      var rest := CodePoints(u[n..]);
      var g := CodePoints(u);
      assert g == [u[..n]] + rest;
      if rest != [] && n == 1 {
        assert rest[0][0] == u[1];
      }
    }
  }

  /** A slice of a canonical sequence of code points is canonical. */
  lemma CanonicalSlice(g: seq<seq<CodeUnit>>, a: nat, b: nat)
    requires Canonical(g) && a <= b <= |g|
    ensures Canonical(g[a..b])
  {
    var s := g[a..b];
    forall i | 0 <= i < |s| - 1 && |s[i]| == 1 && IsHigh(s[i][0])
      ensures !IsLow(s[i + 1][0])
    {
      assert s[i] == g[a + i] && s[i + 1] == g[a + i + 1];
    }
  }

  /** Reading back the code points of joined code points gives them back:
      `Array.from` inverts `join('')` on canonical input. */
  lemma {:induction false} CodePointsOfFlatten(g: seq<seq<CodeUnit>>)
    requires Canonical(g)
    ensures CodePoints(Flatten(g)) == g
    decreases |g|
  {
    if g != [] {
      CodePointsCanonical(Flatten(g));
      var u := Flatten(g);
      var rest := Flatten(g[1..]);
      assert u == g[0] + rest;
      CanonicalSlice(g, 1, |g|);
      CodePointsOfFlatten(g[1..]);
      if |g[0]| == 2 {
        assert u[..2] == g[0] && u[2..] == rest;
      } else {
        assert u[..1] == g[0] && u[1..] == rest;
        if |g| > 1 {
          assert IsCodePoint(g[1]);
          assert rest == g[1] + Flatten(g[2..]);
          assert u[1] == g[1][0];
        }
      }
    }
  }

  /** The pieces of `cps` taken `size` at a time, each joined: the
      reference for the loop of `chunk`. */
  function Pieces(cps: seq<seq<CodeUnit>>, size: nat): (r: seq<seq<CodeUnit>>)
    requires size >= 1
    ensures |r| <= |cps| && (cps == [] <==> r == [])
    decreases |cps|
  {
    if cps == [] then []
    else
      var n := Min(size, |cps|);
      [Flatten(cps[..n])] + Pieces(cps[n..], size)
  }

  /** Joining the pieces gives back the joined code points. */
  lemma {:induction false} PiecesFlatten(cps: seq<seq<CodeUnit>>, size: nat)
    requires size >= 1
    ensures Flatten(Pieces(cps, size)) == Flatten(cps)
    decreases |cps|
  {
    if cps != [] {
      var n := Min(size, |cps|);
      PiecesFlatten(cps[n..], size);
      assert cps == cps[..n] + cps[n..];
      FlattenAppend(cps[..n], cps[n..]);
    }
  }

  /** One step of the cursor: the pieces from `i` on are the piece at `i`
      and the pieces after it. */
  lemma PiecesStep(arr: seq<seq<CodeUnit>>, i: nat, size: nat)
    requires size >= 1 && i < |arr|
    ensures Pieces(arr[i..], size)
            == [Flatten(arr[i..Min(i + size, |arr|)])] + Pieces(arr[Min(i + size, |arr|)..], size)
  {
    var tail := arr[i..];
    var n := Min(size, |tail|);
    assert i + n == Min(i + size, |arr|);
    assert tail[..n] == arr[i..i + n];
    assert tail[n..] == arr[i + n..];
  }

  lemma AppendAssociative<T>(a: seq<T>, b: seq<T>, c: seq<T>)
    ensures a + (b + c) == (a + b) + c
  {
  }

  /** `chunk(units, size)` as the source runs it: a cursor moves over the
      code points `size` at a time, each slice joined and pushed. */
  method Chunk(units: seq<CodeUnit>, size: int) returns (out: seq<seq<CodeUnit>>)
    requires size >= 1
    ensures out == Pieces(CodePoints(units), size)
    ensures Flatten(out) == units
    ensures units == [] <==> out == []
  {
    out := [];
    var arr := CodePoints(units);
    var i: nat := 0;
    while i < |arr|
      invariant out + Pieces(arr[Min(i, |arr|)..], size) == Pieces(arr, size)
      decreases |arr| - i
    {
      var next := Min(i + size, |arr|);
      var piece := Flatten(arr[i..next]);
      assert (out + [piece]) + Pieces(arr[next..], size) == Pieces(arr, size) by {
        PiecesStep(arr, i, size);
        AppendAssociative(out, [piece], Pieces(arr[next..], size));
      }
      out := out + [piece];
      i := i + size;
      assert Min(i, |arr|) == next;
    }
    PiecesFlatten(arr, size);
  }

  /** The code points of each piece. */
  function PieceCodePoints(pieces: seq<seq<CodeUnit>>): (r: seq<seq<seq<CodeUnit>>>)
    ensures |r| == |pieces|
    ensures forall k :: 0 <= k < |pieces| ==> r[k] == CodePoints(pieces[k])
  {
    seq(|pieces|, k requires 0 <= k < |pieces| => CodePoints(pieces[k]))
  }

  /** The first piece reads back as the first `size` code points, and the
      code points after them are canonical too. */
  lemma FirstPiece(cps: seq<seq<CodeUnit>>, size: nat)
    requires size >= 1 && Canonical(cps) && cps != []
    ensures var n := Min(size, |cps|);
            && Pieces(cps, size) == [Flatten(cps[..n])] + Pieces(cps[n..], size)
            && CodePoints(Flatten(cps[..n])) == cps[..n]
            && Canonical(cps[n..])
  {
    var n := Min(size, |cps|);
    CanonicalSlice(cps, 0, n);
    CanonicalSlice(cps, n, |cps|);
    CodePointsOfFlatten(cps[..n]);
  }

  /** Reading the pieces' code points one after another gives back all the
      code points in order: no surrogate pair is ever split between two
      pieces. */
  lemma {:induction false} PiecesKeepCodePoints(cps: seq<seq<CodeUnit>>, size: nat)
    requires size >= 1 && Canonical(cps)
    ensures Flatten(PieceCodePoints(Pieces(cps, size))) == cps
    decreases |cps|
  {
    if cps != [] {
      var n := Min(size, |cps|);
      FirstPiece(cps, size);
      PiecesKeepCodePoints(cps[n..], size);
      var r := Pieces(cps, size);
      var tailPieces := Pieces(cps[n..], size);
      assert PieceCodePoints(r) == [cps[..n]] + PieceCodePoints(tailPieces);
      assert cps == cps[..n] + cps[n..];
    }
  }

  /** Every piece holds between 1 and `size` code points, and every piece
      but the last exactly `size`. */
  lemma {:induction false} PiecesSizes(cps: seq<seq<CodeUnit>>, size: nat)
    requires size >= 1 && Canonical(cps)
    ensures var r := Pieces(cps, size);
            && (forall k :: 0 <= k < |r| ==> 1 <= |CodePoints(r[k])| <= size)
            && (forall k :: 0 <= k < |r| - 1 ==> |CodePoints(r[k])| == size)
    decreases |cps|
  {
    if cps != [] {
      var n := Min(size, |cps|);
      FirstPiece(cps, size);
      PiecesSizes(cps[n..], size);
      var r := Pieces(cps, size);
      var tailPieces := Pieces(cps[n..], size);
      forall k | 0 <= k < |r|
        ensures 1 <= |CodePoints(r[k])| <= size
        ensures k < |r| - 1 ==> |CodePoints(r[k])| == size
      {
        if k > 0 {
          assert r[k] == tailPieces[k - 1];
        } else if |r| > 1 {
          assert n == size;
        }
      }
    }
  }

  /** What `chunk` returns: pieces of 1 to `size` code points, all but the
      last exactly `size`, whose code points are the text's. */
  lemma ChunkShape(units: seq<CodeUnit>, size: nat)
    requires size >= 1
    ensures var r := Pieces(CodePoints(units), size);
            && Flatten(PieceCodePoints(r)) == CodePoints(units)
            && (forall k :: 0 <= k < |r| ==> 1 <= |CodePoints(r[k])| <= size)
            && (forall k :: 0 <= k < |r| - 1 ==> |CodePoints(r[k])| == size)
  {
    CodePointsCanonical(units);
    PiecesKeepCodePoints(CodePoints(units), size);
    PiecesSizes(CodePoints(units), size);
  }

  /** A text of code points `size` or fewer is one piece; an empty text none. */
  lemma ShortTextOnePiece(units: seq<CodeUnit>, size: nat)
    requires size >= 1 && units != [] && |CodePoints(units)| <= size
    ensures Pieces(CodePoints(units), size) == [units]
  {
    var cps := CodePoints(units);
    assert cps[..|cps|] == cps;
    assert cps[|cps|..] == [];
  }
}

=== FILE: formatters.dfy ===
/** What the two HTML texts of src/formatters.js are made of: which units a
    page of `formatUnitsPage` lists, how it numbers and labels them, and
    what `formatVinCardHtml` reads from a VIN response — the language, the
    vehicle, the attributes it lists, and the catalog and `ssd` it hands on.
    The HTML layout itself is not modelled; the results are the data each
    text is printed from. */
module Formatters {
  import opened JsText
  import opened JsValue
  import opened Utils
  import opened Paging

  // ------------------------------------------------------- formatUnitsPage

  /** The defaults of `formatUnitsPage`'s `perPage` and `locale`. */
  const DefaultPerPage: int := 10
  const DefaultLocale: string := "ru_RU"

  /** One line of a units page: its number and the unit's label. */
  datatype UnitLine = UnitLine(index: int, name: string)

  /** A units page: whether the title is Russian, the range `from + 1`–`to`
      of the subtitle, the total, and the lines. */
  datatype UnitsPage = UnitsPage(russian: bool, start: int, stop: int, total: nat, lines: seq<UnitLine>)

  /** `String(u?.name ?? u?.text ?? u?.title ?? `#${u?.id ?? ''}`)`. */
  function UnitLabel(u: Value): (r: string)
    ensures !Nullish(Prop(u, "name")) ==> r == ToStr(Prop(u, "name"))
    ensures Nullish(Prop(u, "name")) && !Nullish(Prop(u, "text")) ==> r == ToStr(Prop(u, "text"))
    ensures Nullish(Prop(u, "name")) && Nullish(Prop(u, "text")) && !Nullish(Prop(u, "title")) ==> r == ToStr(Prop(u, "title"))
    ensures Nullish(Prop(u, "name")) && Nullish(Prop(u, "text")) && Nullish(Prop(u, "title")) ==>
              r == "#" + ToStr(Coalesce(Prop(u, "id"), Str("")))
  {
    ToStr(Coalesce(Coalesce(Coalesce(Prop(u, "name"), Prop(u, "text")), Prop(u, "title")),
                   Str("#" + ToStr(Coalesce(Prop(u, "id"), Str(""))))))
  }

  /** `formatUnitsPage(units, page, perPage, locale)`. The title test is
      `locale.startsWith('ru')`, which is case-sensitive. */
  function FormatUnitsPage(units: seq<Value>, page: int, perPage: int, locale: string): (r: UnitsPage)
    ensures r.russian <==> StartsWith(locale, "ru")
    ensures r.total == |units| && r.start == page * perPage
    ensures r.stop == Min(page * perPage + perPage, |units|)
    ensures 0 <= page && 0 <= perPage && page * perPage <= |units| ==> r.stop == r.start + |r.lines|
    ensures |r.lines| == |Window(units, page, perPage)|
    ensures forall i :: 0 <= i < |r.lines| ==> r.lines[i].index == page * perPage + i + 1
  {
    var from := page * perPage;
    var to := Min(from + perPage, |units|);
    var slice := Window(units, page, perPage);
    UnitsPage(StartsWith(locale, "ru"), from, to, |units|,
              seq(|slice|, i requires 0 <= i < |slice| => UnitLine(from + i + 1, UnitLabel(slice[i]))))
  }

  /** On a page in range, at most `perPage` lines, and each line's number is
      the unit's 1-based position in the whole list, shown with that unit's
      label. */
  lemma UnitLinesAreNumberedGlobally(units: seq<Value>, page: nat, perPage: nat, locale: string)
    ensures var p := FormatUnitsPage(units, page, perPage, locale);
            && |p.lines| <= perPage
            && forall i :: 0 <= i < |p.lines| ==>
                 && 1 <= p.lines[i].index <= |units|
                 && p.lines[i].name == UnitLabel(units[p.lines[i].index - 1])
  {
    var p := FormatUnitsPage(units, page, perPage, locale);
    var w := Window(units, page, perPage);
    MulNonNegative(page, perPage);
    forall i | 0 <= i < |p.lines|
      ensures 1 <= p.lines[i].index <= |units|
      ensures p.lines[i].name == UnitLabel(units[p.lines[i].index - 1])
    {
      LineOfPage(units, page, perPage, locale, i);
      assert PageStart(page, perPage) < |units|;
      assert w[i] == units[page * perPage + i];
    }
  }

  /** A page that starts past the last unit lists none. */
  lemma UnitsPagePastEnd(units: seq<Value>, page: nat, perPage: nat, locale: string)
    requires page * perPage >= |units|
    ensures FormatUnitsPage(units, page, perPage, locale).lines == []
  {
  }

  /** Every unit is listed on page `j / perPage`, as line `j % perPage`,
      numbered `j + 1`. */
  lemma EveryUnitIsListed(units: seq<Value>, j: nat, perPage: int, locale: string)
    requires j < |units| && perPage >= 1
    ensures var lines := FormatUnitsPage(units, j / perPage, perPage, locale).lines;
            && j % perPage < |lines|
            && lines[j % perPage] == UnitLine(j + 1, UnitLabel(units[j]))
  {
    var q, o := j / perPage, j % perPage;
    ItemOnItsPage(units, j, perPage);
    LineOfPage(units, q, perPage, locale, o);
    Recompose(j, perPage);
  }

  /** A position is its page's start plus its offset on the page. */
  lemma Recompose(j: nat, perPage: int)
    requires perPage >= 1
    ensures (j / perPage) * perPage + j % perPage == j
  {
  }

  /** Line `i` of a page shows the page's `i`-th unit. */
  lemma LineOfPage(units: seq<Value>, page: int, perPage: int, locale: string, i: nat)
    requires i < |Window(units, page, perPage)|
    ensures var p := FormatUnitsPage(units, page, perPage, locale);
            && i < |p.lines|
            && p.lines[i] == UnitLine(page * perPage + i + 1, UnitLabel(Window(units, page, perPage)[i]))
  {
  }

  // ----------------------------------------------------- formatVinCardHtml

  /** The attributes the card can list. */
  datatype AttributeKey =
    | Date | Manufactured | ProdRange | Engine | EngineInfo | Transmission | FrameColor | TrimColor

  /** The attribute's name in the response. */
  function KeyName(k: AttributeKey): string {
    match k
    case Date => "date"
    case Manufactured => "manufactured"
    case ProdRange => "prodrange"
    case Engine => "engine"
    case EngineInfo => "engine_info"
    case Transmission => "transmission"
    case FrameColor => "framecolor"
    case TrimColor => "trimcolor"
  }

  /** The order the card lists the attributes in. */
  const AttributeKeys: seq<AttributeKey> :=
    [Date, Manufactured, ProdRange, Engine, EngineInfo, Transmission, FrameColor, TrimColor]

  /** The label of an attribute in a language: `labels[lang][key]`. */
  function Label(lang: string, k: AttributeKey): string {
    if lang == "ru" then
      match k
      case Date => "Дата выпуска"
      case Manufactured => "Выпущено"
      case ProdRange => "Период производства"
      case Engine => "Двигатель"
      case EngineInfo => "Двигатель"
      case Transmission => "КПП"
      case FrameColor => "Цвет кузова"
      case TrimColor => "Цвет салона"
    else
      match k
      case Date => "Production date"
      case Manufactured => "Manufactured"
      case ProdRange => "Production range"
      case Engine => "Engine"
      case EngineInfo => "Engine"
      case Transmission => "Transmission"
      case FrameColor => "Body color"
      case TrimColor => "Interior color"
  }

  /** A listed attribute: its key, label and value. */
  datatype Attribute = Attribute(key: AttributeKey, name: string, value: Value)

  /** `A?.[k]?.value ?? ''`. */
  function AttributeValue(attrs: Value, k: AttributeKey): Value {
    Coalesce(Prop(Prop(attrs, KeyName(k)), "value"), Str(""))
  }

  /** The attribute `k`, when its value is truthy. */
  function Keep(attrs: Value, lang: string, k: AttributeKey): seq<Attribute> {
    var v := AttributeValue(attrs, k);
    if Truthy(v) then [Attribute(k, Label(lang, k), v)] else []
  }

  /** The card's attribute list over `keys`, filtered by `!!val`. */
  function Selected(attrs: Value, lang: string, keys: seq<AttributeKey>): (r: seq<Attribute>)
    ensures |r| <= |keys|
    ensures forall i :: 0 <= i < |r| ==>
              && r[i].key in keys
              && Truthy(r[i].value)
              && r[i].value == AttributeValue(attrs, r[i].key)
              && r[i].name == Label(lang, r[i].key)
    decreases |keys|
  {
    if keys == [] then []
    else Keep(attrs, lang, keys[0]) + Selected(attrs, lang, keys[1..])
  }

  /** Every key whose value is truthy is listed. */
  lemma {:induction false} SelectedComplete(attrs: Value, lang: string, keys: seq<AttributeKey>, k: AttributeKey)
    requires k in keys && Truthy(AttributeValue(attrs, k))
    ensures exists i :: 0 <= i < |Selected(attrs, lang, keys)| && Selected(attrs, lang, keys)[i].key == k
    decreases |keys|
  {
    var r := Selected(attrs, lang, keys);
    var head := Keep(attrs, lang, keys[0]);
    var rest := Selected(attrs, lang, keys[1..]);
    assert r == head + rest;
    if keys[0] == k {
      assert r[0].key == k;
    } else {
      assert k in keys[1..];
      SelectedComplete(attrs, lang, keys[1..], k);
      var i :| 0 <= i < |rest| && rest[i].key == k;
      assert r[|head| + i] == rest[i];
    }
  }

  /** `Selected` takes the keys one at a time. */
  lemma SelectedStep(attrs: Value, lang: string, keys: seq<AttributeKey>)
    requires keys != []
    ensures Selected(attrs, lang, keys) == Keep(attrs, lang, keys[0]) + Selected(attrs, lang, keys[1..])
  {
  }

  /** Over the card's keys the filter keeps the fixed order: each of the
      eight attributes in turn, present exactly when its value is truthy. */
  lemma SelectedInCardOrder(attrs: Value, lang: string)
    ensures Selected(attrs, lang, AttributeKeys) ==
              Keep(attrs, lang, Date) + (Keep(attrs, lang, Manufactured) + (Keep(attrs, lang, ProdRange)
              + (Keep(attrs, lang, Engine) + (Keep(attrs, lang, EngineInfo) + (Keep(attrs, lang, Transmission)
              + (Keep(attrs, lang, FrameColor) + Keep(attrs, lang, TrimColor)))))))
  {
    var ks := AttributeKeys;
    SelectedStep(attrs, lang, ks);
    SelectedStep(attrs, lang, ks[1..]);
    SelectedStep(attrs, lang, ks[2..]);
    SelectedStep(attrs, lang, ks[3..]);
    SelectedStep(attrs, lang, ks[4..]);
    SelectedStep(attrs, lang, ks[5..]);
    SelectedStep(attrs, lang, ks[6..]);
    SelectedStep(attrs, lang, ks[7..]);
    assert ks[1..][1..] == ks[2..] && ks[2..][1..] == ks[3..] && ks[3..][1..] == ks[4..];
    assert ks[4..][1..] == ks[5..] && ks[5..][1..] == ks[6..] && ks[6..][1..] == ks[7..];
    assert ks[7..][1..] == [];
    assert Keep(attrs, lang, TrimColor) + [] == Keep(attrs, lang, TrimColor);
  }

  /** With no truthy value among the keys, nothing is listed. */
  lemma {:induction false} NoneSelected(attrs: Value, lang: string, keys: seq<AttributeKey>)
    requires forall k :: k in keys ==> !Truthy(AttributeValue(attrs, k))
    ensures Selected(attrs, lang, keys) == []
    decreases |keys|
  {
    if keys != [] {
      NoneSelected(attrs, lang, keys[1..]);
    }
  }

  /** The vehicle the card describes: the first of `root[0].vehicles` for
      an array root, else of `root.vehicles`, where `root` is
      `json?.data ?? json`; `null` when there is no vehicle list. */
  function FirstVehicle(json: Value): Value {
    var root := Coalesce(Prop(json, "data"), json);
    var vehicles := if root.Arr? then Prop(Index(root, 0), "vehicles") else Prop(root, "vehicles");
    if vehicles.Arr? then Index(vehicles, 0) else Null
  }

  /** The vehicle is found under a `data` array, under a bare response, and
      is `null` when the vehicle list is missing or the response empty. */
  lemma FirstVehicleShapes(veh: Value, more: seq<Value>, rest: seq<Value>)
    ensures FirstVehicle(Obj(map["data" := Arr([Obj(map["vehicles" := Arr([veh] + more)])] + rest)])) == veh
    ensures FirstVehicle(Obj(map["vehicles" := Arr([veh] + more)])) == veh
    ensures FirstVehicle(Obj(map["data" := Arr([])])) == Null
    ensures FirstVehicle(Obj(map["data" := Arr([Obj(map[])] + rest)])) == Null
  {
    assert "data" != "vehicles";
  }

  /** For each shape of the response: the first element of the vehicle list
      when there is one, and `null` whenever the vehicle list is not an
      array. */
  lemma FirstVehicleOfEveryShape(json: Value)
    ensures var data := Prop(json, "data");
            && (data.Arr? ==> var vs := Prop(Index(data, 0), "vehicles");
                  FirstVehicle(json) == if vs.Arr? then Index(vs, 0) else Null)
            && (!Nullish(data) && !data.Arr? ==> var vs := Prop(data, "vehicles");
                  FirstVehicle(json) == if vs.Arr? then Index(vs, 0) else Null)
            && (Nullish(data) && json.Arr? ==> var vs := Prop(Index(json, 0), "vehicles");
                  FirstVehicle(json) == if vs.Arr? then Index(vs, 0) else Null)
            && (Nullish(data) && !json.Arr? ==> var vs := Prop(json, "vehicles");
                  FirstVehicle(json) == if vs.Arr? then Index(vs, 0) else Null)
  {
  }

  /** `v?.attributes || {}` of the card's vehicle. */
  function Attributes(json: Value): Value {
    Or(Prop(FirstVehicle(json), "attributes"), Obj(map[]))
  }

  /** What `formatVinCardHtml` prints and returns: the language, the VIN and
      locale of the subtitle, the brand and model of the title (headed by
      `Utils.BrandEmoji(brand)`), the attribute lines, and `tech`'s catalog
      and ssd. */
  datatype VinCard = VinCard(lang: string, vin: Value, locale: Value, brand: Value, model: Value,
                             items: seq<Attribute>, catalog: Value, ssd: Value)

  /** `formatVinCardHtml(json)`. */
  function FormatVinCard(json: Value): (r: VinCard)
    ensures r.lang == "ru" || r.lang == "en"
    ensures r.lang == DetectLang(r.locale) && Truthy(r.locale)
    ensures Truthy(Prop(json, "locale")) ==> r.locale == Prop(json, "locale")
    ensures !Truthy(Prop(json, "locale")) ==> r.locale == Str(DefaultLocale)
    ensures Truthy(Prop(json, "vin")) ==> r.vin == Prop(json, "vin")
    ensures !Truthy(Prop(json, "vin")) ==> r.vin == Str("")
    ensures r.brand == Or(Prop(FirstVehicle(json), "brand"), Str(""))
    ensures r.model == Or(Prop(FirstVehicle(json), "name"), Str(""))
    ensures r.items == Selected(Attributes(json), r.lang, AttributeKeys)
    ensures r.catalog == Or(Prop(FirstVehicle(json), "catalog"), Str(""))
    ensures r.ssd == Or(Prop(FirstVehicle(json), "ssd"), Str(""))
  {
    var locale := Or(Prop(json, "locale"), Str(DefaultLocale));
    var lang := DetectLang(locale);
    var v := FirstVehicle(json);
    VinCard(lang, Or(Prop(json, "vin"), Str("")), locale, Or(Prop(v, "brand"), Str("")), Or(Prop(v, "name"), Str("")),
            Selected(Attributes(json), lang, AttributeKeys),
            Or(Prop(v, "catalog"), Str("")), Or(Prop(v, "ssd"), Str("")))
  }

  /** The card considers every attribute, each exactly once. */
  lemma EveryKeyOnTheCard(k: AttributeKey)
    ensures k in AttributeKeys
    ensures forall i, j :: 0 <= i < j < |AttributeKeys| ==> AttributeKeys[i] != AttributeKeys[j]
  {
    match k
    case Date => assert AttributeKeys[0] == k;
    case Manufactured => assert AttributeKeys[1] == k;
    case ProdRange => assert AttributeKeys[2] == k;
    case Engine => assert AttributeKeys[3] == k;
    case EngineInfo => assert AttributeKeys[4] == k;
    case Transmission => assert AttributeKeys[5] == k;
    case FrameColor => assert AttributeKeys[6] == k;
    case TrimColor => assert AttributeKeys[7] == k;
  }

  /** An attribute with a truthy value is always listed. */
  lemma VinCardListsEveryTruthyAttribute(json: Value, k: AttributeKey)
    requires Truthy(AttributeValue(Attributes(json), k))
    ensures exists i :: 0 <= i < |FormatVinCard(json).items| && FormatVinCard(json).items[i].key == k
  {
    var card := FormatVinCard(json);
    EveryKeyOnTheCard(k);
    SelectedComplete(Attributes(json), card.lang, AttributeKeys, k);
  }

  /** Without a locale the card is in Russian. */
  lemma VinCardDefaultsToRussian(json: Value)
    requires !Truthy(Prop(json, "locale"))
    ensures FormatVinCard(json).lang == "ru"
  {
    DetectLangIsRuPrefix(Str(DefaultLocale));
  }

  /** A response's own locale decides the language: Russian exactly when
      its text begins with `ru` in either case. */
  lemma VinCardLanguageFromLocale(json: Value)
    requires Truthy(Prop(json, "locale"))
    ensures var s := Text(Prop(json, "locale"));
            FormatVinCard(json).lang == "ru" <==> |s| >= 2 && (s[0] == 'r' || s[0] == 'R') && (s[1] == 'u' || s[1] == 'U')
  {
    DetectLangIsRuPrefix(Prop(json, "locale"));
  }

  /** Without a vehicle the card lists no attribute, and `tech` holds empty
      catalog and ssd. */
  lemma VinCardWithoutVehicle(json: Value)
    requires FirstVehicle(json) == Null
    ensures FormatVinCard(json).items == []
    ensures FormatVinCard(json).catalog == Str("") && FormatVinCard(json).ssd == Str("")
  {
    NoVehicleNoAttributes(json);
    NoneSelected(Attributes(json), FormatVinCard(json).lang, AttributeKeys);
  }

  lemma NoVehicleNoAttributes(json: Value)
    requires FirstVehicle(json) == Null
    ensures Attributes(json) == Obj(map[])
    ensures Prop(FirstVehicle(json), "catalog") == Undefined && Prop(FirstVehicle(json), "ssd") == Undefined
  {
  }
}

=== FILE: html_escape.dfy ===
/** HTML escaping as the bot does it before sending text with
    `parse_mode: 'HTML'`. `escapeHtml` in src/utils.js replaces five
    characters, the private `escapeHtml` of src/telegram.js only the first
    three; both do it as a chain of global single-character replacements,
    `&` first. The partner of both is `Unescape`, which reads the entities
    back as an HTML renderer does. */
module HtmlEscape {
  import opened JsText

  /** The entity utils.js writes for one character. */
  function EntityOf(c: char): string {
    if c == '&' then "&amp;"
    else if c == '<' then "&lt;"
    else if c == '>' then "&gt;"
    else if c == '"' then "&quot;"
    else if c == '\'' then "&#39;"
    else [c]
  }

  /** The entity telegram.js writes for one character. */
  function BasicEntityOf(c: char): string {
    if c == '&' then "&amp;"
    else if c == '<' then "&lt;"
    else if c == '>' then "&gt;"
    else [c]
  }

  /** Each character of `s` written out by `f`, in order. */
  function Expand(s: string, f: char -> string): string
    decreases |s|
  {
    if s == [] then [] else f(s[0]) + Expand(s[1..], f)
  }

  /** `escapeHtml(s)` of src/utils.js. */
  function EscapeHtml(s: string): (r: string)
    ensures '<' !in r && '>' !in r && '"' !in r && '\'' !in r
  {
    var s1 := ReplaceChar(s, '&', "&amp;");
    var s2 := ReplaceChar(s1, '<', "&lt;");
    var s3 := ReplaceChar(s2, '>', "&gt;");
    var s4 := ReplaceChar(s3, '"', "&quot;");
    ReplaceChar(s4, '\'', "&#39;")
  }

  /** `escapeHtml(s)` of src/telegram.js. */
  function EscapeHtmlBasic(s: string): (r: string)
    ensures '<' !in r && '>' !in r
  {
    var s1 := ReplaceChar(s, '&', "&amp;");
    var s2 := ReplaceChar(s1, '<', "&lt;");
    ReplaceChar(s2, '>', "&gt;")
  }

  lemma EscapeHtmlAppend(a: string, b: string)
    ensures EscapeHtml(a + b) == EscapeHtml(a) + EscapeHtml(b)
  {
    var a1 := ReplaceChar(a, '&', "&amp;");
    var b1 := ReplaceChar(b, '&', "&amp;");
    ReplaceCharAppend(a, b, '&', "&amp;");
    var a2 := ReplaceChar(a1, '<', "&lt;");
    var b2 := ReplaceChar(b1, '<', "&lt;");
    ReplaceCharAppend(a1, b1, '<', "&lt;");
    var a3 := ReplaceChar(a2, '>', "&gt;");
    var b3 := ReplaceChar(b2, '>', "&gt;");
    ReplaceCharAppend(a2, b2, '>', "&gt;");
    var a4 := ReplaceChar(a3, '"', "&quot;");
    var b4 := ReplaceChar(b3, '"', "&quot;");
    ReplaceCharAppend(a3, b3, '"', "&quot;");
    ReplaceCharAppend(a4, b4, '\'', "&#39;");
  }

  lemma EscapeHtmlBasicAppend(a: string, b: string)
    ensures EscapeHtmlBasic(a + b) == EscapeHtmlBasic(a) + EscapeHtmlBasic(b)
  {
    var a1 := ReplaceChar(a, '&', "&amp;");
    var b1 := ReplaceChar(b, '&', "&amp;");
    ReplaceCharAppend(a, b, '&', "&amp;");
    var a2 := ReplaceChar(a1, '<', "&lt;");
    var b2 := ReplaceChar(b1, '<', "&lt;");
    ReplaceCharAppend(a1, b1, '<', "&lt;");
    ReplaceCharAppend(a2, b2, '>', "&gt;");
  }

  /** No entity holds a character that a later pass replaces. */
  lemma EntitiesHaveNoMarkup()
    ensures forall e :: e in ["&amp;", "&lt;", "&gt;", "&quot;", "&#39;"] ==>
              '<' !in e && '>' !in e && '"' !in e && '\'' !in e
  {
  }

  /** The passes after the first leave alone a text without their
      characters. */
  lemma LaterPassesKeep(e: string)
    requires '<' !in e && '>' !in e && '"' !in e && '\'' !in e
    ensures ReplaceChar(ReplaceChar(ReplaceChar(ReplaceChar(e, '<', "&lt;"), '>', "&gt;"), '"', "&quot;"), '\'', "&#39;") == e
  {
    ReplaceCharAbsent(e, '<', "&lt;");
    ReplaceCharAbsent(e, '>', "&gt;");
    ReplaceCharAbsent(e, '"', "&quot;");
    ReplaceCharAbsent(e, '\'', "&#39;");
  }

  lemma EscapeAmpersandOne()
    ensures EscapeHtml("&") == "&amp;"
  {
    EntitiesHaveNoMarkup();
    ReplaceCharOne('&', '&', "&amp;");
    LaterPassesKeep("&amp;");
  }

  lemma EscapeLessOne()
    ensures EscapeHtml("<") == "&lt;"
  {
    EntitiesHaveNoMarkup();
    var e := "&lt;";
    ReplaceCharOne('<', '&', "&amp;");
    assert ReplaceChar("<", '&', "&amp;") == "<";
    ReplaceCharOne('<', '<', e);
    assert ReplaceChar("<", '<', e) == e;
    ReplaceCharAbsent(e, '>', "&gt;");
    ReplaceCharAbsent(e, '"', "&quot;");
    ReplaceCharAbsent(e, '\'', "&#39;");
  }

  lemma EscapeGreaterOne()
    ensures EscapeHtml(">") == "&gt;"
  {
    EntitiesHaveNoMarkup();
    var e := "&gt;";
    ReplaceCharOne('>', '&', "&amp;");
    assert ReplaceChar(">", '&', "&amp;") == ">";
    ReplaceCharOne('>', '<', "&lt;");
    assert ReplaceChar(">", '<', "&lt;") == ">";
    ReplaceCharOne('>', '>', e);
    assert ReplaceChar(">", '>', e) == e;
    ReplaceCharAbsent(e, '"', "&quot;");
    ReplaceCharAbsent(e, '\'', "&#39;");
  }

  lemma EscapeQuoteOne()
    ensures EscapeHtml("\"") == "&quot;"
  {
    EntitiesHaveNoMarkup();
    var e := "&quot;";
    ReplaceCharOne('"', '&', "&amp;");
    assert ReplaceChar("\"", '&', "&amp;") == "\"";
    ReplaceCharOne('"', '<', "&lt;");
    assert ReplaceChar("\"", '<', "&lt;") == "\"";
    ReplaceCharOne('"', '>', "&gt;");
    assert ReplaceChar("\"", '>', "&gt;") == "\"";
    ReplaceCharOne('"', '"', e);
    assert ReplaceChar("\"", '"', e) == e;
    ReplaceCharAbsent(e, '\'', "&#39;");
  }

  lemma EscapeOtherOne(c: char)
    requires c != '&' && c != '<' && c != '>' && c != '"'
    ensures EscapeHtml([c]) == EntityOf(c)
  {
    ReplaceCharOne(c, '&', "&amp;");
    ReplaceCharOne(c, '<', "&lt;");
    ReplaceCharOne(c, '>', "&gt;");
    ReplaceCharOne(c, '"', "&quot;");
    ReplaceCharOne(c, '\'', "&#39;");
  }

  /** Later passes leave an entity written by an earlier one alone. */
  lemma EscapeHtmlOne(c: char)
    ensures EscapeHtml([c]) == EntityOf(c)
  {
    if c == '&' {
      EscapeAmpersandOne();
    } else if c == '<' {
      EscapeLessOne();
    } else if c == '>' {
      EscapeGreaterOne();
    } else if c == '"' {
      EscapeQuoteOne();
    } else {
      EscapeOtherOne(c);
    }
  }

  lemma EscapeHtmlBasicOne(c: char)
    ensures EscapeHtmlBasic([c]) == BasicEntityOf(c)
  {
    EntitiesHaveNoMarkup();
    ReplaceCharOne(c, '&', "&amp;");
    if c == '&' {
      ReplaceCharAbsent("&amp;", '<', "&lt;");
      ReplaceCharAbsent("&amp;", '>', "&gt;");
    } else {
      ReplaceCharOne(c, '<', "&lt;");
      if c == '<' {
        ReplaceCharAbsent("&lt;", '>', "&gt;");
      } else {
        ReplaceCharOne(c, '>', "&gt;");
      }
    }
  }

  /** The chain of replacements escapes each character on its own: no pass
      touches what an earlier pass wrote. */
  lemma {:induction false} EscapeHtmlIsPerChar(s: string)
    ensures EscapeHtml(s) == Expand(s, EntityOf)
    decreases |s|
  {
    if s != [] {
      assert s == [s[0]] + s[1..];
      EscapeHtmlAppend([s[0]], s[1..]);
      EscapeHtmlOne(s[0]);
      EscapeHtmlIsPerChar(s[1..]);
    } else {
      ReplaceCharAbsent(s, '&', "&amp;");
      ReplaceCharAbsent(s, '<', "&lt;");
      ReplaceCharAbsent(s, '>', "&gt;");
      ReplaceCharAbsent(s, '"', "&quot;");
      ReplaceCharAbsent(s, '\'', "&#39;");
    }
  }

  lemma {:induction false} EscapeHtmlBasicIsPerChar(s: string)
    ensures EscapeHtmlBasic(s) == Expand(s, BasicEntityOf)
    decreases |s|
  {
    if s != [] {
      assert s == [s[0]] + s[1..];
      EscapeHtmlBasicAppend([s[0]], s[1..]);
      EscapeHtmlBasicOne(s[0]);
      EscapeHtmlBasicIsPerChar(s[1..]);
    } else {
      ReplaceCharAbsent(s, '&', "&amp;");
      ReplaceCharAbsent(s, '<', "&lt;");
      ReplaceCharAbsent(s, '>', "&gt;");
    }
  }

  /** What an HTML renderer shows for escaped text: the five entities read
      back as their characters, everything else as itself. */
  function Unescape(t: string): string
    decreases |t|
  {
    if t == [] then []
    else if StartsWith(t, "&amp;") then "&" + Unescape(t[5..])
    else if StartsWith(t, "&lt;") then "<" + Unescape(t[4..])
    else if StartsWith(t, "&gt;") then ">" + Unescape(t[4..])
    else if StartsWith(t, "&quot;") then "\"" + Unescape(t[6..])
    else if StartsWith(t, "&#39;") then "'" + Unescape(t[5..])
    else [t[0]] + Unescape(t[1..])
  }

  lemma Mismatch(t: string, p: string, k: nat)
    requires k < |p| && k < |t| && t[k] != p[k]
    ensures !StartsWith(t, p)
  {
  }

  lemma UnescapeAmp(rest: string)
    ensures Unescape("&amp;" + rest) == "&" + Unescape(rest)
  {
    var t := "&amp;" + rest;
    assert t[..5] == "&amp;";
    assert t[5..] == rest;
  }

  lemma UnescapeLt(rest: string)
    ensures Unescape("&lt;" + rest) == "<" + Unescape(rest)
  {
    var t := "&lt;" + rest;
    Mismatch(t, "&amp;", 1);
    assert t[..4] == "&lt;";
    assert t[4..] == rest;
  }

  lemma UnescapeGt(rest: string)
    ensures Unescape("&gt;" + rest) == ">" + Unescape(rest)
  {
    var t := "&gt;" + rest;
    Mismatch(t, "&amp;", 1);
    Mismatch(t, "&lt;", 1);
    assert t[..4] == "&gt;";
    assert t[4..] == rest;
  }

  lemma UnescapeQuot(rest: string)
    ensures Unescape("&quot;" + rest) == "\"" + Unescape(rest)
  {
    var t := "&quot;" + rest;
    Mismatch(t, "&amp;", 1);
    Mismatch(t, "&lt;", 1);
    Mismatch(t, "&gt;", 1);
    assert t[..6] == "&quot;";
    assert t[6..] == rest;
  }

  lemma UnescapeApos(rest: string)
    ensures Unescape("&#39;" + rest) == "'" + Unescape(rest)
  {
    var t := "&#39;" + rest;
    Mismatch(t, "&amp;", 1);
    Mismatch(t, "&lt;", 1);
    Mismatch(t, "&gt;", 1);
    Mismatch(t, "&quot;", 1);
    assert t[..5] == "&#39;";
    assert t[5..] == rest;
  }

  lemma UnescapePlain(c: char, rest: string)
    requires c != '&'
    ensures Unescape([c] + rest) == [c] + Unescape(rest)
  {
    var t := [c] + rest;
    Mismatch(t, "&amp;", 0);
    Mismatch(t, "&lt;", 0);
    Mismatch(t, "&gt;", 0);
    Mismatch(t, "&quot;", 0);
    Mismatch(t, "&#39;", 0);
    assert t[1..] == rest;
  }

  lemma UnescapeEntity(c: char, rest: string)
    ensures Unescape(EntityOf(c) + rest) == [c] + Unescape(rest)
    ensures Unescape(BasicEntityOf(c) + rest) == [c] + Unescape(rest)
  {
    if c == '&' {
      UnescapeAmp(rest);
    } else if c == '<' {
      UnescapeLt(rest);
    } else if c == '>' {
      UnescapeGt(rest);
    } else {
      UnescapePlain(c, rest);
      if c == '"' {
        UnescapeQuot(rest);
      } else if c == '\'' {
        UnescapeApos(rest);
      }
    }
  }

  /** Escaping loses nothing: the renderer shows exactly the original text,
      for both escapers. */
  lemma {:induction false} UnescapeEscape(s: string)
    ensures Unescape(Expand(s, EntityOf)) == s
    ensures Unescape(Expand(s, BasicEntityOf)) == s
    decreases |s|
  {
    if s != [] {
      UnescapeEntity(s[0], Expand(s[1..], EntityOf));
      UnescapeEntity(s[0], Expand(s[1..], BasicEntityOf));
      UnescapeEscape(s[1..]);
    }
  }

  lemma EscapeRoundTrip(s: string)
    ensures Unescape(EscapeHtml(s)) == s
    ensures Unescape(EscapeHtmlBasic(s)) == s
  {
    EscapeHtmlIsPerChar(s);
    EscapeHtmlBasicIsPerChar(s);
    UnescapeEscape(s);
  }

  lemma {:induction false} ExpandAvoids(s: string, f: char -> string, d: char)
    requires forall c :: d !in f(c)
    ensures d !in Expand(s, f)
    decreases |s|
  {
    if s != [] {
      ExpandAvoids(s[1..], f, d);
    }
  }

  lemma EntitiesAvoidMarkup()
    ensures forall c :: '<' !in EntityOf(c) && '>' !in EntityOf(c)
    ensures forall c :: '"' !in EntityOf(c) && '\'' !in EntityOf(c)
    ensures forall c :: '<' !in BasicEntityOf(c) && '>' !in BasicEntityOf(c)
  {
  }

  /** The output of utils.js's escaper holds no `<`, `>`, `"` or `'`. */
  lemma EscapedHasNoMarkup(s: string)
    ensures '<' !in EscapeHtml(s) && '>' !in EscapeHtml(s)
    ensures '"' !in EscapeHtml(s) && '\'' !in EscapeHtml(s)
  {
    EscapeHtmlIsPerChar(s);
    EntitiesAvoidMarkup();
    ExpandAvoids(s, EntityOf, '<');
    ExpandAvoids(s, EntityOf, '>');
    ExpandAvoids(s, EntityOf, '"');
    ExpandAvoids(s, EntityOf, '\'');
  }

  /** The output of telegram.js's escaper holds no `<` and no `>`. */
  lemma BasicEscapedHasNoTags(s: string)
    ensures '<' !in EscapeHtmlBasic(s) && '>' !in EscapeHtmlBasic(s)
  {
    EscapeHtmlBasicIsPerChar(s);
    EntitiesAvoidMarkup();
    ExpandAvoids(s, BasicEntityOf, '<');
    ExpandAvoids(s, BasicEntityOf, '>');
  }

  /** `t[i..]` begins with one of the five entities. */
  predicate EntityAt(t: string, i: nat)
    requires i <= |t|
  {
    var r := t[i..];
    StartsWith(r, "&amp;") || StartsWith(r, "&lt;") || StartsWith(r, "&gt;")
    || StartsWith(r, "&quot;") || StartsWith(r, "&#39;")
  }

  predicate AmpersandsStartEntities(t: string) {
    forall i :: 0 <= i < |t| && t[i] == '&' ==> EntityAt(t, i)
  }

  lemma {:induction false} ExpandAmpersands(s: string)
    ensures AmpersandsStartEntities(Expand(s, EntityOf))
    decreases |s|
  {
    if s != [] {
      var e := EntityOf(s[0]);
      var rest := Expand(s[1..], EntityOf);
      var t := e + rest;
      ExpandAmpersands(s[1..]);
      forall i | 0 <= i < |t| && t[i] == '&' ensures EntityAt(t, i) {
        if i < |e| {
          assert i == 0;
          assert t[..|e|] == e;
        } else {
          assert t[i..] == rest[i - |e|..];
          assert rest[i - |e|] == '&';
        }
      }
    }
  }

  /** Every `&` in the output of utils.js's escaper begins an entity. */
  lemma EscapedAmpersands(s: string)
    ensures AmpersandsStartEntities(EscapeHtml(s))
  {
    EscapeHtmlIsPerChar(s);
    ExpandAmpersands(s);
  }
}

=== FILE: intent.dfy ===
/** The intent detector of src/core/nlu.js: a trimmed message that is a
    vehicle identification number is a VIN query, one that looks like a part
    number is an OEM query, anything else is free text. */
module Intent {
  import opened JsText

  datatype Intent = Vin | Oem | Other

  /** A letter of `[A-HJ-NPR-Z]`: the Latin capitals without I, O and Q. */
  predicate VinLetter(c: char) {
    'A' <= c <= 'Z' && c != 'I' && c != 'O' && c != 'Q'
  }

  /** A character of `[A-HJ-NPR-Z0-9]` under the `i` flag, which folds
      ASCII letters only. */
  predicate VinChar(c: char) {
    IsDigit(c) || VinLetter(UpperChar(c))
  }

  /** `/^[A-HJ-NPR-Z0-9]{17}$/i`. */
  predicate IsVin(t: string) {
    |t| == 17 && forall i :: 0 <= i < |t| ==> VinChar(t[i])
  }

  /** A character of `[A-Za-z0-9._-]`. */
  predicate OemChar(c: char) {
    ('A' <= c <= 'Z') || ('a' <= c <= 'z') || IsDigit(c) || c == '.' || c == '_' || c == '-'
  }

  /** `/^[A-Za-z0-9._-]{3,}$/`. */
  predicate IsOem(t: string) {
    |t| >= 3 && forall i :: 0 <= i < |t| ==> OemChar(t[i])
  }

  /** `detectIntent(text)`; the default `''` is the empty text. */
  function DetectIntent(text: string): (r: Intent)
    ensures r == Vin <==> IsVin(Trim(text))
    ensures r == Oem <==> !IsVin(Trim(text)) && IsOem(Trim(text))
    ensures r == Other <==> !IsVin(Trim(text)) && !IsOem(Trim(text))
  {
    var t := Trim(text);
    if IsVin(t) then Vin
    else if IsOem(t) then Oem
    else Other
  }

  /** Every VIN also passes the part-number test, so the VIN test has to come
      first: an identifier is reported as a VIN, never as a part number. */
  lemma VinIsAlsoOem(t: string)
    requires IsVin(t)
    ensures IsOem(t)
  {
    forall i | 0 <= i < |t| ensures OemChar(t[i]) {
      assert VinChar(t[i]);
    }
  }

  /** White space around the message never changes the intent. */
  lemma IntentIgnoresPadding(c: char, text: string)
    requires IsSpace(c)
    ensures DetectIntent([c] + text) == DetectIntent(text)
    ensures DetectIntent(text + [c]) == DetectIntent(text)
  {
    TrimPadded(c, text);
  }

  lemma CaseKeepsClasses(c: char)
    ensures VinChar(UpperChar(c)) <==> VinChar(c)
    ensures OemChar(UpperChar(c)) <==> OemChar(c)
  {
  }

  /** The intent does not depend on letter case. */
  lemma IntentIgnoresCase(text: string)
    ensures DetectIntent(Upper(text)) == DetectIntent(text)
  {
    TrimUpper(text);
    UpperKeepsCodes(Trim(text));
  }

  /** Upper-casing keeps a text a VIN or a part number, or neither. */
  lemma UpperKeepsCodes(t: string)
    ensures IsVin(Upper(t)) <==> IsVin(t)
    ensures IsOem(Upper(t)) <==> IsOem(t)
  {
    var u := Upper(t);
    forall i | 0 <= i < |t|
      ensures (VinChar(u[i]) <==> VinChar(t[i])) && (OemChar(u[i]) <==> OemChar(t[i]))
    {
      CaseKeepsClasses(t[i]);
    }
  }

  lemma SpaceIsNoCodeChar(c: char)
    requires IsSpace(c)
    ensures !VinChar(c) && !OemChar(c)
  {
  }

  /** A message with white space inside it is free text. */
  lemma InnerSpaceIsOther(text: string, k: nat)
    requires k < |Trim(text)| && IsSpace(Trim(text)[k])
    ensures DetectIntent(text) == Other
  {
    var t := Trim(text);
    SpaceIsNoCodeChar(t[k]);
    assert !IsVin(t);
    assert !IsOem(t);
  }

  /** The letters I, O and Q never occur in a VIN: a 17-character code with
      one of them is taken for a part number. */
  lemma ExcludedLetterIsOem(text: string, k: nat)
    requires |Trim(text)| == 17 && k < 17
    requires Trim(text)[k] in "IOQioq"
    requires forall i :: 0 <= i < 17 ==> OemChar(Trim(text)[i])
    ensures DetectIntent(text) == Oem
  {
  }

  /** A VIN in lower case is a VIN query. */
  lemma SampleVin()
    ensures DetectIntent("wvwzzz1jzxw000001") == Vin
  {
    var v := "wvwzzz1jzxw000001";
    TrimOfUnpadded(v);
    forall i | 0 <= i < |v| ensures VinChar(v[i]) {
    }
  }

  /** A part number is an OEM query. */
  lemma SampleOem()
    ensures DetectIntent("06A115561B") == Oem
  {
    var p := "06A115561B";
    TrimOfUnpadded(p);
    assert |p| == 10;
    forall i | 0 <= i < |p| ensures OemChar(p[i]) {
    }
  }

  /** A two-letter greeting is free text. */
  lemma SampleOther()
    ensures DetectIntent("hi") == Other
  {
    TrimOfUnpadded("hi");
  }
}

=== FILE: js_text.dfy ===
/** The JavaScript string built-ins the bot relies on: `trim`, `startsWith`,
    `split`, `slice`, single-character `replace(/c/g, …)`, ASCII case mapping,
    decimal printing (`String(n)` of an integer) and the integer subset of
    `Number(text)`. Strings are sequences of Unicode code points. */
module JsText {
  import opened Wrappers

  /** The characters `trim` removes and the regular-expression class `\s`
      matches: ECMAScript WhiteSpace plus LineTerminator. */
  predicate IsSpace(c: char) {
    || c == '\t' || c == '\n' || c == '\U{B}' || c == '\U{C}' || c == '\r' || c == ' '
    || c == '\U{A0}' || c == '\U{1680}' || ('\U{2000}' <= c <= '\U{200A}')
    || c == '\U{2028}' || c == '\U{2029}' || c == '\U{202F}' || c == '\U{205F}'
    || c == '\U{3000}' || c == '\U{FEFF}'
  }

  predicate AllSpaces(s: string) {
    forall i :: 0 <= i < |s| ==> IsSpace(s[i])
  }

  /** `a` is what remains of `b` after dropping some of its first elements. */
  predicate IsSuffixOf<T(==)>(a: seq<T>, b: seq<T>) {
    |a| <= |b| && a == b[|b| - |a|..]
  }

  /** `a` is what remains of `b` after dropping some of its last elements. */
  predicate IsPrefixOf<T(==)>(a: seq<T>, b: seq<T>) {
    |a| <= |b| && a == b[..|a|]
  }

  function TrimStart(s: string): (r: string)
    ensures IsSuffixOf(r, s)
    ensures s != [] && IsSpace(s[0]) ==> |r| < |s|
    ensures r == [] || !IsSpace(r[0])
  {
    if |s| > 0 && IsSpace(s[0]) then TrimStart(s[1..]) else s
  }

  function TrimEnd(s: string): (r: string)
    ensures IsPrefixOf(r, s)
    ensures r == [] || !IsSpace(r[|r| - 1])
  {
    if |s| > 0 && IsSpace(s[|s| - 1]) then
      TrimEnd(s[..|s| - 1])
    else s
  }

  /** `String.prototype.trim`. */
  function Trim(s: string): (r: string)
    ensures r == [] || (!IsSpace(r[0]) && !IsSpace(r[|r| - 1]))
  {
    TrimEnd(TrimStart(s))
  }

  lemma TrimStartOfUnpadded(s: string)
    requires s == [] || !IsSpace(s[0])
    ensures TrimStart(s) == s
  {
  }

  lemma TrimEndOfUnpadded(s: string)
    requires s == [] || !IsSpace(s[|s| - 1])
    ensures TrimEnd(s) == s
  {
  }

  /** A string with no white space at either end is its own trim. */
  lemma TrimOfUnpadded(s: string)
    requires s == [] || (!IsSpace(s[0]) && !IsSpace(s[|s| - 1]))
    ensures Trim(s) == s
  {
    TrimStartOfUnpadded(s);
    TrimEndOfUnpadded(s);
  }

  /** Trimming twice is trimming once. */
  lemma TrimIdempotent(s: string)
    ensures Trim(Trim(s)) == Trim(s)
  {
    TrimOfUnpadded(Trim(s));
  }

  lemma {:induction false} TrimStartAppend(s: string, c: char)
    requires IsSpace(c)
    ensures AllSpaces(s) ==> TrimStart(s + [c]) == []
    ensures !AllSpaces(s) ==> TrimStart(s + [c]) == TrimStart(s) + [c]
    decreases |s|
  {
    if |s| == 0 {
    } else if IsSpace(s[0]) {
      assert (s + [c])[1..] == s[1..] + [c];
      TrimStartAppend(s[1..], c);
      if !AllSpaces(s) {
        assert !AllSpaces(s[1..]) by {
          var i :| 0 <= i < |s| && !IsSpace(s[i]);
          assert s[1..][i - 1] == s[i];
        }
      }
    } else {
      assert !AllSpaces(s) by { assert !IsSpace(s[0]); }
    }
  }

  lemma TrimStartOfAllSpaces(s: string)
    requires AllSpaces(s)
    ensures TrimStart(s) == []
  {
  }

  /** Adding one white-space character at either end never changes the trim. */
  lemma {:induction false} TrimPadded(c: char, s: string)
    requires IsSpace(c)
    ensures Trim([c] + s) == Trim(s)
    ensures Trim(s + [c]) == Trim(s)
  {
    assert ([c] + s)[1..] == s;
    TrimStartAppend(s, c);
    if AllSpaces(s) {
      TrimStartOfAllSpaces(s);
    } else {
      var t := TrimStart(s);
      assert (t + [c])[..|t + [c]| - 1] == t;
    }
  }

  predicate StartsWith(s: string, prefix: string) {
    |prefix| <= |s| && s[..|prefix|] == prefix
  }

  /** `toUpperCase` restricted to ASCII letters. */
  function UpperChar(c: char): char {
    if 'a' <= c <= 'z' then (c as int - 32) as char else c
  }

  /** `toLowerCase` restricted to ASCII letters. */
  function LowerChar(c: char): char {
    if 'A' <= c <= 'Z' then (c as int + 32) as char else c
  }

  function Upper(s: string): (r: string)
    ensures |r| == |s|
    ensures forall i :: 0 <= i < |s| ==> r[i] == UpperChar(s[i])
  {
    seq(|s|, i requires 0 <= i < |s| => UpperChar(s[i]))
  }

  function Lower(s: string): (r: string)
    ensures |r| == |s|
    ensures forall i :: 0 <= i < |s| ==> r[i] == LowerChar(s[i])
  {
    seq(|s|, i requires 0 <= i < |s| => LowerChar(s[i]))
  }

  /** ASCII case mapping never makes or unmakes white space. */
  lemma CaseKeepsSpace(c: char)
    ensures IsSpace(UpperChar(c)) <==> IsSpace(c)
    ensures IsSpace(LowerChar(c)) <==> IsSpace(c)
  {
  }

  lemma {:induction false} TrimStartUpper(s: string)
    ensures TrimStart(Upper(s)) == Upper(TrimStart(s))
    decreases |s|
  {
    if |s| > 0 {
      CaseKeepsSpace(s[0]);
      if IsSpace(s[0]) {
        assert Upper(s)[1..] == Upper(s[1..]);
        TrimStartUpper(s[1..]);
      }
    }
  }

  lemma {:induction false} TrimEndUpper(s: string)
    ensures TrimEnd(Upper(s)) == Upper(TrimEnd(s))
    decreases |s|
  {
    if |s| > 0 {
      var n := |s| - 1;
      CaseKeepsSpace(s[n]);
      if IsSpace(s[n]) {
        var u := Upper(s);
        assert IsSpace(u[n]);
        assert TrimEnd(u) == TrimEnd(u[..n]);
        assert TrimEnd(s) == TrimEnd(s[..n]);
        assert u[..n] == Upper(s[..n]);
        TrimEndUpper(s[..n]);
      }
    }
  }

  /** Trimming and upper-casing commute. */
  lemma TrimUpper(s: string)
    ensures Trim(Upper(s)) == Upper(Trim(s))
  {
    TrimStartUpper(s);
    TrimEndUpper(TrimStart(s));
  }

  // ---------------------------------------------------------------- decimals

  predicate IsDigit(c: char) {
    '0' <= c <= '9'
  }

  predicate AllDigits(s: string) {
    forall i :: 0 <= i < |s| ==> IsDigit(s[i])
  }

  function DigitChar(d: nat): (c: char)
    requires d < 10
    ensures IsDigit(c) && c as int - '0' as int == d
  {
    ('0' as int + d) as char
  }

  /** The value of a string of decimal digits. */
  function DigitsValue(s: string): nat
    requires AllDigits(s)
    decreases |s|
  {
    if s == [] then 0
    else 10 * DigitsValue(s[..|s| - 1]) + (s[|s| - 1] as int - '0' as int)
  }

  /** `String(n)` for a non-negative integer. */
  function NatToDecimal(n: nat): (r: string)
    ensures |r| >= 1 && AllDigits(r)
    decreases n
  {
    if n < 10 then [DigitChar(n)] else NatToDecimal(n / 10) + [DigitChar(n % 10)]
  }

  /** `String(i)` for an integer. */
  function IntToDecimal(i: int): (r: string)
    ensures |r| >= 1
    ensures r[0] == '-' <==> i < 0
  {
    if i < 0 then "-" + NatToDecimal(-i) else NatToDecimal(i)
  }

  lemma {:induction false} DecimalRoundTrip(n: nat)
    ensures DigitsValue(NatToDecimal(n)) == n
    decreases n
  {
    if n >= 10 {
      var r := NatToDecimal(n);
      assert r[..|r| - 1] == NatToDecimal(n / 10);
      DecimalRoundTrip(n / 10);
    }
  }

  /** Distinct integers print differently. */
  lemma DecimalInjective(i: int, j: int)
    requires IntToDecimal(i) == IntToDecimal(j)
    ensures i == j
  {
    var d := IntToDecimal(i);
    if i < 0 {
      assert j < 0 by { assert IntToDecimal(j)[0] == d[0] == '-'; }
      assert NatToDecimal(-i) == d[1..] == NatToDecimal(-j);
      DecimalRoundTrip(-i);
      DecimalRoundTrip(-j);
    } else {
      assert j >= 0 by { assert IntToDecimal(j)[0] == d[0] != '-'; }
      assert NatToDecimal(i) == NatToDecimal(j);
      DecimalRoundTrip(i);
      DecimalRoundTrip(j);
    }
  }

  /** `Number(text)` on the texts that denote integers in decimal: white space
      around the text is ignored, an empty text is 0, an optional sign may
      precede the digits. `None` stands for every other text (NaN, and the
      hexadecimal, fractional, exponent and Infinity forms). */
  function NumberOfText(text: string): (r: Option<int>)
    ensures Trim(text) == [] ==> r == Some(0)
    ensures r.Some? && Trim(text) != [] ==> var t := Trim(text); IsDigit(t[|t| - 1])
  {
    var t := Trim(text);
    if t == [] then Some(0)
    else if |t| > 1 && t[0] == '-' && AllDigits(t[1..]) then Some(-(DigitsValue(t[1..]) as int))
    else if |t| > 1 && t[0] == '+' && AllDigits(t[1..]) then Some(DigitsValue(t[1..]))
    else if AllDigits(t) then Some(DigitsValue(t))
    else None
  }

  /** `Number` reads back every integer that `String` prints. */
  lemma NumberOfDecimal(i: int)
    ensures NumberOfText(IntToDecimal(i)) == Some(i)
  {
    var s := IntToDecimal(i);
    if i < 0 {
      var d := NatToDecimal(-i);
      assert s == "-" + d;
      assert s[|s| - 1] == d[|d| - 1];
      TrimOfUnpadded(s);
      assert s[1..] == d;
      DecimalRoundTrip(-i);
      assert NumberOfText(s) == Some(-(DigitsValue(d) as int));
    } else {
      TrimOfUnpadded(s);
      DecimalRoundTrip(i);
      assert NumberOfText(s) == Some(DigitsValue(s));
    }
  }

  // ---------------------------------------------------------------- split

  /** The index of the first `c` in `s`, or -1. */
  function IndexOf(s: string, c: char): (r: int)
    ensures -1 <= r < |s|
    ensures r >= 0 ==> s[r] == c && c !in s[..r]
    ensures r == -1 ==> c !in s
  {
    if s == [] then -1
    else if s[0] == c then 0
    else
      var k := IndexOf(s[1..], c);
      if k < 0 then -1 else k + 1
  }

  /** The first `c` of `a + [c] + b` is the one after `a` when `a` has none. */
  lemma {:induction false} IndexOfAfter(a: string, c: char, b: string)
    requires c !in a
    ensures IndexOf(a + [c] + b, c) == |a|
    decreases |a|
  {
    if a != [] {
      assert (a + [c] + b)[1..] == a[1..] + [c] + b;
      IndexOfAfter(a[1..], c, b);
    }
  }

  /** `s.split(sep)` for a one-character separator. */
  function Split(s: string, sep: char): (parts: seq<string>)
    ensures |parts| >= 1
    ensures forall i :: 0 <= i < |parts| ==> sep !in parts[i]
    decreases |s|
  {
    var k := IndexOf(s, sep);
    if k < 0 then [s]
    else
      var rest := Split(s[k + 1..], sep);
      NoSeparatorCons(s[..k], rest, sep);
      [s[..k]] + rest
  }

  /** A separator-free piece in front of separator-free pieces. */
  lemma NoSeparatorCons(head: string, rest: seq<string>, sep: char)
    requires sep !in head
    requires forall i :: 0 <= i < |rest| ==> sep !in rest[i]
    ensures forall i :: 0 <= i < |[head] + rest| ==> sep !in ([head] + rest)[i]
  {
    forall i | 0 <= i < |[head] + rest|
      ensures sep !in ([head] + rest)[i]
    {
      if i > 0 {
        assert ([head] + rest)[i] == rest[i - 1];
      }
    }
  }

  /** `parts.join(sep)`. */
  function Join(parts: seq<string>, sep: char): string
    requires |parts| >= 1
  {
    if |parts| == 1 then parts[0] else parts[0] + [sep] + Join(parts[1..], sep)
  }

  /** Joining a piece in front of more pieces puts a separator between. */
  lemma JoinCons(head: string, rest: seq<string>, sep: char)
    requires |rest| >= 1
    ensures Join([head] + rest, sep) == head + [sep] + Join(rest, sep)
  {
    assert ([head] + rest)[1..] == rest;
  }

  /** Joining the pieces of a split gives back the text. */
  lemma {:induction false} JoinSplit(s: string, sep: char)
    ensures Join(Split(s, sep), sep) == s
    decreases |s|
  {
    var k := IndexOf(s, sep);
    if k >= 0 {
      var rest := Split(s[k + 1..], sep);
      JoinSplit(s[k + 1..], sep);
      JoinCons(s[..k], rest, sep);
      assert s == s[..k] + [sep] + s[k + 1..];
    }
  }

  /** Splitting a join of separator-free pieces gives back the pieces. */
  lemma {:induction false} SplitJoin(parts: seq<string>, sep: char)
    requires |parts| >= 1
    requires forall i :: 0 <= i < |parts| ==> sep !in parts[i]
    ensures Split(Join(parts, sep), sep) == parts
    decreases |parts|
  {
    var s := Join(parts, sep);
    if |parts| == 1 {
      assert IndexOf(s, sep) == -1;
    } else {
      var rest := Join(parts[1..], sep);
      assert s == parts[0] + [sep] + rest;
      var k := IndexOf(s, sep);
      IndexOfAfter(parts[0], sep, rest);
      assert s[..k] == parts[0];
      assert s[k + 1..] == rest;
      SplitJoin(parts[1..], sep);
    }
  }

  /** `s.split(sep)[i]`: `None` is JavaScript's `undefined` past the last piece. */
  function Segment(s: string, sep: char, i: nat): Option<string> {
    var parts := Split(s, sep);
    if i < |parts| then Some(parts[i]) else None
  }

  // ---------------------------------------------------------------- replace

  /** `s.replace(/c/g, rep)`: every occurrence of `c` becomes `rep`. */
  function ReplaceChar(s: string, c: char, rep: string): (r: string)
    ensures c !in rep ==> c !in r
    ensures forall d :: d != c && d !in rep && d !in s ==> d !in r
  {
    if s == [] then []
    else (if s[0] == c then rep else [s[0]]) + ReplaceChar(s[1..], c, rep)
  }

  /** Replacing a character the text does not hold changes nothing. */
  lemma {:induction false} ReplaceCharAbsent(s: string, c: char, rep: string)
    requires c !in s
    ensures ReplaceChar(s, c, rep) == s
    decreases |s|
  {
    if s != [] {
      ReplaceCharAbsent(s[1..], c, rep);
    }
  }

  /** A global replace works piece by piece. */
  lemma {:induction false} ReplaceCharAppend(a: string, b: string, c: char, rep: string)
    ensures ReplaceChar(a + b, c, rep) == ReplaceChar(a, c, rep) + ReplaceChar(b, c, rep)
    decreases |a|
  {
    if a != [] {
      assert (a + b)[1..] == a[1..] + b;
      ReplaceCharAppend(a[1..], b, c, rep);
    } else {
      assert a + b == b;
    }
  }

  lemma ReplaceCharOne(x: char, c: char, rep: string)
    ensures ReplaceChar([x], c, rep) == if x == c then rep else [x]
  {
    assert [x][1..] == [];
  }

  // ---------------------------------------------------------------- slice

  /** `Math.min(a, b)`. */
  function Min(a: int, b: int): int {
    if a <= b then a else b
  }

  /** `Math.max(a, b)`. */
  function Max(a: int, b: int): int {
    if a >= b then a else b
  }

  /** How `slice` reads an index: a negative one counts back from the end;
      the result is clamped to `[0, len]`. */
  function SliceIndex(i: int, len: nat): (r: nat)
    ensures r <= len
    ensures 0 <= i <= len ==> r == i
  {
    if i < 0 then (if len + i < 0 then 0 else len + i)
    else if i > len then len else i
  }

  /** `s.slice(start, end)`. */
  function JsSlice<T>(s: seq<T>, start: int, end: int): (r: seq<T>)
    ensures |r| <= |s|
    ensures 0 <= start <= end <= |s| ==> r == s[start..end]
  {
    var a := SliceIndex(start, |s|);
    var b := SliceIndex(end, |s|);
    if a >= b then [] else s[a..b]
  }
}

=== FILE: js_value.dfy ===
/** JavaScript values as the bot sees them: parsed JSON plus `undefined`.
    Numbers are integers (the bot never relies on fractions). Property access,
    truthiness, nullish coalescing and `String(v)` follow the language. */
module JsValue {
  import opened Wrappers
  import opened JsText

  datatype Value =
    | Undefined
    | Null
    | Bool(b: bool)
    | Num(n: int)
    | Str(s: string)
    | Arr(items: seq<Value>)
    | Obj(fields: map<string, Value>)

  /** `!!v`: every value is truthy except the five falsy ones. */
  predicate Truthy(v: Value)
    ensures !Truthy(v) <==> v in {Undefined, Null, Bool(false), Num(0), Str("")}
  {
    match v
    case Undefined => false
    case Null => false
    case Bool(b) => b
    case Num(n) => n != 0
    case Str(s) => s != ""
    case Arr(_) => true
    case Obj(_) => true
  }

  /** `v == null`: true of `null` and `undefined` alone. */
  predicate Nullish(v: Value) {
    v.Undefined? || v.Null?
  }

  /** `a ?? b`. */
  function Coalesce(a: Value, b: Value): (r: Value)
    ensures !Nullish(a) ==> r == a
    ensures Nullish(a) ==> r == b
  {
    if Nullish(a) then b else a
  }

  /** `a || b`. */
  function Or(a: Value, b: Value): (r: Value)
    ensures Truthy(a) ==> r == a
    ensures !Truthy(a) ==> r == b
  {
    if Truthy(a) then a else b
  }

  /** `v?.[key]` for a property name: an object's own field, otherwise
      `undefined`. */
  function Prop(v: Value, key: string): (r: Value)
    ensures !v.Obj? ==> r == Undefined
    ensures v.Obj? && key !in v.fields ==> r == Undefined
    ensures r != Undefined ==> v.Obj? && key in v.fields && r == v.fields[key]
  {
    if v.Obj? && key in v.fields then v.fields[key] else Undefined
  }

  /** `v?.[i]` for an index: an array element, a one-character string, or an
      object field named by the index's decimal text. */
  function Index(v: Value, i: nat): Value {
    match v
    case Arr(items) => if i < |items| then items[i] else Undefined
    case Str(s) => if i < |s| then Str([s[i]]) else Undefined
    case Obj(fields) => if NatToDecimal(i) in fields then fields[NatToDecimal(i)] else Undefined
    case _ => Undefined
  }

  /** The items of `v` when `Array.isArray(v)`, otherwise the empty list. */
  function ItemsOrEmpty(v: Value): seq<Value> {
    if v.Arr? then v.items else []
  }

  /** `String(v)`. An array prints its elements joined by commas, with
      `null` and `undefined` elements printed as empty text. */
  function ToStr(v: Value): (r: string)
    ensures v.Str? ==> r == v.s
    ensures v.Num? ==> NumberOfText(r) == Some(v.n)
  {
    match v
    case Undefined => "undefined"
    case Null => "null"
    case Bool(b) => if b then "true" else "false"
    case Num(n) => NumberOfDecimal(n); IntToDecimal(n)
    case Str(s) => s
    case Arr(items) => JoinItems(items)
    case Obj(_) => "[object Object]"
  }

  function JoinItems(items: seq<Value>): string
    decreases items
  {
    if items == [] then ""
    else
      var head := if Nullish(items[0]) then "" else ToStr(items[0]);
      if |items| == 1 then head else head + "," + JoinItems(items[1..])
  }
}

=== FILE: pages.dfy ===
/** The page arithmetic shared by `formatUnitsPage` (src/formatters.js) and
    `renderCategoriesList` (src/helpers/renderCategories.js): the window
    `items.slice(from, Math.min(from + perPage, total))` with
    `from = page * perPage`, the page count `Math.max(1, Math.ceil(total / perPage))`,
    and the clamping of a requested page into range. */
module Paging {
  import opened JsText

  lemma MulNonNegative(a: int, b: int)
    requires a >= 0 && b >= 0
    ensures a * b >= 0
  {
  }

  /** Multiplying by a non-negative factor keeps order. */
  lemma MulMonotone(a: int, b: int, c: int)
    requires a <= b && c >= 0
    ensures a * c <= b * c
  {
    assert b * c - a * c == (b - a) * c;
    MulNonNegative(b - a, c);
  }

  /** The index of the first item of page `page`. */
  function PageStart(page: nat, perPage: nat): nat {
    page * perPage
  }

  /** The items of page `page`: `items.slice(page * perPage,
      Math.min(page * perPage + perPage, items.length))`. */
  function Window<T>(items: seq<T>, page: int, perPage: int): (r: seq<T>)
    ensures 0 <= page && 0 <= perPage ==> |r| <= perPage
    ensures 0 <= page && 0 <= perPage && PageStart(page, perPage) <= |items| ==>
              r == items[PageStart(page, perPage) .. Min(PageStart(page, perPage) + perPage, |items|)]
    ensures 0 <= page && 0 <= perPage && PageStart(page, perPage) >= |items| ==> r == []
  {
    var from := page * perPage;
    JsSlice(items, from, Min(from + perPage, |items|))
  }

  /** `Math.max(1, Math.ceil(total / perPage))`. */
  function PageCount(total: nat, perPage: int): (r: nat)
    requires perPage >= 1
    ensures r >= 1
    ensures total <= r * perPage
    ensures total > 0 ==> (r - 1) * perPage < total
  {
    if total == 0 then 1
    else
      var q := (total + perPage - 1) / perPage;
      var m := (total + perPage - 1) % perPage;
      assert total + perPage - 1 == q * perPage + m;
      assert (q - 1) * perPage == q * perPage - perPage;
      assert q >= 1 by {
        if q < 1 {
          MulMonotone(q, 0, perPage);
        }
      }
      q
  }

  /** `Math.min(Math.max(0, page), pages - 1)`. */
  function ClampPage(page: int, pages: nat): (r: nat)
    requires pages >= 1
    ensures r < pages
    ensures 0 <= page < pages ==> r == page
    ensures page < 0 ==> r == 0
    ensures page >= pages ==> r == pages - 1
  {
    Min(Max(0, page), pages - 1)
  }

  /** The page shown after clamping starts inside the list, and holds at
      least one item whenever the list has any. */
  lemma ClampedPageStartsInside(total: nat, perPage: int, page: int)
    requires perPage >= 1
    ensures var cur := ClampPage(page, PageCount(total, perPage));
            && 0 <= cur * perPage <= total
            && (total > 0 ==> cur * perPage < total)
  {
    var pages := PageCount(total, perPage);
    var cur := ClampPage(page, pages);
    MulNonNegative(cur, perPage);
    MulMonotone(cur, pages - 1, perPage);
  }

  /** Every item is on page `j / perPage`, at offset `j % perPage`, and that
      page is one of the pages counted. */
  lemma ItemOnItsPage<T>(items: seq<T>, j: nat, perPage: int)
    requires j < |items| && perPage >= 1
    ensures var q := j / perPage;
            && 0 <= q < PageCount(|items|, perPage)
            && j % perPage < |Window(items, q, perPage)|
            && Window(items, q, perPage)[j % perPage] == items[j]
  {
    var q := j / perPage;
    var o := j % perPage;
    assert j == q * perPage + o;
    MulNonNegative(q, perPage);
    var pages := PageCount(|items|, perPage);
    if q >= pages {
      MulMonotone(pages, q, perPage);
      assert false;
    }
  }

  /** The first `k` pages one after another. */
  function FirstPages<T>(items: seq<T>, perPage: int, k: nat): seq<T>
    requires perPage >= 1
  {
    if k == 0 then [] else FirstPages(items, perPage, k - 1) + Window(items, k - 1, perPage)
  }

  /** The first `k` pages are the items before `k * perPage`, in order. */
  lemma {:induction false} FirstPagesArePrefix<T>(items: seq<T>, perPage: int, k: nat)
    requires perPage >= 1
    ensures FirstPages(items, perPage, k) == items[..Min(k * perPage, |items|)]
  {
    if k > 0 {
      FirstPagesArePrefix(items, perPage, k - 1);
      var from := (k - 1) * perPage;
      assert from + perPage == k * perPage;
      MulNonNegative(k - 1, perPage);
      if from <= |items| {
        assert items[..from] + items[from..Min(k * perPage, |items|)] == items[..Min(k * perPage, |items|)];
      }
    }
  }

  /** The counted pages together hold every item, in order, each once. */
  lemma AllPagesCover<T>(items: seq<T>, perPage: int)
    requires perPage >= 1
    ensures FirstPages(items, perPage, PageCount(|items|, perPage)) == items
  {
    FirstPagesArePrefix(items, perPage, PageCount(|items|, perPage));
  }
}

=== FILE: render_categories.dfy ===
/** `renderCategoriesList(categoriesRoot, page, perPage)` of
    src/helpers/renderCategories.js — the category keyboard: the entries of
    the category tree normalised to an id and a name, those without id
    dropped, one page of them two buttons to a row, and a navigation row
    when there is more than one page — and the two callback branches of
    src/telegram.js that redraw it from the cache (`cats_cache` and
    `noop:page:<n>`). */
module CategoriesView {
  import opened Wrappers
  import opened JsText
  import opened JsValue
  import opened Paging
  import opened Callbacks
  import Chunking
  import SessionCache
  import TtlStore

  /** `perPage`'s default; no caller passes another. */
  const DefaultPerPage: int := 40

  /** The longest button caption, ellipsis included. */
  const NameCap: int := 48

  const Untitled := "Без названия"
  const NotFoundText := "🗂️ <b>Категории</b>\nКатегории не найдены."
  const ChooseText := "🗂️ <b>Категории</b>\nВыберите раздел:"
  const CacheEmpty := "Кэш пуст. Нажмите «Перезагрузить»."
  const CacheStale := "Список категорий устарел. Нажмите «Перезагрузить»."

  /** A reply: its HTML text and, when it has one, its inline keyboard. */
  datatype Message = Message(text: string, keyboard: Option<Keyboard>)

  // ------------------------------------------------------------ captions

  /** `truncate(s, n)`: a text longer than `n` keeps its first `n - 1`
      characters and gets an ellipsis. */
  function Truncate(s: string, n: int): (r: string)
    ensures n >= 1 ==> |r| <= n
    ensures |s| <= n ==> r == s
    ensures 1 <= n < |s| ==> |r| == n && r[..n - 1] == s[..n - 1] && r[n - 1] == '…'
  {
    if |s| > n then JsSlice(s, 0, n - 1) + "…" else s
  }

  /** Truncating a caption a second time changes nothing. */
  lemma TruncateIdempotent(s: string, n: int)
    requires n >= 1
    ensures Truncate(Truncate(s, n), n) == Truncate(s, n)
  {
  }

  // --------------------------------------------------------------- items

  /** A normalised entry: its id, still a JS value, and its name. */
  datatype Item = Item(id: Value, name: string)

  /** `{ id: x?.id ?? x?.categoryId ?? x?.code ?? '', name: String(x?.name ?? x?.title ?? 'Без названия') }`. */
  function ToItem(x: Value): (r: Item)
    ensures !Nullish(r.id)
    ensures !x.Obj? ==> r == Item(Str(""), Untitled)
  {
    Item(Coalesce(Coalesce(Coalesce(Prop(x, "id"), Prop(x, "categoryId")), Prop(x, "code")), Str("")),
         ToStr(Coalesce(Coalesce(Prop(x, "name"), Prop(x, "title")), Str(Untitled))))
  }

  /** The id an entry is listed under, as the button's callback spells it. */
  function IdText(it: Item): string {
    ToStr(it.id)
  }

  /** `root.map(ToItem).filter(x => String(x.id).length > 0)`. */
  function Items(xs: seq<Value>): (r: seq<Item>)
    ensures |r| <= |xs|
    ensures forall i :: 0 <= i < |r| ==> IdText(r[i]) != ""
    decreases |xs|
  {
    if xs == [] then []
    else
      var rest := Items(xs[1..]);
      if IdText(ToItem(xs[0])) != "" then [ToItem(xs[0])] + rest else rest
  }

  /** Every entry with an id is listed, and only entries of the tree are. */
  lemma {:induction false} ItemsExactly(xs: seq<Value>, it: Item)
    ensures it in Items(xs) <==> exists x :: x in xs && ToItem(x) == it && IdText(it) != ""
    decreases |xs|
  {
    if xs != [] {
      ItemsExactly(xs[1..], it);
      if it in Items(xs) && it !in Items(xs[1..]) {
        assert ToItem(xs[0]) == it;
      }
      forall x | x in xs[1..] ensures x in xs { }
      if exists x :: x in xs && ToItem(x) == it && IdText(it) != "" {
        var x :| x in xs && ToItem(x) == it && IdText(it) != "";
        if x != xs[0] {
          assert x in xs[1..];
        }
      }
    }
  }

  /** The id is the first of `id`, `categoryId`, `code` that is neither
      `null` nor `undefined`, else ''; the name is the text of the first of
      `name`, `title`, else the untitled default. For example a numeric `id`
      wins over a `categoryId`, and an entry with only a `code` is listed
      under it. */
  lemma ItemIdPriority(x: Value, id: int, other: Value, code: string)
    ensures !Nullish(Prop(x, "id")) ==> ToItem(x).id == Prop(x, "id")
    ensures Nullish(Prop(x, "id")) && !Nullish(Prop(x, "categoryId")) ==> ToItem(x).id == Prop(x, "categoryId")
    ensures Nullish(Prop(x, "id")) && Nullish(Prop(x, "categoryId")) && !Nullish(Prop(x, "code")) ==>
              ToItem(x).id == Prop(x, "code")
    ensures Nullish(Prop(x, "id")) && Nullish(Prop(x, "categoryId")) && Nullish(Prop(x, "code")) ==>
              ToItem(x).id == Str("")
    ensures !Nullish(Prop(x, "name")) ==> ToItem(x).name == ToStr(Prop(x, "name"))
    ensures Nullish(Prop(x, "name")) && !Nullish(Prop(x, "title")) ==> ToItem(x).name == ToStr(Prop(x, "title"))
    ensures Nullish(Prop(x, "name")) && Nullish(Prop(x, "title")) ==> ToItem(x).name == Untitled
    ensures ToItem(Obj(map["id" := Num(id), "categoryId" := other])).id == Num(id)
    ensures ToItem(Obj(map["categoryId" := Null, "code" := Str(code)])).id == Str(code)
    ensures ToItem(Obj(map[])) == Item(Str(""), Untitled)
  {
    assert "categoryId" != "id" && "code" != "id" && "code" != "categoryId";
  }

  // ---------------------------------------------------------------- rows

  /** The button of one entry: the caption cut to 48 characters, and
      `cat:<id>`. */
  function CategoryButton(it: Item): Button {
    Button(Truncate(it.name, NameCap), Some("cat:" + IdText(it)))
  }

  function CategoryButtons(items: seq<Item>): (r: seq<Button>)
    ensures |r| == |items|
    ensures forall i :: 0 <= i < |items| ==> r[i] == CategoryButton(items[i])
  {
    seq(|items|, i requires 0 <= i < |items| => CategoryButton(items[i]))
  }

  /** A category button opens its category when the id has no colon (the
      handler reads only the text up to the next colon). */
  lemma CategoryButtonOpens(it: Item)
    requires ':' !in IdText(it)
    ensures Route(CategoryButton(it).data) == OpenCategory(IdText(it))
    ensures |CategoryButton(it).text| <= NameCap
  {
    RouteCategoryButton(IdText(it));
  }

  /** The buttons two to a row. */
  function Rows<T>(bs: seq<T>): (r: seq<seq<T>>)
    ensures forall k :: 0 <= k < |r| ==> 1 <= |r[k]| <= 2
    ensures forall k :: 0 <= k < |r| - 1 ==> |r[k]| == 2
    ensures bs == [] <==> r == []
    decreases |bs|
  {
    if bs == [] then []
    else
      var n := Min(2, |bs|);
      [bs[..n]] + Rows(bs[n..])
  }

  /** Reading the rows left to right, top to bottom, gives the buttons back
      in order. */
  lemma {:induction false} RowsFlatten<T>(bs: seq<T>)
    ensures Chunking.Flatten(Rows(bs)) == bs
    decreases |bs|
  {
    if bs != [] {
      var n := Min(2, |bs|);
      RowsFlatten(bs[n..]);
      assert bs == bs[..n] + bs[n..];
    }
  }

  /** One step of the row loop: the rows from `i` on are the pair at `i`
      and the rows after it. */
  lemma RowsStep<T>(bs: seq<T>, i: nat)
    requires i < |bs|
    ensures Rows(bs[i..]) == [bs[i..Min(i + 2, |bs|)]] + Rows(bs[Min(i + 2, |bs|)..])
  {
    var tail := bs[i..];
    var n := Min(2, |tail|);
    assert i + n == Min(i + 2, |bs|);
    assert tail[..n] == bs[i..i + n];
    assert tail[n..] == bs[i + n..];
  }

  /** The buttons of a part of the page are that part of its buttons. */
  lemma CategoryButtonsSlice(slice: seq<Item>, i: nat, j: nat)
    requires i <= j <= |slice|
    ensures CategoryButtons(slice[i..j]) == CategoryButtons(slice)[i..j]
  {
  }

  /** The row loop of the source: `rows.push(slice.slice(i, i + 2).map(...))`
      for `i = 0, 2, 4, …`. */
  method LayOutRows(slice: seq<Item>) returns (rows: Keyboard)
    ensures rows == Rows(CategoryButtons(slice))
  {
    var bs := CategoryButtons(slice);
    rows := [];
    var i: nat := 0;
    while i < |slice|
      invariant i <= |slice| || i == |slice| + 1
      invariant rows + Rows(bs[Min(i, |bs|)..]) == Rows(bs)
      decreases |slice| - i
    {
      var next := Min(i + 2, |slice|);
      var row := CategoryButtons(slice[i..next]);
      assert (rows + [row]) + Rows(bs[next..]) == Rows(bs) by {
        CategoryButtonsSlice(slice, i, next);
        RowsStep(bs, i);
        Chunking.AppendAssociative(rows, [row], Rows(bs[next..]));
      }
      rows := rows + [row];
      i := i + 2;
      assert Min(i, |bs|) == next;
    }
  }

  // ---------------------------------------------------------- navigation

  /** The three buttons a navigation row can hold. */
  datatype Nav = Prev | Counter | Next

  /** The buttons of page `cur` of `pages`: « Назад when there is a page
      before, the counter always, Вперёд » when there is a page after. */
  function NavKinds(cur: nat, pages: nat): (ks: seq<Nav>)
    ensures Counter in ks
    ensures Prev in ks <==> cur > 0
    ensures Next in ks <==> cur + 1 < pages
    ensures ks[0] == Prev <==> cur > 0
    ensures ks[|ks| - 1] == Next <==> cur + 1 < pages
  {
    (if cur > 0 then [Prev] else []) + [Counter] + (if cur + 1 < pages then [Next] else [])
  }

  /** `« Назад` → `noop:page:<cur-1>`, `Стр. <cur+1>/<pages>` →
      `noop:page:stay`, `Вперёд »` → `noop:page:<cur+1>`. */
  function NavButton(k: Nav, cur: nat, pages: nat): Button {
    match k
    case Prev => Button("« Назад", Some("noop:page:" + IntToDecimal(cur - 1)))
    case Counter => Button("Стр. " + IntToDecimal(cur + 1) + "/" + IntToDecimal(pages), Some("noop:page:stay"))
    case Next => Button("Вперёд »", Some("noop:page:" + IntToDecimal(cur + 1)))
  }

  /** The navigation row of page `cur` of `pages`. */
  function NavRow(cur: nat, pages: nat): (r: seq<Button>)
    ensures |r| == |NavKinds(cur, pages)|
    ensures forall i :: 0 <= i < |r| ==> r[i] == NavButton(NavKinds(cur, pages)[i], cur, pages)
  {
    var ks := NavKinds(cur, pages);
    seq(|ks|, i requires 0 <= i < |ks| => NavButton(ks[i], cur, pages))
  }

  /** The page a navigation button asks for: the counter's `stay` reads as
      no number, hence page 0. */
  function Target(k: Nav, cur: nat): int {
    match k
    case Prev => cur - 1
    case Counter => 0
    case Next => cur + 1
  }

  /** Each navigation button asks for the page it names. */
  lemma NavButtonRoutes(k: Nav, cur: nat, pages: nat)
    ensures Route(NavButton(k, cur, pages).data) == ShowPage(Target(k, cur))
  {
    match k
    case Prev => RoutePageButton(cur - 1);
    case Counter => RouteStayButton();
    case Next => RoutePageButton(cur + 1);
  }

  /** Every button of a navigation row turns to a page that exists: back to
      the previous page, forward to the next, the counter to the first. */
  lemma NavRowTurnsPages(cur: nat, pages: nat, i: nat)
    requires cur < pages && i < |NavRow(cur, pages)|
    ensures var k := NavKinds(cur, pages)[i];
            && Route(NavRow(cur, pages)[i].data) == ShowPage(Target(k, cur))
            && 0 <= Target(k, cur) < pages
  {
    NavButtonRoutes(NavKinds(cur, pages)[i], cur, pages);
  }

  // ------------------------------------------------------------- listing

  /** Which page of the items is shown for a requested `page`. */
  function CurrentPage(items: seq<Item>, page: int, perPage: int): (cur: nat)
    requires perPage >= 1
    ensures cur < PageCount(|items|, perPage)
  {
    ClampPage(page, PageCount(|items|, perPage))
  }

  /** The reply for the array `root` was taken to be: "not found" without a
      keyboard for a missing or empty array, else the page's buttons in
      rows, then the navigation row when there are several pages. */
  function RenderFrom(root: Value, page: int, perPage: int): (m: Message)
    requires perPage >= 1
    ensures m.keyboard.None? <==> !root.Arr? || root.items == []
    ensures m.text == (if m.keyboard.None? then NotFoundText else ChooseText)
  {
    if !root.Arr? || root.items == [] then Message(NotFoundText, None)
    else
      var items := Items(root.items);
      var pages := PageCount(|items|, perPage);
      var cur := CurrentPage(items, page, perPage);
      var rows := Rows(CategoryButtons(Window(items, cur, perPage)));
      Message(ChooseText, Some(if pages > 1 then rows + [NavRow(cur, pages)] else rows))
  }

  /** The category buttons of a listing are those of the shown page's
      entries, in order, followed by the navigation row exactly when there
      is more than one page. */
  lemma RenderedKeyboard(xs: seq<Value>, page: int, perPage: int)
    requires perPage >= 1 && xs != []
    ensures var items := Items(xs);
            var pages := PageCount(|items|, perPage);
            var cur := CurrentPage(items, page, perPage);
            var kb := RenderFrom(Arr(xs), page, perPage).keyboard.value;
            var body := if pages > 1 then kb[..|kb| - 1] else kb;
            && Chunking.Flatten(body) == CategoryButtons(Window(items, cur, perPage))
            && (pages > 1 ==> |kb| >= 1 && kb[|kb| - 1] == NavRow(cur, pages))
  {
    var items := Items(xs);
    var cur := CurrentPage(items, page, perPage);
    RowsFlatten(CategoryButtons(Window(items, cur, perPage)));
    var rows := Rows(CategoryButtons(Window(items, cur, perPage)));
    assert (rows + [NavRow(cur, PageCount(|items|, perPage))])[..|rows|] == rows;
  }

  /** An entry with an id can always be reached: the `j`-th listed entry is
      on page `j / perPage`, and asking for that page shows its button. */
  lemma EveryCategoryReachable(items: seq<Item>, j: nat, perPage: int)
    requires perPage >= 1 && j < |items|
    ensures var q := j / perPage;
            && CurrentPage(items, q, perPage) == q
            && j % perPage < |Window(items, q, perPage)|
            && CategoryButtons(Window(items, q, perPage))[j % perPage] == CategoryButton(items[j])
  {
    ItemOnItsPage(items, j, perPage);
  }

  /** Turning a page from the navigation row shows the page the button
      names. */
  lemma NavigationLandsOnNamedPage(items: seq<Item>, cur: nat, perPage: int, i: nat)
    requires perPage >= 1
    requires cur < PageCount(|items|, perPage)
    requires i < |NavRow(cur, PageCount(|items|, perPage))|
    ensures var p := Target(NavKinds(cur, PageCount(|items|, perPage))[i], cur);
            && Route(NavRow(cur, PageCount(|items|, perPage))[i].data) == ShowPage(p)
            && CurrentPage(items, p, perPage) == p
  {
    NavRowTurnsPages(cur, PageCount(|items|, perPage), i);
  }

  // ---------------------------------------------------- the array listed

  /** The array the source lists, as written: `[{root}]`, `{root}` or a bare
      array, else `[]`; then the `.data` unwrapping, guarded by
      `!Array.isArray(root)`, which never holds because `root` is an array
      by then. */
  function RootAsWritten(cr: Value): (r: Value)
    ensures r.Arr?
  {
    var root := RootShape(cr).GetOr(Arr([]));
    if !root.Arr? && Truthy(Prop(cr, "data")) then RootShape(Prop(cr, "data")).GetOr(Arr([]))
    else root
  }

  /** As written, the `.data` branch is dead: only the three outer shapes
      are ever listed. */
  lemma AsWrittenIgnoresData(cr: Value)
    ensures RootAsWritten(cr) == RootShape(cr).GetOr(Arr([]))
  {
  }

  /** `renderCategoriesList` as written. */
  function RenderAsWritten(cr: Value, page: int, perPage: int): (m: Message)
    requires perPage >= 1
    ensures RootShape(cr).None? ==> m == Message(NotFoundText, None)
  {
    RenderFrom(RootAsWritten(cr), page, perPage)
  }

  /** A list wrapped in `{ data: [...] }` — one `extractRoot` accepts, so
      its categories are saved to the session — is reported as "not found". */
  lemma WrappedListNotFoundAsWritten(xs: seq<Value>, page: int)
    requires xs != [] && !Prop(xs[0], "root").Arr?
    ensures RenderAsWritten(Obj(map["data" := Arr(xs)]), page, DefaultPerPage) == Message(NotFoundText, None)
    ensures ExtractRoot(Obj(map["data" := Arr(xs)])) == Arr(xs)
  {
    var cr := Obj(map["data" := Arr(xs)]);
    assert "root" != "data";
    assert Prop(cr, "0") == Undefined by { assert "0" != "data"; }
    assert RootShape(cr).None?;
    ExtractRootShapes(xs, [], 0);
  }

  /** `renderCategoriesList` as its `.data` branch means it: the array is
      the one `extractRoot` finds, the same one the categories session is
      saved from. */
  function RenderCategoriesList(cr: Value, page: int, perPage: int): (m: Message)
    requires perPage >= 1
    ensures m.keyboard.Some? <==> ExtractRoot(cr).items != []
    ensures RootShape(cr).Some? ==> m == RenderAsWritten(cr, page, perPage)
  {
    RenderFrom(ExtractRoot(cr), page, perPage)
  }

  /** The corrected listing shows the wrapped list the written one misses. */
  lemma WrappedListListed(xs: seq<Value>, page: int)
    requires xs != [] && !Prop(xs[0], "root").Arr?
    ensures RenderCategoriesList(Obj(map["data" := Arr(xs)]), page, DefaultPerPage).text == ChooseText
  {
    ExtractRootShapes(xs, [], 0);
  }

  // ------------------------------------------------ redrawing from cache

  /** The two callbacks that redraw the list from the cache: `cats_cache`
      shows the first page, `noop:page:<n>` page `n`. */
  predicate Redraws(a: Action) {
    a.CategoriesFromCache? || a.ShowPage?
  }

  /** The cached tree a redraw lists: the vehicle context is read (a parse
      failure propagates), then the tree under its catalog and vehicle;
      `None` when there is no context or no tree. */
  function CachedTree(mem: SessionCache.Mem, now: int, codec: SessionCache.Codec, user: string)
    : (r: SessionCache.Read<Result<Option<Value>>>)
    ensures r.value.Ok? && r.value.value.Some? ==> Truthy(r.value.value.value)
  {
    var c := SessionCache.GetUserVehicle(mem, now, codec, user);
    match c.value
    case Err(e) => SessionCache.Read(c.mem, Err(e))
    case Ok(ctx) =>
      if !Truthy(ctx) then SessionCache.Read(c.mem, Ok(None))
      else
        var t := SessionCache.GetCategoriesRoot(c.mem, now, codec, user, ToStr(Prop(ctx, "catalog")), VehicleKey(ctx));
        if !Truthy(t.value) then SessionCache.Read(t.mem, Ok(None))
        else SessionCache.Read(t.mem, Ok(Some(t.value)))
  }

  /** The page a redraw shows: `noop:page:<n>` names it, `cats_cache` shows
      the first. */
  function RedrawPage(a: Action): int
    requires Redraws(a)
  {
    if a.ShowPage? then a.page else 0
  }

  /** The reply for a missing context or tree, in the branch's own words. */
  function MissText(a: Action): string
    requires Redraws(a)
  {
    if a.ShowPage? then CacheStale else CacheEmpty
  }

  /** A listing sent with the footer row added to its keyboard. */
  function WithFooter(m: Message): Message {
    Message(m.text, Some(AddCatsFooter(m.keyboard)))
  }

  /** The `cats_cache` and `noop:page:` branches of the callback handler as
      written: the cached tree is listed by `renderCategoriesList` as it
      stands, so a tree wrapped in `{ data: [...] }` is reported as not
      found. */
  function RedrawFromCache(mem: SessionCache.Mem, now: int, codec: SessionCache.Codec, user: string, a: Action)
    : (r: SessionCache.Read<Result<Message>>)
    requires Redraws(a)
    ensures r.value.Ok? && r.value.value.keyboard.None? ==> r.value.value.text == MissText(a)
    ensures r.value.Ok? && r.value.value.keyboard.Some? ==>
              var kb := r.value.value.keyboard.value; |kb| >= 1 && kb[|kb| - 1] == Footer
  {
    var t := CachedTree(mem, now, codec, user);
    match t.value
    case Err(e) => SessionCache.Read(t.mem, Err(e))
    case Ok(None) => SessionCache.Read(t.mem, Ok(Message(MissText(a), None)))
    case Ok(Some(tree)) => SessionCache.Read(t.mem, Ok(WithFooter(RenderAsWritten(tree, RedrawPage(a), DefaultPerPage))))
  }

  /** The same two branches with the corrected listing. */
  function RedrawFromCacheCorrected(mem: SessionCache.Mem, now: int, codec: SessionCache.Codec, user: string, a: Action)
    : (r: SessionCache.Read<Result<Message>>)
    requires Redraws(a)
    ensures r.value.Ok? && r.value.value.keyboard.None? ==> r.value.value.text == MissText(a)
    ensures r.value.Ok? && r.value.value.keyboard.Some? ==>
              var kb := r.value.value.keyboard.value; |kb| >= 1 && kb[|kb| - 1] == Footer
  {
    var t := CachedTree(mem, now, codec, user);
    match t.value
    case Err(e) => SessionCache.Read(t.mem, Err(e))
    case Ok(None) => SessionCache.Read(t.mem, Ok(Message(MissText(a), None)))
    case Ok(Some(tree)) => SessionCache.Read(t.mem, Ok(WithFooter(RenderCategoriesList(tree, RedrawPage(a), DefaultPerPage))))
  }

  /** The written and the corrected redraw differ only on a cached tree of
      none of the three outer shapes. */
  lemma RedrawsAgreeOnOuterShapes(mem: SessionCache.Mem, now: int, codec: SessionCache.Codec, user: string, a: Action)
    requires Redraws(a)
    requires var t := CachedTree(mem, now, codec, user).value;
             t.Ok? && t.value.Some? ==> RootShape(t.value.value).Some?
    ensures RedrawFromCache(mem, now, codec, user, a) == RedrawFromCacheCorrected(mem, now, codec, user, a)
  {
  }

  /** After the tree was cached for the user's vehicle, a redraw within 15
      minutes reads that tree back. */
  lemma CachedTreeAfterSave(mem: SessionCache.Mem, t: int, now: int, codec: SessionCache.Codec,
                            user: string, ctx: Value, cr: Value)
    requires SessionCache.GetUserVehicle(mem, now, codec, user).value == Ok(ctx) && Truthy(ctx)
    requires now < t + SessionCache.TtlCats * 1000
    requires Truthy(Coalesce(cr, Arr([])))
    ensures var mem1 := SessionCache.SetCategoriesRoot(mem, t, user, ToStr(Prop(ctx, "catalog")), VehicleKey(ctx), cr);
            CachedTree(mem1, now, codec, user).value == Ok(Some(Coalesce(cr, Arr([]))))
  {
    var catalog := ToStr(Prop(ctx, "catalog"));
    var vehicle := VehicleKey(ctx);
    var mem1 := SessionCache.SetCategoriesRoot(mem, t, user, catalog, vehicle, cr);
    SessionCache.KeysNeverCollide(user, catalog, vehicle, user, catalog, vehicle, user, catalog, vehicle, "", user, catalog, vehicle, user);
    var c := SessionCache.GetUserVehicle(mem1, now, codec, user);
    assert c.value == Ok(ctx) by {
      assert mem1[SessionCache.CtxKey(user)] == mem[SessionCache.CtxKey(user)] || SessionCache.CtxKey(user) !in mem;
    }
    assert c.mem == mem1;
    SessionCache.CategoriesRootRoundTrip(mem, t, codec, user, catalog, vehicle, cr, now);
  }

  /** After the tree was cached for the user's vehicle, a redraw within 15
      minutes shows the requested page of that tree, as the written
      listing renders it, with the footer. */
  lemma RedrawShowsCachedTree(mem: SessionCache.Mem, t: int, now: int, codec: SessionCache.Codec,
                              user: string, ctx: Value, cr: Value, a: Action)
    requires Redraws(a)
    requires SessionCache.GetUserVehicle(mem, now, codec, user).value == Ok(ctx) && Truthy(ctx)
    requires now < t + SessionCache.TtlCats * 1000
    requires Truthy(Coalesce(cr, Arr([])))
    ensures var mem1 := SessionCache.SetCategoriesRoot(mem, t, user, ToStr(Prop(ctx, "catalog")), VehicleKey(ctx), cr);
            var m := RenderAsWritten(Coalesce(cr, Arr([])), RedrawPage(a), DefaultPerPage);
            RedrawFromCache(mem1, now, codec, user, a).value == Ok(Message(m.text, Some(AddCatsFooter(m.keyboard))))
  {
    CachedTreeAfterSave(mem, t, now, codec, user, ctx, cr);
  }

  /** A cached tree wrapped in `{ data: [...] }` is redrawn as "not found"
      with the footer row alone, although its categories were saved. */
  lemma RedrawWrappedTreeNotFound(mem: SessionCache.Mem, t: int, now: int, codec: SessionCache.Codec,
                                  user: string, ctx: Value, xs: seq<Value>, a: Action)
    requires Redraws(a)
    requires SessionCache.GetUserVehicle(mem, now, codec, user).value == Ok(ctx) && Truthy(ctx)
    requires now < t + SessionCache.TtlCats * 1000
    requires xs != [] && !Prop(xs[0], "root").Arr?
    ensures var mem1 := SessionCache.SetCategoriesRoot(mem, t, user, ToStr(Prop(ctx, "catalog")), VehicleKey(ctx),
                                                       Obj(map["data" := Arr(xs)]));
            RedrawFromCache(mem1, now, codec, user, a).value == Ok(Message(NotFoundText, Some([Footer])))
  {
    var cr := Obj(map["data" := Arr(xs)]);
    CachedTreeAfterSave(mem, t, now, codec, user, ctx, cr);
    WrappedListNotFoundAsWritten(xs, RedrawPage(a));
    FooterOnly();
  }

  /** With the corrected listing, the same redraw shows the requested page
      of the cached tree with the footer. */
  lemma RedrawCorrectedShowsCachedTree(mem: SessionCache.Mem, t: int, now: int, codec: SessionCache.Codec,
                                       user: string, ctx: Value, cr: Value, a: Action)
    requires Redraws(a)
    requires SessionCache.GetUserVehicle(mem, now, codec, user).value == Ok(ctx) && Truthy(ctx)
    requires now < t + SessionCache.TtlCats * 1000
    requires Truthy(Coalesce(cr, Arr([])))
    ensures var mem1 := SessionCache.SetCategoriesRoot(mem, t, user, ToStr(Prop(ctx, "catalog")), VehicleKey(ctx), cr);
            var m := RenderCategoriesList(Coalesce(cr, Arr([])), RedrawPage(a), DefaultPerPage);
            RedrawFromCacheCorrected(mem1, now, codec, user, a).value == Ok(Message(m.text, Some(AddCatsFooter(m.keyboard))))
  {
    CachedTreeAfterSave(mem, t, now, codec, user, ctx, cr);
  }
}

=== FILE: session_cache.dfy ===
/** The session cache of src/cache.js over its in-memory store: namespaced keys,
    the normalisers that give upstream records one canonical shape, and the
    helpers that store and read category lists, category trees, per-category
    unit maps, the last chosen category and the user's vehicle context.

    What the store holds is the text each helper writes. `Json(v)` is the text
    `JSON.stringify(v)` (taken to read back as `v`), `Text(s)` a raw string
    (only `setLastCategory` writes one), and `NoText` the `undefined` that
    `JSON.stringify(undefined)` returns. A read that parses raw text, or prints
    a JSON value as text, goes through the `Codec` parameter, which stands for
    `JSON.parse` (`None` when it throws) and `JSON.stringify`. */
module SessionCache {
  import opened Wrappers
  import opened JsText
  import opened JsValue
  import TtlStore

  /** Lifetimes in seconds: categories, category trees, unit maps and the
      last-category entry live 15 minutes, the vehicle context one hour;
      `cacheSet` defaults to 15 minutes. */
  const TtlCats: int := 900
  const TtlUnits: int := 900
  const TtlCtx: int := 3600
  const TtlDefault: int := 900

  datatype Payload = Text(text: string) | Json(value: Value) | NoText

  datatype Codec = Codec(stringify: Value -> string, parse: string -> Option<Value>)

  type Mem = TtlStore.Store<Payload>

  /** A read: the store after lazy expiry, and what the helper returns. */
  datatype Read<T> = Read(mem: Mem, value: T)

  /** `JSON.stringify(v)`: `undefined` has no text. */
  function Encode(v: Value): (p: Payload)
    ensures p.NoText? <==> v.Undefined?
    ensures p.Json? ==> p.value == v
  {
    if v.Undefined? then NoText else Json(v)
  }

  /** Whether the stored text is truthy: JSON text is never empty. */
  predicate PayloadTruthy(p: Payload) {
    match p
    case Text(s) => s != ""
    case Json(_) => true
    case NoText => false
  }

  /** `JSON.parse(raw)`; `None` when it throws. */
  function Parse(p: Payload, codec: Codec): Option<Value> {
    match p
    case Json(v) => Some(v)
    case Text(s) => codec.parse(s)
    case NoText => None
  }

  /** The pattern `raw == null ? null : (try JSON.parse(raw) catch raw)`. */
  function ParseOrRaw(p: Option<Payload>, codec: Codec): (r: Value)
    ensures p.Some? && p.value.Json? ==> r == p.value.value
    ensures p.None? || p.value.NoText? ==> r == Null
  {
    match p
    case None => Null
    case Some(NoText) => Null
    case Some(Json(v)) => v
    case Some(Text(s)) => codec.parse(s).GetOr(Str(s))
  }

  // ------------------------------------------------------------------ keys

  function NsKey(ns: string, rest: string): string {
    ns + ":" + rest
  }

  /** The namespace of a key: its text before the first colon. */
  function Namespace(key: string): string {
    Split(key, ':')[0]
  }

  lemma NamespaceOfNsKey(ns: string, rest: string)
    requires ':' !in ns
    ensures Namespace(NsKey(ns, rest)) == ns
  {
    IndexOfAfter(ns, ':', rest);
    assert NsKey(ns, rest) == ns + [':'] + rest;
    assert NsKey(ns, rest)[..|ns|] == ns;
  }

  function CatsKey(user: string, catalog: string, vehicle: string): string {
    NsKey("cats", user + ":" + catalog + ":" + vehicle)
  }

  function CatsRootKey(user: string, catalog: string, vehicle: string): string {
    NsKey("catsroot", user + ":" + catalog + ":" + vehicle)
  }

  function UnitsKey(user: string, catalog: string, vehicle: string, category: string): string {
    NsKey("units", user + ":" + catalog + ":" + vehicle + ":" + category)
  }

  function LastCatKey(user: string, catalog: string, vehicle: string): string {
    NsKey("lastcat", user + ":" + catalog + ":" + vehicle)
  }

  function CtxKey(user: string): string {
    NsKey("ctx", user + ":veh")
  }

  /** Keys of the five namespaces never collide, whatever the ids in them
      (colons included). */
  lemma KeysNeverCollide(
    u1: string, c1: string, v1: string,
    u2: string, c2: string, v2: string,
    u3: string, c3: string, v3: string, k3: string,
    u4: string, c4: string, v4: string,
    u5: string)
    ensures CatsKey(u1, c1, v1) != CatsRootKey(u2, c2, v2)
    ensures CatsKey(u1, c1, v1) != UnitsKey(u3, c3, v3, k3)
    ensures CatsKey(u1, c1, v1) != LastCatKey(u4, c4, v4)
    ensures CatsKey(u1, c1, v1) != CtxKey(u5)
    ensures CatsRootKey(u2, c2, v2) != UnitsKey(u3, c3, v3, k3)
    ensures CatsRootKey(u2, c2, v2) != LastCatKey(u4, c4, v4)
    ensures CatsRootKey(u2, c2, v2) != CtxKey(u5)
    ensures UnitsKey(u3, c3, v3, k3) != LastCatKey(u4, c4, v4)
    ensures UnitsKey(u3, c3, v3, k3) != CtxKey(u5)
    ensures LastCatKey(u4, c4, v4) != CtxKey(u5)
  {
    NamespaceOfNsKey("cats", u1 + ":" + c1 + ":" + v1);
    NamespaceOfNsKey("catsroot", u2 + ":" + c2 + ":" + v2);
    NamespaceOfNsKey("units", u3 + ":" + c3 + ":" + v3 + ":" + k3);
    NamespaceOfNsKey("lastcat", u4 + ":" + c4 + ":" + v4);
    NamespaceOfNsKey("ctx", u5 + ":veh");
  }

  // ----------------------------------------------------------- normalisers

  /** The first field among `keys` that is neither null nor undefined. */
  function FirstPresent(v: Value, keys: seq<string>): (r: Option<Value>)
    ensures r.Some? ==> !Nullish(r.value)
  {
    if keys == [] then None
    else if !Nullish(Prop(v, keys[0])) then Some(Prop(v, keys[0]))
    else FirstPresent(v, keys[1..])
  }

  /** A function parameter's default `= {}` replaces `undefined`. */
  function OrEmptyObject(v: Value): Value {
    if v.Undefined? then Obj(map[]) else v
  }

  datatype CategoryRecord = CategoryRecord(categoryId: Value, name: Value, ssd: Value)

  /** The shape every stored category has. */
  predicate CanonicalCategory(r: CategoryRecord) {
    !r.categoryId.Undefined? && !Nullish(r.name) && !r.ssd.Undefined?
  }

  /** A category record as the JSON object the cache stores. */
  function CategoryValue(r: CategoryRecord): Value {
    Obj(map["categoryId" := r.categoryId, "name" := r.name, "ssd" := r.ssd])
  }

  /** `normalizeCategory(c = {})`. `None` for a `null` record, whose property
      reads throw. */
  function NormalizeCategory(c: Value): (r: Option<CategoryRecord>)
    ensures r.None? <==> c.Null?
    ensures r.Some? ==> CanonicalCategory(r.value)
  {
    if c.Null? then None
    else
      var c := OrEmptyObject(c);
      Some(CategoryRecord(
        Coalesce(Prop(c, "categoryId"), Coalesce(Prop(c, "id"), Coalesce(Prop(c, "code"), Null))),
        Coalesce(Prop(c, "name"), Coalesce(Prop(c, "title"), Str(""))),
        Coalesce(Prop(c, "ssd"), Coalesce(Prop(c, "SSD"), Coalesce(Prop(c, "sSd"), Null)))))
  }

  lemma FirstPresentOf1(v: Value, a: string)
    ensures FirstPresent(v, [a]) == if Nullish(Prop(v, a)) then None else Some(Prop(v, a))
  {
    assert [a][1..] == [];
  }

  lemma FirstPresentOf2(v: Value, a: string, b: string)
    ensures FirstPresent(v, [a, b]).GetOr(Null) == Coalesce(Prop(v, a), Coalesce(Prop(v, b), Null))
    ensures FirstPresent(v, [a, b]).GetOr(Str("")) == Coalesce(Prop(v, a), Coalesce(Prop(v, b), Str("")))
  {
    assert [a, b][1..] == [b];
    FirstPresentOf1(v, b);
  }

  lemma FirstPresentOf3(v: Value, a: string, b: string, c: string)
    ensures FirstPresent(v, [a, b, c]).GetOr(Null) == Coalesce(Prop(v, a), Coalesce(Prop(v, b), Coalesce(Prop(v, c), Null)))
    ensures FirstPresent(v, [a, b, c]).GetOr(Str("")) == Coalesce(Prop(v, a), Coalesce(Prop(v, b), Coalesce(Prop(v, c), Str(""))))
  {
    assert [a, b, c][1..] == [b, c];
    FirstPresentOf2(v, b, c);
  }

  lemma FirstPresentOf4(v: Value, a: string, b: string, c: string, d: string)
    ensures FirstPresent(v, [a, b, c, d]).GetOr(Null)
            == Coalesce(Prop(v, a), Coalesce(Prop(v, b), Coalesce(Prop(v, c), Coalesce(Prop(v, d), Null))))
  {
    assert [a, b, c, d][1..] == [b, c, d];
    FirstPresentOf3(v, b, c, d);
  }

  lemma FirstPresentOf5(v: Value, a: string, b: string, c: string, d: string, e: string)
    ensures FirstPresent(v, [a, b, c, d, e]).GetOr(Null)
            == Coalesce(Prop(v, a), Coalesce(Prop(v, b), Coalesce(Prop(v, c), Coalesce(Prop(v, d), Coalesce(Prop(v, e), Null)))))
  {
    assert [a, b, c, d, e][1..] == [b, c, d, e];
    FirstPresentOf4(v, b, c, d, e);
  }

  /** Each field comes from the first of its source names that holds a value:
      the id from `categoryId`, `id`, `code`, else `null`; the name from
      `name`, `title`, else ''; the ssd from `ssd`, `SSD`, `sSd`, else `null`. */
  lemma NormalizeCategoryPriority(c: Value)
    requires !c.Null?
    ensures NormalizeCategory(c).value.categoryId == FirstPresent(c, ["categoryId", "id", "code"]).GetOr(Null)
    ensures NormalizeCategory(c).value.name == FirstPresent(c, ["name", "title"]).GetOr(Str(""))
    ensures NormalizeCategory(c).value.ssd == FirstPresent(c, ["ssd", "SSD", "sSd"]).GetOr(Null)
  {
    FirstPresentOf3(c, "categoryId", "id", "code");
    FirstPresentOf2(c, "name", "title");
    FirstPresentOf3(c, "ssd", "SSD", "sSd");
  }

  /** Normalising a stored category gives it back unchanged, so normalising
      twice is normalising once. */
  lemma NormalizeCategoryIdempotent(c: Value)
    requires !c.Null?
    ensures NormalizeCategory(CategoryValue(NormalizeCategory(c).value)) == NormalizeCategory(c)
  {
  }

  datatype UnitRecord = UnitRecord(unitId: Option<string>, name: Value, ssd: Value, raw: Value)

  predicate CanonicalUnit(r: UnitRecord) {
    !Nullish(r.name) && !r.ssd.Undefined?
  }

  /** A unit record as the JSON object the cache stores; a missing id is
      `null`. */
  function UnitValue(r: UnitRecord): Value {
    var id := if r.unitId.Some? then Str(r.unitId.value) else Null;
    Obj(map["unitId" := id, "name" := r.name, "ssd" := r.ssd, "raw" := r.raw])
  }

  /** `unitId != null ? String(unitId) : null`. */
  function IdText(id: Option<Value>): Option<string> {
    match id
    case None => None
    case Some(v) => Some(ToStr(v))
  }

  /** `normalizeUnit(u = {})`. `None` for a `null` record. */
  function NormalizeUnit(u: Value): (r: Option<UnitRecord>)
    ensures r.None? <==> u.Null?
    ensures r.Some? ==> CanonicalUnit(r.value) && r.value.raw == OrEmptyObject(u)
  {
    if u.Null? then None
    else
      var u := OrEmptyObject(u);
      var id := Coalesce(Prop(u, "unitId"), Coalesce(Prop(u, "id"), Coalesce(Prop(u, "UnitId"),
                  Coalesce(Prop(u, "ID"), Coalesce(Prop(u, "Id"), Null)))));
      Some(UnitRecord(
        if Nullish(id) then None else Some(ToStr(id)),
        Coalesce(Prop(u, "name"), Coalesce(Prop(u, "UnitName"), Coalesce(Prop(u, "title"), Str("")))),
        Coalesce(Prop(u, "ssd"), Coalesce(Prop(u, "SSD"), Coalesce(Prop(u, "Ssd"), Coalesce(Prop(u, "sSd"), Null)))),
        u))
  }

  /** Each unit field comes from the first of its source names that holds a
      value; a present id is turned into text. */
  lemma NormalizeUnitPriority(u: Value)
    requires !u.Null?
    ensures NormalizeUnit(u).value.unitId == IdText(FirstPresent(u, ["unitId", "id", "UnitId", "ID", "Id"]))
    ensures NormalizeUnit(u).value.name == FirstPresent(u, ["name", "UnitName", "title"]).GetOr(Str(""))
    ensures NormalizeUnit(u).value.ssd == FirstPresent(u, ["ssd", "SSD", "Ssd", "sSd"]).GetOr(Null)
  {
    FirstPresentOf5(u, "unitId", "id", "UnitId", "ID", "Id");
    FirstPresentOf3(u, "name", "UnitName", "title");
    FirstPresentOf4(u, "ssd", "SSD", "Ssd", "sSd");
  }

  /** Re-normalising a stored unit keeps its id, name and ssd; only `raw`
      changes, to the stored object itself. Every normalised unit is
      canonical, so this holds of every unit `normalizeUnit` returns. */
  lemma NormalizeUnitKeepsCanonicalFields(n: UnitRecord)
    requires CanonicalUnit(n)
    ensures NormalizeUnit(UnitValue(n)) == Some(n.(raw := UnitValue(n)))
  {
    var v := UnitValue(n);
    assert Prop(v, "unitId") == if n.unitId.Some? then Str(n.unitId.value) else Null;
    assert Prop(v, "name") == n.name && Prop(v, "ssd") == n.ssd;
  }

  // ------------------------------------------------------------ categories

  /** `rootArray.map(normalizeCategory)`; `None` when an element is `null`. */
  function NormalizeCategories(items: seq<Value>): (r: Option<seq<CategoryRecord>>)
    ensures r.None? <==> Null in items
    ensures r.Some? ==> |r.value| == |items|
    ensures r.Some? ==> forall i :: 0 <= i < |items| ==> NormalizeCategory(items[i]) == Some(r.value[i])
  {
    if items == [] then Some([])
    else if items[0].Null? then None
    else match NormalizeCategories(items[1..])
      case None => None
      case Some(t) => Some([NormalizeCategory(items[0]).value] + t)
  }

  /** `.filter(x => x.categoryId != null)`. */
  function WithId(rs: seq<CategoryRecord>): (r: seq<CategoryRecord>)
    ensures |r| <= |rs|
    ensures forall i :: 0 <= i < |r| ==> r[i] in rs && !Nullish(r[i].categoryId)
    ensures forall x :: x in rs && !Nullish(x.categoryId) ==> x in r
  {
    if rs == [] then []
    else (if Nullish(rs[0].categoryId) then [] else [rs[0]]) + WithId(rs[1..])
  }

  function CategoryValues(rs: seq<CategoryRecord>): (r: seq<Value>)
    ensures |r| == |rs|
    ensures forall i :: 0 <= i < |rs| ==> r[i] == CategoryValue(rs[i])
  {
    seq(|rs|, i requires 0 <= i < |rs| => CategoryValue(rs[i]))
  }

  /** The categories `saveCategoriesSession` keeps from `rootArray`: a
      non-array keeps none. `None` when normalising throws. */
  function CategoriesToSave(rootArray: Value): Option<seq<CategoryRecord>> {
    match NormalizeCategories(ItemsOrEmpty(rootArray))
    case None => None
    case Some(rs) => Some(WithId(rs))
  }

  /** `saveCategoriesSession(userId, catalog, vehicleId, rootArray)` at `now`.
      `None` is the rejected call, which stores nothing. */
  function SaveCategoriesSession(mem: Mem, now: int, user: string, catalog: string, vehicle: string, rootArray: Value): (r: Option<Mem>)
    ensures r.None? <==> Null in ItemsOrEmpty(rootArray)
    ensures r.Some? ==> r.value.Keys == mem.Keys + {CatsKey(user, catalog, vehicle)}
    ensures r.Some? ==> forall k :: k in mem && k != CatsKey(user, catalog, vehicle) ==> r.value[k] == mem[k]
  {
    match CategoriesToSave(rootArray)
    case None => None
    case Some(rs) =>
      Some(TtlStore.Set(mem, CatsKey(user, catalog, vehicle), Json(Arr(CategoryValues(rs))), TtlCats, now))
  }

  /** `readCategoriesSession`: `None` for `null`; a stored value that is not
      an array, or text that does not parse, reads as the empty list. */
  function ReadCategoriesSession(mem: Mem, now: int, codec: Codec, user: string, catalog: string, vehicle: string): (r: Read<Option<seq<Value>>>)
    ensures r.mem == TtlStore.Get(mem, CatsKey(user, catalog, vehicle), now).store
  {
    var look := TtlStore.Get(mem, CatsKey(user, catalog, vehicle), now);
    match look.value
    case None => Read(look.store, None)
    case Some(p) =>
      if !PayloadTruthy(p) then Read(look.store, None)
      else match Parse(p, codec)
        case None => Read(look.store, Some([]))
        case Some(v) => Read(look.store, Some(ItemsOrEmpty(Or(v, Arr([])))))
  }

  /** `list.find(x => String(x?.categoryId) === String(categoryId))`. */
  function FindByCategoryId(list: seq<Value>, categoryId: string): (r: Option<Value>)
    ensures r.Some? ==> r.value in list && ToStr(Prop(r.value, "categoryId")) == categoryId
    ensures r.Some? ==> exists i :: 0 <= i < |list| && list[i] == r.value
                          && forall j :: 0 <= j < i ==> ToStr(Prop(list[j], "categoryId")) != categoryId
    ensures r.None? ==> forall x :: x in list ==> ToStr(Prop(x, "categoryId")) != categoryId
  {
    if list == [] then None
    else if ToStr(Prop(list[0], "categoryId")) == categoryId then Some(list[0])
    else FindByCategoryId(list[1..], categoryId)
  }

  lemma NatDecimalInjective()
    ensures forall i: nat, j: nat :: NatToDecimal(i) == NatToDecimal(j) ==> i == j
  {
    forall i: nat, j: nat | NatToDecimal(i) == NatToDecimal(j) ensures i == j {
      DecimalRoundTrip(i);
      DecimalRoundTrip(j);
    }
  }

  /** `{ ...v }`: an object is copied as is; a string or an array becomes an
      object keyed by index; any other value spreads to `{}`. */
  function Spread(v: Value): (r: Value)
    ensures r.Obj?
    ensures v.Obj? ==> r == v
  {
    NatDecimalInjective();
    match v
    case Obj(_) => v
    case Arr(items) => Obj(map i: nat | i < |items| :: NatToDecimal(i) := items[i])
    case Str(s) => Obj(map i: nat | i < |s| :: NatToDecimal(i) := Str([s[i]]))
    case _ => Obj(map[])
  }

  /** `getCategoryRecord(userId, catalog, vehicleId, categoryId)`: a copy of
      the first stored category whose id prints as `categoryId`. */
  function GetCategoryRecord(mem: Mem, now: int, codec: Codec, user: string, catalog: string, vehicle: string, categoryId: string): (r: Read<Option<Value>>)
    ensures r.mem == TtlStore.Get(mem, CatsKey(user, catalog, vehicle), now).store
    ensures r.value.Some? ==> r.value.value.Obj?
  {
    var rd := ReadCategoriesSession(mem, now, codec, user, catalog, vehicle);
    match rd.value
    case None => Read(rd.mem, None)
    case Some(list) =>
      var found := FindByCategoryId(list, categoryId);
      if found.Some? && Truthy(found.value) then Read(rd.mem, Some(Spread(found.value)))
      else Read(rd.mem, None)
  }

  /** `getCategorySsd(...)`: the found record's `ssd`, or `null`. */
  function GetCategorySsd(mem: Mem, now: int, codec: Codec, user: string, catalog: string, vehicle: string, categoryId: string): (r: Read<Value>)
    ensures !r.value.Undefined?
    ensures GetCategoryRecord(mem, now, codec, user, catalog, vehicle, categoryId).value.None? ==> r.value == Null
  {
    var rec := GetCategoryRecord(mem, now, codec, user, catalog, vehicle, categoryId);
    match rec.value
    case None => Read(rec.mem, Null)
    case Some(x) => Read(rec.mem, Coalesce(Prop(x, "ssd"), Null))
  }

  /** The first record whose id prints as `categoryId`: the reference for
      what a saved category list answers. */
  function FirstWithId(rs: seq<CategoryRecord>, categoryId: string): (r: Option<CategoryRecord>)
    ensures r.Some? ==> r.value in rs && ToStr(r.value.categoryId) == categoryId
    ensures r.Some? ==> exists i :: 0 <= i < |rs| && rs[i] == r.value
                          && forall j :: 0 <= j < i ==> ToStr(rs[j].categoryId) != categoryId
    ensures r.None? ==> forall x :: x in rs ==> ToStr(x.categoryId) != categoryId
  {
    if rs == [] then None
    else if ToStr(rs[0].categoryId) == categoryId then Some(rs[0])
    else FirstWithId(rs[1..], categoryId)
  }

  lemma {:induction false} FindInCategoryValues(rs: seq<CategoryRecord>, categoryId: string)
    ensures FindByCategoryId(CategoryValues(rs), categoryId)
            == (match FirstWithId(rs, categoryId) case None => None case Some(x) => Some(CategoryValue(x)))
    decreases |rs|
  {
    if rs != [] {
      var vs := CategoryValues(rs);
      assert vs[1..] == CategoryValues(rs[1..]);
      assert Prop(vs[0], "categoryId") == rs[0].categoryId;
      if ToStr(rs[0].categoryId) == categoryId {
        assert FindByCategoryId(vs, categoryId) == Some(vs[0]);
      } else {
        assert FindByCategoryId(vs, categoryId) == FindByCategoryId(vs[1..], categoryId);
        assert FirstWithId(rs, categoryId) == FirstWithId(rs[1..], categoryId);
        FindInCategoryValues(rs[1..], categoryId);
      }
    }
  }

  /** What the category list reads as after a save: the kept records for 15
      minutes, nothing after. */
  lemma ReadAfterSave(mem: Mem, t: int, codec: Codec, user: string, catalog: string, vehicle: string,
                      rootArray: Value, now: int)
    requires SaveCategoriesSession(mem, t, user, catalog, vehicle, rootArray).Some?
    ensures ReadCategoriesSession(SaveCategoriesSession(mem, t, user, catalog, vehicle, rootArray).value, now, codec, user, catalog, vehicle).value
            == (if now < t + TtlCats * 1000 then Some(CategoryValues(CategoriesToSave(rootArray).value)) else None)
  {
    var rs := CategoriesToSave(rootArray).value;
    var key := CatsKey(user, catalog, vehicle);
    var payload := Json(Arr(CategoryValues(rs)));
    assert SaveCategoriesSession(mem, t, user, catalog, vehicle, rootArray).value == TtlStore.Set(mem, key, payload, TtlCats, t);
    TtlStore.GetAfterSet(mem, key, payload, TtlCats, t, now);
  }

  /** After a successful save at time `t`, and before 15 minutes have passed,
      a lookup finds the first kept category with that id; from then on it
      finds nothing. */
  lemma CategoryLookupAfterSave(mem: Mem, t: int, codec: Codec, user: string, catalog: string, vehicle: string,
                                rootArray: Value, categoryId: string, now: int)
    requires SaveCategoriesSession(mem, t, user, catalog, vehicle, rootArray).Some?
    ensures var saved := SaveCategoriesSession(mem, t, user, catalog, vehicle, rootArray).value;
            var found := FirstWithId(CategoriesToSave(rootArray).value, categoryId);
            GetCategoryRecord(saved, now, codec, user, catalog, vehicle, categoryId).value
            == (if now < t + TtlCats * 1000 && found.Some? then Some(CategoryValue(found.value)) else None)
  {
    var rs := CategoriesToSave(rootArray).value;
    var saved := SaveCategoriesSession(mem, t, user, catalog, vehicle, rootArray).value;
    ReadAfterSave(mem, t, codec, user, catalog, vehicle, rootArray, now);
    FindInCategoryValues(rs, categoryId);
    RecordOfRead(saved, now, codec, user, catalog, vehicle, categoryId);
  }

  /** The record lookup answers from the list read: a copy of the first
      truthy match, and nothing without a list. */
  lemma RecordOfRead(mem: Mem, now: int, codec: Codec, user: string, catalog: string, vehicle: string, categoryId: string)
    ensures var rd := ReadCategoriesSession(mem, now, codec, user, catalog, vehicle).value;
            var r := GetCategoryRecord(mem, now, codec, user, catalog, vehicle, categoryId).value;
            && (rd.None? ==> r.None?)
            && (rd.Some? ==> r == ObjectFound(FindByCategoryId(rd.value, categoryId)))
  {
  }

  /** A found object as `getCategoryRecord` returns it. */
  function ObjectFound(found: Option<Value>): (r: Option<Value>)
    ensures found.Some? && found.value.Obj? ==> r == found
    ensures found.None? ==> r.None?
  {
    if found.Some? && Truthy(found.value) then Some(Spread(found.value)) else None
  }

  /** Saving one category `{id, name, ssd}` makes its ssd readable under
      its id for 15 minutes, and every other id's ssd `null`. */
  lemma SavedCategorySsd(mem: Mem, t: int, codec: Codec, now: int, user: string, catalog: string, vehicle: string,
                         id: string, name: string, ssd: string, other: string)
    requires t <= now < t + 900 * 1000
    requires other != id
    ensures var root := Arr([Obj(map["id" := Str(id), "name" := Str(name), "ssd" := Str(ssd)])]);
            var saved := SaveCategoriesSession(mem, t, user, catalog, vehicle, root);
            && saved.Some?
            && GetCategorySsd(saved.value, now, codec, user, catalog, vehicle, id).value == Str(ssd)
            && GetCategorySsd(saved.value, now, codec, user, catalog, vehicle, other).value == Null
  {
    var root := Arr([Obj(map["id" := Str(id), "name" := Str(name), "ssd" := Str(ssd)])]);
    var rec := CategoryRecord(Str(id), Str(name), Str(ssd));
    assert NormalizeCategory(root.items[0]) == Some(rec);
    assert root.items[1..] == [];
    assert NormalizeCategories(root.items[1..]) == Some([]);
    assert !root.items[0].Null?;
    assert [rec] + [] == [rec];
    assert NormalizeCategories(root.items) == Some([rec]);
    assert [rec][1..] == [];
    assert WithId([rec]) == [rec];
    assert CategoriesToSave(root) == Some([rec]);
    assert FirstWithId([rec], id) == Some(rec);
    assert FirstWithId([rec], other) == None;
    CategoryLookupAfterSave(mem, t, codec, user, catalog, vehicle, root, id, now);
    CategoryLookupAfterSave(mem, t, codec, user, catalog, vehicle, root, other, now);
  }

  // -------------------------------------------------------- category tree

  /** `cacheSet(key, value, ttlSec = 900)` at time `now`. */
  function CacheSet(mem: Mem, now: int, key: string, value: Value, ttlSec: int): (r: Mem)
    ensures r.Keys == mem.Keys + {key}
    ensures forall k :: k in mem && k != key ==> r[k] == mem[k]
  {
    TtlStore.Set(mem, key, Encode(value), ttlSec, now)
  }

  /** `cacheGet(key)` at time `now`: `null` when absent or expired; stored
      text that does not parse is returned as a string. */
  function CacheGet(mem: Mem, now: int, codec: Codec, key: string): (r: Read<Value>)
    ensures r.mem == TtlStore.Get(mem, key, now).store
  {
    var look := TtlStore.Get(mem, key, now);
    Read(look.store, ParseOrRaw(look.value, codec))
  }

  /** A value cached at `t` reads back until its time to live runs out and
      as `null` from then on; `undefined` has no text and reads as `null`. */
  lemma CacheRoundTrip(mem: Mem, t: int, codec: Codec, key: string, value: Value, ttlSec: int, now: int)
    ensures CacheGet(CacheSet(mem, t, key, value, ttlSec), now, codec, key).value
            == (if now < t + ttlSec * 1000 && !value.Undefined? then value else Null)
  {
  }

  /** `setCategoriesRoot(...)`: the tree as received, `[]` for a missing one. */
  function SetCategoriesRoot(mem: Mem, now: int, user: string, catalog: string, vehicle: string, categoriesRoot: Value): (r: Mem)
    ensures r.Keys == mem.Keys + {CatsRootKey(user, catalog, vehicle)}
    ensures forall k :: k in mem && k != CatsRootKey(user, catalog, vehicle) ==> r[k] == mem[k]
  {
    CacheSet(mem, now, CatsRootKey(user, catalog, vehicle), Coalesce(categoriesRoot, Arr([])), TtlCats)
  }

  /** `getCategoriesRoot(...)`: read like `cacheGet`. */
  function GetCategoriesRoot(mem: Mem, now: int, codec: Codec, user: string, catalog: string, vehicle: string): (r: Read<Value>)
    ensures r.mem == TtlStore.Get(mem, CatsRootKey(user, catalog, vehicle), now).store
  {
    CacheGet(mem, now, codec, CatsRootKey(user, catalog, vehicle))
  }

  /** The stored tree reads back for 15 minutes, a missing one as `[]`. */
  lemma CategoriesRootRoundTrip(mem: Mem, t: int, codec: Codec, user: string, catalog: string, vehicle: string, root: Value, now: int)
    ensures GetCategoriesRoot(SetCategoriesRoot(mem, t, user, catalog, vehicle, root), now, codec, user, catalog, vehicle).value
            == (if now < t + TtlCats * 1000 then Coalesce(root, Arr([])) else Null)
  {
  }

  // ----------------------------------------------------------------- units

  /** What `for (const u of (unitsArray || []))` iterates: array elements, or
      the characters of a string; `None` when the value is not iterable. */
  function UnitSource(unitsArray: Value): Option<seq<Value>> {
    match Or(unitsArray, Arr([]))
    case Arr(items) => Some(items)
    case Str(s) => Some(seq(|s|, i requires 0 <= i < |s| => Str([s[i]])))
    case _ => None
  }

  /** The id under which a unit is kept, if any: a non-empty `unitId`. */
  function KeptId(u: Value): Option<string>
    requires !u.Null?
  {
    var n := NormalizeUnit(u).value;
    if n.unitId.Some? && n.unitId.value != "" then n.unitId else None
  }

  /** The loop of `saveUnitsSession`: each unit with a non-empty id is put
      under that id, a later one overwriting an earlier. `None` when a `null`
      unit makes the loop throw. */
  function UnitsMap(items: seq<Value>): (r: Option<map<string, UnitRecord>>)
    ensures r.None? <==> Null in items
    decreases |items|
  {
    if items == [] then Some(map[])
    else
      var init := items[..|items| - 1];
      var last := items[|items| - 1];
      match UnitsMap(init)
      case None => None
      case Some(m) =>
        if last.Null? then None
        else
          var n := NormalizeUnit(last).value;
          Some(if KeptId(last).Some? then m[KeptId(last).value := n] else m)
  }

  /** The position of the last unit kept under `id`: the reference for
      which record the unit map holds. */
  function LastKept(items: seq<Value>, id: string): (r: Option<nat>)
    requires Null !in items
    ensures r.Some? ==> r.value < |items| && KeptId(items[r.value]) == Some(id)
    ensures r.Some? ==> forall j :: r.value < j < |items| ==> KeptId(items[j]) != Some(id)
    ensures r.None? ==> forall j :: 0 <= j < |items| ==> KeptId(items[j]) != Some(id)
    decreases |items|
  {
    if items == [] then None
    else if KeptId(items[|items| - 1]) == Some(id) then Some(|items| - 1)
    else
      assert forall j :: 0 <= j < |items| - 1 ==> items[..|items| - 1][j] == items[j];
      LastKept(items[..|items| - 1], id)
  }

  /** Which unit the map keeps under `id`: the last one with that id, and
      none when no unit has it. */
  lemma {:induction false} UnitsMapLastWins(items: seq<Value>, id: string)
    requires Null !in items
    ensures UnitsMap(items).Some?
    ensures id in UnitsMap(items).value <==> LastKept(items, id).Some?
    ensures LastKept(items, id).Some? ==> UnitsMap(items).value[id] == NormalizeUnit(items[LastKept(items, id).value]).value
    decreases |items|
  {
    if items != [] {
      var n := |items| - 1;
      var init := items[..n];
      assert Null !in init by {
        forall j | 0 <= j < |init| ensures init[j] != Null { assert init[j] == items[j]; }
      }
      UnitsMapLastWins(init, id);
      if KeptId(items[n]) != Some(id) {
        assert LastKept(items, id) == LastKept(init, id);
        var k := LastKept(init, id);
        if k.Some? {
          assert init[k.value] == items[k.value];
        }
      }
    }
  }

  function UnitsObject(m: map<string, UnitRecord>): Value {
    Obj(map id | id in m :: UnitValue(m[id]))
  }

  /** The unit map `saveUnitsSession` stores, or `None` when it throws. */
  function UnitsToSave(unitsArray: Value): Option<map<string, UnitRecord>> {
    match UnitSource(unitsArray)
    case None => None
    case Some(items) => UnitsMap(items)
  }

  /** `saveUnitsSession(userId, catalog, vehicleId, categoryId, unitsArray)`. */
  function SaveUnitsSession(mem: Mem, now: int, user: string, catalog: string, vehicle: string, category: string, unitsArray: Value): (r: Option<Mem>)
    ensures r.Some? <==> UnitsToSave(unitsArray).Some?
    ensures r.Some? ==> r.value.Keys == mem.Keys + {UnitsKey(user, catalog, vehicle, category)}
    ensures r.Some? ==> forall k :: k in mem && k != UnitsKey(user, catalog, vehicle, category) ==> r.value[k] == mem[k]
  {
    match UnitsToSave(unitsArray)
    case None => None
    case Some(m) => Some(TtlStore.Set(mem, UnitsKey(user, catalog, vehicle, category), Json(UnitsObject(m)), TtlUnits, now))
  }

  /** A string of units keeps none of them: no character has an id. */
  lemma StringUnitsKeepNone(s: string)
    requires s != ""
    ensures UnitsToSave(Str(s)) == Some(map[])
  {
    var items := seq(|s|, i requires 0 <= i < |s| => Str([s[i]]));
    assert forall i :: 0 <= i < |items| ==> !items[i].Null? && KeptId(items[i]).None?;
    assert Null !in items;
    forall id: string ensures id !in UnitsMap(items).value {
      UnitsMapLastWins(items, id);
    }
  }

  /** `getUnitRecord(...)`: the record stored under `String(unitId)`, or
      `null`. */
  function GetUnitRecord(mem: Mem, now: int, codec: Codec, user: string, catalog: string, vehicle: string, category: string, unitId: string): (r: Read<Option<Value>>)
    ensures r.mem == TtlStore.Get(mem, UnitsKey(user, catalog, vehicle, category), now).store
    ensures r.value.Some? ==> Truthy(r.value.value)
  {
    var look := TtlStore.Get(mem, UnitsKey(user, catalog, vehicle, category), now);
    match look.value
    case None => Read(look.store, None)
    case Some(p) =>
      if !PayloadTruthy(p) then Read(look.store, None)
      else match Parse(p, codec)
        case None => Read(look.store, None)
        case Some(v) =>
          var rec := Prop(Or(v, Obj(map[])), unitId);
          Read(look.store, if Truthy(rec) then Some(rec) else None)
  }

  /** After a successful save, and for 15 minutes, a unit id reads back the
      record kept under it, or `null` when none is. */
  lemma UnitLookupAfterSave(mem: Mem, t: int, codec: Codec, user: string, catalog: string, vehicle: string, category: string,
                            unitsArray: Value, unitId: string, now: int)
    requires SaveUnitsSession(mem, t, user, catalog, vehicle, category, unitsArray).Some?
    ensures var saved := SaveUnitsSession(mem, t, user, catalog, vehicle, category, unitsArray).value;
            var m := UnitsToSave(unitsArray).value;
            GetUnitRecord(saved, now, codec, user, catalog, vehicle, category, unitId).value
            == (if now < t + TtlUnits * 1000 && unitId in m then Some(UnitValue(m[unitId])) else None)
  {
  }

  // --------------------------------------------------------- last category

  /** `setLastCategory(...)`: stores `String(categoryId ?? '')` as raw text. */
  function SetLastCategory(mem: Mem, now: int, user: string, catalog: string, vehicle: string, categoryId: Value): (r: Mem)
    ensures r.Keys == mem.Keys + {LastCatKey(user, catalog, vehicle)}
    ensures forall k :: k in mem && k != LastCatKey(user, catalog, vehicle) ==> r[k] == mem[k]
  {
    TtlStore.Set(mem, LastCatKey(user, catalog, vehicle), Text(ToStr(Coalesce(categoryId, Str("")))), TtlCats, now)
  }

  /** `getLastCategory(...)`: `String(raw)` when the text is non-empty. */
  function GetLastCategory(mem: Mem, now: int, codec: Codec, user: string, catalog: string, vehicle: string): (r: Read<Option<string>>)
    ensures r.mem == TtlStore.Get(mem, LastCatKey(user, catalog, vehicle), now).store
  {
    var look := TtlStore.Get(mem, LastCatKey(user, catalog, vehicle), now);
    match look.value
    case None => Read(look.store, None)
    case Some(p) =>
      match p
      case Text(s) => Read(look.store, if s != "" then Some(s) else None)
      case Json(v) => Read(look.store, Some(codec.stringify(v)))
      case NoText => Read(look.store, None)
  }

  /** The last category reads back as the id's text for 15 minutes; a `null`,
      `undefined` or empty id is stored as empty text and reads as `null`. */
  lemma LastCategoryRoundTrip(mem: Mem, t: int, codec: Codec, user: string, catalog: string, vehicle: string, categoryId: Value, now: int)
    ensures var id := ToStr(Coalesce(categoryId, Str("")));
            GetLastCategory(SetLastCategory(mem, t, user, catalog, vehicle, categoryId), now, codec, user, catalog, vehicle).value
            == (if now < t + TtlCats * 1000 && id != "" then Some(id) else None)
    ensures Nullish(categoryId) || categoryId == Str("") ==>
              GetLastCategory(SetLastCategory(mem, t, user, catalog, vehicle, categoryId), now, codec, user, catalog, vehicle).value == None
  {
  }

  // ------------------------------------------------------- vehicle context

  /** `setUserVehicle(userId, vehicle)`: `{}` for a falsy vehicle. */
  function SetUserVehicle(mem: Mem, now: int, user: string, vehicle: Value): (r: Mem)
    ensures r.Keys == mem.Keys + {CtxKey(user)}
    ensures forall k :: k in mem && k != CtxKey(user) ==> r[k] == mem[k]
  {
    TtlStore.Set(mem, CtxKey(user), Encode(Or(vehicle, Obj(map[]))), TtlCtx, now)
  }

  /** `getUserVehicle(userId)`: `JSON.parse(raw)` when the text is truthy,
      else `null`. Text that does not parse makes the call throw. */
  function GetUserVehicle(mem: Mem, now: int, codec: Codec, user: string): (r: Read<Result<Value>>)
    ensures r.mem == TtlStore.Get(mem, CtxKey(user), now).store
  {
    var look := TtlStore.Get(mem, CtxKey(user), now);
    match look.value
    case None => Read(look.store, Ok(Null))
    case Some(p) =>
      if !PayloadTruthy(p) then Read(look.store, Ok(Null))
      else match Parse(p, codec)
        case None => Read(look.store, Err("JSON.parse: stored vehicle context is not JSON"))
        case Some(v) => Read(look.store, Ok(v))
  }

  /** The vehicle context lives one hour: it reads back before, and as
      `null` from the first instant one hour after it was set. */
  lemma VehicleRoundTrip(mem: Mem, t: int, codec: Codec, user: string, vehicle: Value, now: int)
    ensures GetUserVehicle(SetUserVehicle(mem, t, user, vehicle), now, codec, user).value
            == (if now < t + 3600 * 1000 then Ok(Or(vehicle, Obj(map[]))) else Ok(Null))
  {
  }

  /** Writing categories, trees, units or the last category of any user
      leaves every vehicle context as it reads. */
  lemma VehicleUnaffectedByCatalogWrites(mem: Mem, t: int, now: int, codec: Codec,
                                         u: string, catalog: string, vehicle: string, category: string,
                                         root: Value, units: Value, lastId: Value, reader: string)
    requires SaveCategoriesSession(mem, t, u, catalog, vehicle, root).Some?
    requires SaveUnitsSession(SaveCategoriesSession(mem, t, u, catalog, vehicle, root).value, t, u, catalog, vehicle, category, units).Some?
    ensures var m1 := SaveCategoriesSession(mem, t, u, catalog, vehicle, root).value;
            var m2 := SaveUnitsSession(m1, t, u, catalog, vehicle, category, units).value;
            var m3 := SetCategoriesRoot(m2, t, u, catalog, vehicle, root);
            var m4 := SetLastCategory(m3, t, u, catalog, vehicle, lastId);
            GetUserVehicle(m4, now, codec, reader).value == GetUserVehicle(mem, now, codec, reader).value
  {
    KeysNeverCollide(u, catalog, vehicle, u, catalog, vehicle, u, catalog, vehicle, category, u, catalog, vehicle, reader);
    var m1 := SaveCategoriesSession(mem, t, u, catalog, vehicle, root).value;
    var m2 := SaveUnitsSession(m1, t, u, catalog, vehicle, category, units).value;
    var m3 := SetCategoriesRoot(m2, t, u, catalog, vehicle, root);
    var m4 := SetLastCategory(m3, t, u, catalog, vehicle, lastId);
    VehicleReadsAlike(m1, mem, now, codec, reader);
    VehicleReadsAlike(m2, m1, now, codec, reader);
    VehicleReadsAlike(m3, m2, now, codec, reader);
    VehicleReadsAlike(m4, m3, now, codec, reader);
  }

  /** Two stores that agree on a user's `ctx:` entry read that user's
      vehicle context alike. */
  lemma VehicleReadsAlike(a: Mem, b: Mem, now: int, codec: Codec, reader: string)
    requires CtxKey(reader) in a <==> CtxKey(reader) in b
    requires CtxKey(reader) in a ==> a[CtxKey(reader)] == b[CtxKey(reader)]
    ensures GetUserVehicle(a, now, codec, reader).value == GetUserVehicle(b, now, codec, reader).value
  {
  }
}

=== FILE: session_state.dfy ===
/** The per-user conversation session of src/core/state.js: one record per
    user holding a timestamp and the session data, valid for 24 hours. Unlike
    the cache's store, a record is still valid at exactly its age limit and
    expires only once it is strictly older. */
module SessionState {
  import opened Wrappers
  import TtlStore

  /** 24 hours in milliseconds. */
  const TtlMs: int := 24 * 60 * 60 * 1000

  datatype Record<D> = Record(ts: int, data: D)

  /** A Telegram user id. */
  type UserId = int

  type Sessions<D> = map<UserId, Record<D>>

  datatype Lookup<D> = Lookup(sessions: Sessions<D>, value: Option<D>)

  predicate Expired<D>(r: Record<D>, now: int) {
    now - r.ts > TtlMs
  }

  /** `getSession(userId)` at time `now`. */
  function GetSession<D>(m: Sessions<D>, user: UserId, now: int): (r: Lookup<D>)
    ensures r.value.Some? <==> user in m && now - m[user].ts <= TtlMs
    ensures r.value.Some? ==> r.value.value == m[user].data && r.sessions == m
    ensures r.value.None? ==> r.sessions == m - {user}
  {
    if user !in m then Lookup(m, None)
    else if Expired(m[user], now) then Lookup(m - {user}, None)
    else Lookup(m, Some(m[user].data))
  }

  /** `setSession(userId, data)` at time `now`. */
  function SetSession<D>(m: Sessions<D>, user: UserId, data: D, now: int): (r: Sessions<D>)
    ensures r.Keys == m.Keys + {user}
    ensures forall u :: u in m && u != user ==> r[u] == m[u]
  {
    m[user := Record(now, data)]
  }

  /** `clearSession(userId)`. */
  function ClearSession<D>(m: Sessions<D>, user: UserId): (r: Sessions<D>)
    ensures user !in r
    ensures r.Keys == m.Keys - {user}
    ensures forall u :: u in m && u != user ==> r[u] == m[u]
  {
    m - {user}
  }

  /** A session read back within 24 hours of being set returns the stored
      data, even at exactly 24 hours; one millisecond later it is gone and its
      record deleted. */
  lemma GetAfterSet<D>(m: Sessions<D>, user: UserId, data: D, t: int, now: int)
    ensures now - t <= TtlMs ==> GetSession(SetSession(m, user, data, t), user, now).value == Some(data)
    ensures now - t > TtlMs ==>
              GetSession(SetSession(m, user, data, t), user, now).value == None
              && user !in GetSession(SetSession(m, user, data, t), user, now).sessions
  {
  }

  /** Setting again replaces the data and restarts the 24 hours. */
  lemma SetRestartsClock<D>(m: Sessions<D>, user: UserId, d1: D, t1: int, d2: D, t2: int)
    ensures SetSession(SetSession(m, user, d1, t1), user, d2, t2) == SetSession(m, user, d2, t2)
  {
  }

  /** Clearing a user makes that user's next read `null` and leaves every
      other user's read as it was. */
  lemma ClearIsolated<D>(m: Sessions<D>, user: UserId, other: UserId, now: int)
    ensures GetSession(ClearSession(m, user), user, now).value == None
    ensures other != user ==> GetSession(ClearSession(m, user), other, now).value == GetSession(m, other, now).value
  {
  }

  /** The two stores draw the expiry line differently: at an age of exactly
      the time to live, a cache entry is gone while a session is still
      returned. */
  lemma ExpiryBoundariesDiffer<D>(c: TtlStore.Store<D>, key: string, m: Sessions<D>, user: UserId, data: D, t: int)
    ensures TtlStore.Get(TtlStore.Set(c, key, data, TtlMs / 1000, t), key, t + TtlMs).value.None?
    ensures GetSession(SetSession(m, user, data, t), user, t + TtlMs).value == Some(data)
  {
  }
}

=== FILE: telegram.dfy ===
/** The pure helpers of src/telegram.js: the grammar of the unit buttons'
    callback data, the routing of a callback query by its data, the page and
    category ids read from that data, how `_handleUnit` finds the category and
    the unit's `ssd` in the session cache, the two keyboard transforms, and the
    shape-tolerant `extractRoot`. */
module Callbacks {
  import opened Wrappers
  import opened JsText
  import opened JsValue
  import SessionCache

  /** An inline keyboard button; `data` is its `callback_data`, `None` when
      the button has none. */
  datatype Button = Button(text: string, data: Option<string>)

  /** `inline_keyboard`: rows of buttons. */
  type Keyboard = seq<seq<Button>>

  // ------------------------------------------------- unit button grammar

  datatype Kind = UnitButton | NodeButton

  function KindName(k: Kind): (r: string)
    ensures |r| == 4 && ':' !in r
  {
    match k
    case UnitButton => "unit"
    case NodeButton => "node"
  }

  /** A match of `^(unit|node):([^:]+)(?::([^:]+))?$`: the prefix, the unit
      id and the optional category id. */
  datatype UnitMatch = UnitMatch(kind: Kind, unitId: string, categoryId: Option<string>)

  /** Both ids non-empty and free of colons: what `[^:]+` captures. */
  predicate WellFormed(m: UnitMatch) {
    && m.unitId != "" && ':' !in m.unitId
    && (m.categoryId.Some? ==> m.categoryId.value != "" && ':' !in m.categoryId.value)
  }

  /** The callback data a match is read from. */
  function Format(m: UnitMatch): string {
    KindName(m.kind) + ":" + m.unitId + (if m.categoryId.Some? then ":" + m.categoryId.value else "")
  }

  /** The test `/^(unit|node):/`, with the prefix it found. */
  function KindOf(data: string): (r: Option<Kind>)
    ensures r.Some? ==> |data| >= 5 && data[..5] == KindName(r.value) + ":"
    ensures r.None? ==> !StartsWith(data, "unit:") && !StartsWith(data, "node:")
  {
    if StartsWith(data, "unit:") then Some(UnitButton)
    else if StartsWith(data, "node:") then Some(NodeButton)
    else None
  }

  /** `data.match(/^(unit|node):([^:]+)(?::([^:]+))?$/)`. */
  function MatchUnit(data: string): (r: Option<UnitMatch>)
    ensures r.Some? ==> WellFormed(r.value) && KindOf(data) == Some(r.value.kind)
  {
    match KindOf(data)
    case None => None
    case Some(k) =>
      var parts := Split(data[5..], ':');
      if |parts| == 1 && parts[0] != "" then Some(UnitMatch(k, parts[0], None))
      else if |parts| == 2 && parts[0] != "" && parts[1] != "" then Some(UnitMatch(k, parts[0], Some(parts[1])))
      else None
  }

  lemma JoinOne(a: string)
    ensures Join([a], ':') == a
  {
  }

  lemma JoinTwo(a: string, b: string)
    ensures Join([a, b], ':') == a + ":" + b
  {
    assert [a, b][1..] == [b];
  }

  /** The text of a match read from the prefix on. */
  lemma FormatParts(m: UnitMatch)
    ensures |Format(m)| >= 5
    ensures Format(m)[..5] == KindName(m.kind) + ":"
    ensures m.categoryId.None? ==> Format(m)[5..] == Join([m.unitId], ':')
    ensures m.categoryId.Some? ==> Format(m)[5..] == Join([m.unitId, m.categoryId.value], ':')
  {
    var d := Format(m);
    if m.categoryId.Some? {
      JoinTwo(m.unitId, m.categoryId.value);
      assert d == (KindName(m.kind) + ":") + (m.unitId + ":" + m.categoryId.value);
    } else {
      JoinOne(m.unitId);
      assert d == (KindName(m.kind) + ":") + m.unitId;
    }
  }

  /** The pattern accepts the text of every well-formed match and reads the
      same match back. */
  lemma MatchFormat(m: UnitMatch)
    requires WellFormed(m)
    ensures MatchUnit(Format(m)) == Some(m)
  {
    var d := Format(m);
    FormatParts(m);
    assert KindOf(d) == Some(m.kind) by {
      if m.kind == NodeButton {
        assert d[0] == 'n';
        assert !StartsWith(d, "unit:") by { assert "unit:"[0] == 'u'; }
      }
    }
    if m.categoryId.Some? {
      SplitJoin([m.unitId, m.categoryId.value], ':');
    } else {
      SplitJoin([m.unitId], ':');
    }
  }

  /** Two sequences that agree before and after `k` are equal. */
  lemma SameHalves<T>(a: seq<T>, b: seq<T>, k: nat)
    requires k <= |a| && k <= |b| && a[..k] == b[..k] && a[k..] == b[k..]
    ensures a == b
  {
    assert a == a[..k] + a[k..];
    assert b == b[..k] + b[k..];
  }

  /** Whatever the pattern accepts is the text of its match: it accepts
      nothing beyond the four forms. */
  lemma FormatMatch(data: string)
    requires MatchUnit(data).Some?
    ensures Format(MatchUnit(data).value) == data
  {
    var m := MatchUnit(data).value;
    assert Format(m)[5..] == data[5..] by {
      var parts := Split(data[5..], ':');
      JoinSplit(data[5..], ':');
      FormatParts(m);
      if |parts| == 1 {
        assert parts == [m.unitId];
      } else {
        assert parts == [m.unitId, m.categoryId.value];
      }
    }
    FormatParts(m);
    SameHalves(Format(m), data, 5);
  }

  /** `{ unitId, categoryId }` as `parseUnitCbData` returns it. */
  datatype UnitRef = UnitRef(unitId: string, categoryId: Option<string>)

  /** `parseUnitCbData(data)`: `None` is its `null`. */
  function ParseUnitCbData(data: string): (r: Option<UnitRef>)
    ensures r.Some? <==> MatchUnit(data).Some?
    ensures r.Some? ==> r.value.unitId != "" && ':' !in r.value.unitId
  {
    match MatchUnit(data)
    case None => None
    case Some(m) => Some(UnitRef(m.unitId, m.categoryId))
  }

  /** `parseUnitCbData` accepts exactly the texts `unit:a`, `node:a`,
      `unit:a:b` and `node:a:b` with `a` and `b` non-empty and colon-free,
      and returns their ids. */
  lemma ParseUnitCbDataExactly(data: string)
    ensures ParseUnitCbData(data).Some? <==> exists m :: WellFormed(m) && Format(m) == data
    ensures forall m :: WellFormed(m) && Format(m) == data ==> ParseUnitCbData(data) == Some(UnitRef(m.unitId, m.categoryId))
  {
    if ParseUnitCbData(data).Some? {
      FormatMatch(data);
      assert WellFormed(MatchUnit(data).value) && Format(MatchUnit(data).value) == data;
    }
    forall m | WellFormed(m) && Format(m) == data
      ensures ParseUnitCbData(data) == Some(UnitRef(m.unitId, m.categoryId))
    {
      MatchFormat(m);
    }
  }

  /** Round trip: a unit or node button built from ids reads back as them. */
  lemma ParseUnitCbDataRoundTrip(k: Kind, a: string, b: string)
    requires a != "" && ':' !in a && b != "" && ':' !in b
    ensures ParseUnitCbData(KindName(k) + ":" + a + ":" + b) == Some(UnitRef(a, Some(b)))
    ensures ParseUnitCbData(KindName(k) + ":" + a) == Some(UnitRef(a, None))
  {
    MatchFormat(UnitMatch(k, a, Some(b)));
    MatchFormat(UnitMatch(k, a, None));
    assert Format(UnitMatch(k, a, Some(b))) == KindName(k) + ":" + a + ":" + b;
    assert Format(UnitMatch(k, a, None)) == KindName(k) + ":" + a;
  }

  // ------------------------------------------------------------- routing

  /** What the `callback_query` handler does with a query. */
  datatype Action =
    | LoadCategories
    | CategoriesFromCache
    | OpenCategory(category: string)
    | OpenUnit(unitId: string, unitCategory: Option<string>)
    | UnreadableUnitButton
    | ShowPage(page: int)
    | Ignore
    | Unknown

  /** Text with a colon has at least two colon-separated pieces. */
  lemma SplitAtColon(s: string)
    requires ':' in s
    ensures |Split(s, ':')| >= 2
  {
  }

  /** `data.split(':')[1]` for a `cat:` button: the text between the first
      and the second colon. */
  function CategoryOfCallback(data: string): (r: string)
    requires StartsWith(data, "cat:")
    ensures ':' !in r
  {
    assert data[3] == ':';
    SplitAtColon(data);
    Split(data, ':')[1]
  }

  /** Splitting at the first separator. */
  lemma SplitAfterFirst(a: string, b: string)
    requires ':' !in a
    ensures Split(a + [':'] + b, ':') == [a] + Split(b, ':')
  {
    IndexOfAfter(a, ':', b);
    var d := a + [':'] + b;
    assert d[..|a|] == a;
    assert d[|a| + 1..] == b;
  }

  /** `cat:<id>` yields `id`, and only the piece up to a further colon. */
  lemma CategoryOfCallbackReads(id: string, tail: string)
    requires ':' !in id
    ensures CategoryOfCallback("cat:" + id) == id
    ensures CategoryOfCallback("cat:" + id + ":" + tail) == id
  {
    CategoryAfterPrefix(id);
    assert "cat:" + id + ":" + tail == "cat:" + (id + [':'] + tail);
    CategoryAfterPrefix(id + [':'] + tail);
    SplitAfterFirst(id, tail);
  }

  /** The category of `cat:` followed by a text is that text's first piece. */
  lemma CategoryAfterPrefix(rest: string)
    ensures CategoryOfCallback("cat:" + rest) == Split(rest, ':')[0]
  {
    assert "cat:" + rest == "cat" + [':'] + rest;
    SplitAfterFirst("cat", rest);
  }

  /** `Number(data.split(':')[2] || '0') || 0`: the page a `noop:page:` button
      asks for. */
  function PageOf(data: string): (r: int)
    ensures Segment(data, ':', 2).None? ==> r == 0
  {
    var seg := Segment(data, ':', 2);
    var pageStr := if seg.Some? && seg.value != "" then seg.value else "0";
    match NumberOfText(pageStr)
    case Some(n) => n
    case None => 0
  }

  /** The pieces of `noop:page:<s>` for a colon-free `s`. */
  lemma PageButtonPieces(s: string)
    requires ':' !in s
    ensures Segment("noop:page:" + s, ':', 2) == Some(s)
  {
    var d := "noop:page:" + s;
    assert d == "noop" + [':'] + ("page" + [':'] + s);
    JoinTwo("page", s);
    assert Join(["noop", "page", s], ':') == "noop" + [':'] + Join(["page", s], ':') by {
      assert ["noop", "page", s][1..] == ["page", s];
    }
    SplitJoin(["noop", "page", s], ':');
  }

  /** The page a navigation button asks for reads back as the page it was
      built with. */
  lemma PageOfDecimal(n: int)
    ensures PageOf("noop:page:" + IntToDecimal(n)) == n
  {
    var s := IntToDecimal(n);
    assert ':' !in s by {
      if n < 0 {
        assert s[1..] == NatToDecimal(-n);
      }
    }
    PageButtonPieces(s);
    NumberOfDecimal(n);
  }

  /** A non-numeric or empty page text asks for page 0. */
  lemma PageOfNonNumber(s: string)
    requires ':' !in s
    requires s == "" || NumberOfText(s).None?
    ensures PageOf("noop:page:" + s) == 0
  {
    PageButtonPieces(s);
    if s == "" {
      assert Trim("0") == "0" by { TrimOfUnpadded("0"); }
    }
  }

  /** Text that is not padded and starts with neither a sign nor a digit
      is not a number. */
  lemma NotANumber(s: string)
    requires s != [] && !IsSpace(s[0]) && !IsSpace(s[|s| - 1])
    requires s[0] != '-' && s[0] != '+' && !IsDigit(s[0])
    ensures NumberOfText(s).None?
  {
    TrimOfUnpadded(s);
  }

  /** A page text that is a word asks for page 0. */
  lemma PageOfWord(s: string)
    requires ':' !in s && s != [] && !IsSpace(s[0]) && !IsSpace(s[|s| - 1])
    requires s[0] != '-' && s[0] != '+' && !IsDigit(s[0])
    ensures PageOf("noop:page:" + s) == 0
  {
    NotANumber(s);
    PageOfNonNumber(s);
  }

  /** The middle navigation button `noop:page:stay` asks for page 0. */
  lemma PageOfStay()
    ensures PageOf("noop:page:stay") == 0
  {
    assert "noop:page:stay" == "noop:page:" + "stay";
    PageOfWord("stay");
  }

  /** The callback query handler's decision on `q.data || ''`. */
  function Route(qData: Option<string>): (r: Action)
    ensures r.OpenUnit? ==> ParseUnitCbData(qData.GetOr("")) == Some(UnitRef(r.unitId, r.unitCategory))
    ensures r.UnreadableUnitButton? ==> KindOf(qData.GetOr("")).Some? && ParseUnitCbData(qData.GetOr("")).None?
    ensures KindOf(qData.GetOr("")).Some? && ParseUnitCbData(qData.GetOr("")).None? ==> r == UnreadableUnitButton
  {
    var data := qData.GetOr("");
    if data == "cats" then LoadCategories
    else if data == "cats_cache" then CategoriesFromCache
    else if StartsWith(data, "cat:") then OpenCategory(CategoryOfCallback(data))
    else if KindOf(data).Some? then
      match ParseUnitCbData(data)
      case None => UnreadableUnitButton
      case Some(u) => OpenUnit(u.unitId, u.categoryId)
    else if StartsWith(data, "noop:page:") then ShowPage(PageOf(data))
    else if StartsWith(data, "noop:") then Ignore
    else Unknown
  }

  /** A category button opens its category. */
  lemma RouteCategoryButton(id: string)
    requires ':' !in id
    ensures Route(Some("cat:" + id)) == OpenCategory(id)
  {
    var d := "cat:" + id;
    assert d != "cats" by { if |d| == 4 { assert d[3] != "cats"[3]; } }
    assert d != "cats_cache" by { if |d| == 10 { assert d[3] != "cats_cache"[3]; } }
    CategoryOfCallbackReads(id, "");
  }

  /** A well-formed unit or node button opens its unit. */
  lemma RouteUnitButton(m: UnitMatch)
    requires WellFormed(m)
    ensures Route(Some(Format(m))) == OpenUnit(m.unitId, m.categoryId)
  {
    var d := Format(m);
    MatchFormat(m);
    FormatParts(m);
    assert d[0] == 'u' || d[0] == 'n';
    assert d != "cats" && d != "cats_cache" && !StartsWith(d, "cat:") by {
      assert d[0] != 'c';
    }
  }

  /** Every `noop:page:` text shows the page read from it. */
  lemma RouteNoopPage(s: string)
    ensures Route(Some("noop:page:" + s)) == ShowPage(PageOf("noop:page:" + s))
  {
    var d := "noop:page:" + s;
    assert d[0] == 'n' && d[2] == 'o';
    assert d != "cats" && d != "cats_cache" && !StartsWith(d, "cat:") && KindOf(d).None? by {
      assert d[0] != 'c' && d[0] != 'u' && d[2] != "node:"[2];
    }
    assert StartsWith(d, "noop:page:") by { assert d[..10] == "noop:page:"; }
  }

  /** A navigation button with a page number shows that page. */
  lemma RoutePageButton(n: int)
    ensures Route(Some("noop:page:" + IntToDecimal(n))) == ShowPage(n)
  {
    RouteNoopPage(IntToDecimal(n));
    PageOfDecimal(n);
  }

  /** The page counter button shows the first page. */
  lemma RouteStayButton()
    ensures Route(Some("noop:page:stay")) == ShowPage(0)
  {
    assert "noop:page:stay" == "noop:page:" + "stay";
    RouteNoopPage("stay");
    PageOfStay();
  }

  /** A query without data reaches the "unknown button" branch. */
  lemma RouteMissingData()
    ensures Route(None) == Unknown
  {
  }

  // ------------------------------------------------ _handleUnit's lookups

  const NoContext := "Контекст автомобиля не найден. Повтори VIN."
  const NoCategory := "Не удалось определить категорию. Откройте категории заново."
  const NoSsd := "Не найден ssd узла в сессии. Перезагрузите категории."

  /** What `_handleUnit` sends upstream: the vehicle's catalog, the vehicle id
      as cache keys use it, the category, and the unit's `ssd`. */
  datatype UnitRequest = UnitRequest(catalog: Value, vehicle: string, categoryId: string, ssd: Value)

  /** `vehicleId || '0'` as it appears in a cache key. */
  function VehicleKey(ctx: Value): (r: string)
    ensures !Truthy(Prop(ctx, "vehicleId")) ==> r == "0"
    ensures Prop(ctx, "vehicleId").Str? && Truthy(Prop(ctx, "vehicleId")) ==> r == Prop(ctx, "vehicleId").s
  {
    ToStr(Or(Prop(ctx, "vehicleId"), Str("0")))
  }

  /** A category id taken from a callback, when it is truthy. */
  predicate HasCategory(fromCb: Option<string>) {
    fromCb.Some? && fromCb.value != ""
  }

  /** The part of `_handleUnit` before the upstream request: read the vehicle
      context, take the category from the callback or else from the
      last-category entry, and read the unit's `ssd` from the cached unit
      map. Each failure is the error the handler throws. */
  function PrepareUnit(mem: SessionCache.Mem, now: int, codec: SessionCache.Codec, user: string,
                       unitId: string, fromCb: Option<string>): (r: SessionCache.Read<Result<UnitRequest>>)
    ensures r.value.Ok? ==> Truthy(r.value.value.catalog) && Truthy(r.value.value.ssd) && r.value.value.categoryId != ""
    ensures HasCategory(fromCb) && r.value.Ok? ==> r.value.value.categoryId == fromCb.value
  {
    var c := SessionCache.GetUserVehicle(mem, now, codec, user);
    match c.value
    case Err(e) => SessionCache.Read(c.mem, Err(e))
    case Ok(ctx) =>
      if !Truthy(Prop(ctx, "catalog")) then SessionCache.Read(c.mem, Err(NoContext))
      else
        var catalog := ToStr(Prop(ctx, "catalog"));
        var vehicle := VehicleKey(ctx);
        var cat :=
          if HasCategory(fromCb) then SessionCache.Read(c.mem, fromCb)
          else SessionCache.GetLastCategory(c.mem, now, codec, user, catalog, vehicle);
        if cat.value.None? || cat.value.value == "" then SessionCache.Read(cat.mem, Err(NoCategory))
        else
          var rec := SessionCache.GetUnitRecord(cat.mem, now, codec, user, catalog, vehicle, cat.value.value, unitId);
          var ssd := if rec.value.Some? then Prop(rec.value.value, "ssd") else Undefined;
          if !Truthy(ssd) then SessionCache.Read(rec.mem, Err(NoSsd))
          else SessionCache.Read(rec.mem, Ok(UnitRequest(Prop(ctx, "catalog"), vehicle, cat.value.value, ssd)))
  }

  /** Without a category in the callback, `_handleUnit` uses the stored last
      category, and fails with its own error when there is none. */
  lemma UnitCategoryFallback(mem: SessionCache.Mem, now: int, codec: SessionCache.Codec, user: string,
                             unitId: string, fromCb: Option<string>)
    requires !HasCategory(fromCb)
    ensures var c := SessionCache.GetUserVehicle(mem, now, codec, user);
            c.value.Ok? && Truthy(Prop(c.value.value, "catalog")) ==>
              var last := SessionCache.GetLastCategory(c.mem, now, codec, user, ToStr(Prop(c.value.value, "catalog")), VehicleKey(c.value.value));
              && (last.value.None? || last.value == Some("") ==> PrepareUnit(mem, now, codec, user, unitId, fromCb).value == Err(NoCategory))
              && (PrepareUnit(mem, now, codec, user, unitId, fromCb).value.Ok? ==>
                    Some(PrepareUnit(mem, now, codec, user, unitId, fromCb).value.value.categoryId) == last.value)
  {
  }

  /** Without a vehicle context holding a catalog, `_handleUnit` fails before
      looking at any category. */
  lemma UnitNeedsContext(mem: SessionCache.Mem, now: int, codec: SessionCache.Codec, user: string,
                         unitId: string, fromCb: Option<string>)
    ensures var c := SessionCache.GetUserVehicle(mem, now, codec, user);
            c.value.Ok? && !Truthy(Prop(c.value.value, "catalog")) ==>
              PrepareUnit(mem, now, codec, user, unitId, fromCb) == SessionCache.Read(c.mem, Err(NoContext))
  {
  }

  // ------------------------------------------------------------- keyboards

  /** The row `addCatsFooter` appends. */
  const Footer: seq<Button> := [Button("🔁 Обновить", Some("cats_cache")), Button("🔄 Перезагрузить", Some("cats"))]

  /** `addCatsFooter(reply_markup)`: the keyboard's rows, or none when the
      markup has no keyboard, then the footer row. */
  function AddCatsFooter(kb: Option<Keyboard>): (r: Keyboard)
    ensures |r| == |kb.GetOr([])| + 1
    ensures r[..|r| - 1] == kb.GetOr([])
    ensures r[|r| - 1] == Footer
  {
    kb.GetOr([]) + [Footer]
  }

  /** The footer's buttons reload the categories from the cache and from the
      catalogue. */
  lemma FooterRoutes(kb: Option<Keyboard>)
    ensures var f := AddCatsFooter(kb)[|AddCatsFooter(kb)| - 1];
            |f| == 2 && Route(f[0].data) == CategoriesFromCache && Route(f[1].data) == LoadCategories
  {
  }

  /** A missing keyboard yields the footer alone. */
  lemma FooterOnly()
    ensures AddCatsFooter(None) == [Footer]
  {
  }

  /** One button of `ensureCategoryInUnitCallbacks`: a unit or node button
      without a category gets `categoryId` appended; every other button,
      and every button without truthy `callback_data`, is left as it is. */
  function PatchButton(b: Button, categoryId: string): (r: Button)
    ensures r.text == b.text
  {
    if b.data.None? || b.data.value == "" then b
    else match MatchUnit(b.data.value)
      case None => b
      case Some(m) =>
        if m.categoryId.Some? then b
        else b.(data := Some(KindName(m.kind) + ":" + m.unitId + ":" + categoryId))
  }

  function PatchRow(row: seq<Button>, categoryId: string): (r: seq<Button>)
    ensures |r| == |row|
    ensures forall j :: 0 <= j < |row| ==> r[j] == PatchButton(row[j], categoryId)
  {
    seq(|row|, j requires 0 <= j < |row| => PatchButton(row[j], categoryId))
  }

  /** Same number of rows, each row as long as before. */
  predicate SameShape(a: Keyboard, b: Keyboard) {
    |a| == |b| && forall i :: 0 <= i < |a| ==> |a[i]| == |b[i]|
  }

  /** `ensureCategoryInUnitCallbacks(reply_markup, categoryId)`. */
  function EnsureCategoryInUnitCallbacks(kb: Option<Keyboard>, categoryId: string): (r: Option<Keyboard>)
    ensures kb.None? <==> r.None?
    ensures kb.Some? ==> SameShape(kb.value, r.value)
  {
    match kb
    case None => None
    case Some(rows) =>
      Some(seq(|rows|, i requires 0 <= i < |rows| => PatchRow(rows[i], categoryId)))
  }

  /** A unit button that needs no patch: it has a category already, or its
      data is not a unit button. */
  predicate NeedsCategory(b: Button) {
    b.data.Some? && MatchUnit(b.data.value).Some? && MatchUnit(b.data.value).value.categoryId.None?
  }

  /** Every button other than a unit button without a category is left
      unchanged, whatever the category. */
  lemma PatchLeavesOtherButtons(b: Button, categoryId: string)
    ensures !NeedsCategory(b) ==> PatchButton(b, categoryId) == b
  {
  }

  /** Patching a unit button without a category with a non-empty colon-free
      category gives it `categoryId` and keeps its prefix and unit id. */
  lemma PatchButtonEffect(b: Button, categoryId: string)
    requires categoryId != "" && ':' !in categoryId
    ensures NeedsCategory(b) ==>
              var m := MatchUnit(b.data.value).value;
              && PatchButton(b, categoryId) == b.(data := Some(Format(m.(categoryId := Some(categoryId)))))
              && MatchUnit(PatchButton(b, categoryId).data.value) == Some(m.(categoryId := Some(categoryId)))
              && ParseUnitCbData(PatchButton(b, categoryId).data.value) == Some(UnitRef(m.unitId, Some(categoryId)))
  {
    if NeedsCategory(b) {
      var m := MatchUnit(b.data.value).value;
      var m2 := m.(categoryId := Some(categoryId));
      assert Format(m2) == KindName(m.kind) + ":" + m.unitId + ":" + categoryId;
      MatchFormat(m2);
    }
  }

  /** After patching with a non-empty colon-free category, every unit or
      node button carries a category, and the buttons that needed none are
      unchanged. */
  lemma PatchedUnitsCarryCategory(rows: Keyboard, categoryId: string)
    requires categoryId != "" && ':' !in categoryId
    ensures var out := EnsureCategoryInUnitCallbacks(Some(rows), categoryId).value;
            forall i, j :: 0 <= i < |rows| && 0 <= j < |rows[i]| ==>
              && (!NeedsCategory(rows[i][j]) ==> out[i][j] == rows[i][j])
              && !NeedsCategory(out[i][j])
              && (NeedsCategory(rows[i][j]) ==>
                    ParseUnitCbData(out[i][j].data.value) == Some(UnitRef(MatchUnit(rows[i][j].data.value).value.unitId, Some(categoryId))))
  {
    var out := EnsureCategoryInUnitCallbacks(Some(rows), categoryId).value;
    forall i, j | 0 <= i < |rows| && 0 <= j < |rows[i]|
      ensures !NeedsCategory(rows[i][j]) ==> out[i][j] == rows[i][j]
      ensures !NeedsCategory(out[i][j])
      ensures NeedsCategory(rows[i][j]) ==>
                ParseUnitCbData(out[i][j].data.value) == Some(UnitRef(MatchUnit(rows[i][j].data.value).value.unitId, Some(categoryId)))
    {
      assert out[i][j] == PatchButton(rows[i][j], categoryId);
      PatchButtonEffect(rows[i][j], categoryId);
    }
  }

  /** The text `prefix:uid:cat` never matches without a category: the
      pattern either reads a category from it or rejects it. */
  lemma PatchedDataHasCategory(k: Kind, uid: string, categoryId: string)
    requires MatchUnit(KindName(k) + ":" + uid + ":" + categoryId).Some?
    ensures MatchUnit(KindName(k) + ":" + uid + ":" + categoryId).value.categoryId.Some?
  {
    var d := KindName(k) + ":" + uid + ":" + categoryId;
    var m := MatchUnit(d).value;
    FormatMatch(d);
    NoCategoryNoColon(m);
    assert d[5..] == uid + ":" + categoryId;
    assert d[5..][|uid|] == ':';
  }

  /** Without a category, a well-formed match has no colon after its prefix. */
  lemma NoCategoryNoColon(m: UnitMatch)
    ensures WellFormed(m) && m.categoryId.None? ==> ':' !in Format(m)[5..]
  {
    FormatParts(m);
    JoinOne(m.unitId);
  }

  /** Patching a button twice is patching it once, whatever the category. */
  lemma PatchButtonIdempotent(b: Button, categoryId: string)
    ensures PatchButton(PatchButton(b, categoryId), categoryId) == PatchButton(b, categoryId)
  {
    var p := PatchButton(b, categoryId);
    if p != b {
      var m := MatchUnit(b.data.value).value;
      var d := KindName(m.kind) + ":" + m.unitId + ":" + categoryId;
      assert p.data == Some(d);
      if MatchUnit(d).Some? {
        PatchedDataHasCategory(m.kind, m.unitId, categoryId);
      }
    }
  }

  /** `ensureCategoryInUnitCallbacks` is idempotent. */
  lemma EnsureCategoryIdempotent(kb: Option<Keyboard>, categoryId: string)
    ensures var once := EnsureCategoryInUnitCallbacks(kb, categoryId);
            EnsureCategoryInUnitCallbacks(once, categoryId) == once
  {
    if kb.Some? {
      var once := EnsureCategoryInUnitCallbacks(kb, categoryId).value;
      var twice := EnsureCategoryInUnitCallbacks(Some(once), categoryId).value;
      assert |twice| == |once|;
      forall i | 0 <= i < |once|
        ensures twice[i] == once[i]
      {
        assert twice[i] == PatchRow(once[i], categoryId);
        assert once[i] == PatchRow(kb.value[i], categoryId);
        forall j | 0 <= j < |once[i]|
          ensures twice[i][j] == once[i][j]
        {
          assert twice[i][j] == PatchButton(once[i][j], categoryId);
          assert once[i][j] == PatchButton(kb.value[i][j], categoryId);
          PatchButtonIdempotent(kb.value[i][j], categoryId);
        }
      }
      assert twice == once;
    }
  }

  // ------------------------------------------------------------ extractRoot

  /** The three shapes tried in order: `[{root: [..]}]`, `{root: [..]}`, a
      bare array. */
  function RootShape(v: Value): (r: Option<Value>)
    ensures r.Some? ==> r.value.Arr?
  {
    if Prop(Index(v, 0), "root").Arr? then Some(Prop(Index(v, 0), "root"))
    else if Prop(v, "root").Arr? then Some(Prop(v, "root"))
    else if v.Arr? then Some(v)
    else None
  }

  /** `extractRoot(categoriesRoot)`: the three shapes, then the same three
      under `.data`, else `[]`. */
  function ExtractRoot(cr: Value): (r: Value)
    ensures r.Arr?
    ensures RootShape(cr).Some? ==> r == RootShape(cr).value
  {
    match RootShape(cr)
    case Some(root) => root
    case None => RootShape(Prop(cr, "data")).GetOr(Arr([]))
  }

  /** Each supported shape yields its array, `[{root}]` winning over the bare
      array it also is; a value of no shape yields `[]`. */
  lemma ExtractRootShapes(xs: seq<Value>, rest: seq<Value>, n: int)
    ensures ExtractRoot(Arr([Obj(map["root" := Arr(xs)])] + rest)) == Arr(xs)
    ensures ExtractRoot(Obj(map["root" := Arr(xs)])) == Arr(xs)
    ensures xs == [] || !Prop(xs[0], "root").Arr? ==> ExtractRoot(Arr(xs)) == Arr(xs)
    ensures ExtractRoot(Obj(map["data" := Arr([Obj(map["root" := Arr(xs)])] + rest)])) == Arr(xs)
    ensures ExtractRoot(Obj(map["data" := Obj(map["root" := Arr(xs)])])) == Arr(xs)
    ensures xs == [] || !Prop(xs[0], "root").Arr? ==> ExtractRoot(Obj(map["data" := Arr(xs)])) == Arr(xs)
    ensures ExtractRoot(Num(n)) == Arr([]) && ExtractRoot(Null) == Arr([]) && ExtractRoot(Obj(map[])) == Arr([])
  {
    assert NatToDecimal(0) == "0";
    assert "0" != "root" && "0" != "data";
    assert "data" != "root";
  }

  /** A value of none of the three shapes is read under `.data`, and when
      that has none of them either the result is `[]`: whatever is not
      an array, holds no array `root` and has no first element with an
      array `root`, at either level, yields `[]`. */
  lemma ExtractRootFallsBack(cr: Value)
    ensures RootShape(cr).None? ==> ExtractRoot(cr) == RootShape(Prop(cr, "data")).GetOr(Arr([]))
    ensures RootShape(cr).None? <==>
              !Prop(Index(cr, 0), "root").Arr? && !Prop(cr, "root").Arr? && !cr.Arr?
    ensures var d := Prop(cr, "data");
            && !Prop(Index(cr, 0), "root").Arr? && !Prop(cr, "root").Arr? && !cr.Arr?
            && !Prop(Index(d, 0), "root").Arr? && !Prop(d, "root").Arr? && !d.Arr?
            ==> ExtractRoot(cr) == Arr([])
  {
  }
}

=== FILE: ttl_store.dfy ===
/** The in-process expiring map behind the cache (`mem` with `memSet` and
    `memGet` in src/cache.js). Each entry carries its expiry instant in
    milliseconds; the clock is the explicit `now` argument. An entry is
    dropped lazily, by the read that finds it expired. */
module TtlStore {
  import opened Wrappers

  datatype Entry<V> = Entry(value: V, exp: int)

  type Store<V> = map<string, Entry<V>>

  /** What a read returns: the store after lazy expiry, and the value or
      `None` for `null`. */
  datatype Lookup<V> = Lookup(store: Store<V>, value: Option<V>)

  /** A live entry's value, as the source reads it at time `now`. */
  predicate Live<V>(s: Store<V>, key: string, now: int) {
    key in s && now < s[key].exp
  }

  /** `memSet(key, v, ttlSec)` at time `now`. */
  function Set<V>(s: Store<V>, key: string, v: V, ttlSec: int, now: int): (r: Store<V>)
    ensures r.Keys == s.Keys + {key}
    ensures forall k :: k in s && k != key ==> r[k] == s[k]
    ensures Live(r, key, now) <==> ttlSec > 0
  {
    s[key := Entry(v, now + ttlSec * 1000)]
  }

  /** `memGet(key)` at time `now`: an entry whose expiry is not after `now`
      is deleted and reads as `null`. */
  function Get<V>(s: Store<V>, key: string, now: int): (r: Lookup<V>)
    ensures r.value.Some? <==> Live(s, key, now)
    ensures r.value.Some? ==> r.value.value == s[key].value && r.store == s
    ensures r.value.None? ==> r.store == s - {key}
  {
    if key !in s then Lookup(s, None)
    else if s[key].exp <= now then Lookup(s - {key}, None)
    else Lookup(s, Some(s[key].value))
  }

  /** A value stored with `ttlSec` at time `t` is read back before
      `t + ttlSec * 1000` and is gone, and deleted, from that instant on. */
  lemma GetAfterSet<V>(s: Store<V>, key: string, v: V, ttlSec: int, t: int, now: int)
    ensures now < t + ttlSec * 1000 ==>
              Get(Set(s, key, v, ttlSec, t), key, now) == Lookup(Set(s, key, v, ttlSec, t), Some(v))
    ensures now >= t + ttlSec * 1000 ==>
              Get(Set(s, key, v, ttlSec, t), key, now).value == None
              && key !in Get(Set(s, key, v, ttlSec, t), key, now).store
  {
  }

  /** The last write wins: a second `Set` of the same key leaves no trace of
      the first, neither its value nor its expiry. */
  lemma SetOverwrites<V>(s: Store<V>, key: string, v1: V, ttl1: int, t1: int, v2: V, ttl2: int, t2: int)
    ensures Set(Set(s, key, v1, ttl1, t1), key, v2, ttl2, t2) == Set(s, key, v2, ttl2, t2)
  {
  }

  /** Writing one key does not change what any other key reads. */
  lemma GetOtherKey<V>(s: Store<V>, key: string, v: V, ttlSec: int, t: int, other: string, now: int)
    requires other != key
    ensures Get(Set(s, key, v, ttlSec, t), other, now).value == Get(s, other, now).value
  {
  }

  /** Reading one key does not change what any other key reads. */
  lemma GetLeavesOtherKeys<V>(s: Store<V>, key: string, other: string, now: int, later: int)
    requires other != key
    ensures Get(Get(s, key, now).store, other, later).value == Get(s, other, later).value
  {
  }

  /** Once a key reads as absent it stays absent until it is written again. */
  lemma AbsentStaysAbsent<V>(s: Store<V>, key: string, now: int, later: int)
    requires Get(s, key, now).value.None?
    requires now <= later
    ensures Get(Get(s, key, now).store, key, later).value.None?
  {
  }
}

=== FILE: utils.dfy ===
/** The string helpers of src/utils.js other than chunking and HTML escaping:
    the required-value guard, VIN masking, the language of a locale and the
    brand emoji. Case mapping is ASCII-only (see `JsText`). */
module Utils {
  import opened Wrappers
  import opened JsText
  import opened JsValue

  // ---------------------------------------------------------------- ensure

  /** The values `ensure` refuses: `undefined`, `null`, '' and `false`. */
  predicate Missing(v: Value) {
    v == Undefined || v == Null || v == Str("") || v == Bool(false)
  }

  /** `ensure(v, msg)`: the value itself, or the error it throws, whose
      message is `msg` or 'Value is required' when `msg` is falsy. */
  function Ensure(v: Value, msg: Value): (r: Result<Value>)
    ensures r.Ok? <==> !Missing(v)
    ensures r.Ok? ==> r.value == v
    ensures r.Err? ==> r.message == if Truthy(msg) then ToStr(msg) else "Value is required"
  {
    if Missing(v) then Err(ToStr(Or(msg, Str("Value is required")))) else Ok(v)
  }

  /** `ensure` is not a truthiness test: it lets every truthy value through,
      and of the falsy ones exactly the number 0. */
  lemma EnsureVersusTruthy(v: Value, msg: Value)
    ensures Truthy(v) ==> Ensure(v, msg) == Ok(v)
    ensures Ensure(v, msg).Ok? && !Truthy(v) <==> v == Num(0)
  {
  }

  // --------------------------------------------------------------- maskVin

  /** `String(v || '')`: the text of a value, '' for a falsy one. */
  function Text(v: Value): (t: string)
    ensures !Truthy(v) ==> t == ""
    ensures v.Str? ==> t == v.s
  {
    ToStr(Or(v, Str("")))
  }

  /** A text that is trimmed and upper-case. */
  predicate IsNormalVin(t: string) {
    (t == [] || (!IsSpace(t[0]) && !IsSpace(t[|t| - 1]))) && Upper(t) == t
  }

  lemma UpperIdempotent(s: string)
    ensures Upper(Upper(s)) == Upper(s)
  {
  }

  /** `.trim().toUpperCase()`: a VIN as the bot masks it. */
  function NormalVin(s: string): (t: string)
    ensures IsNormalVin(t)
  {
    var t := Trim(s);
    CaseKeepsSpace(if t == [] then ' ' else t[0]);
    CaseKeepsSpace(if t == [] then ' ' else t[|t| - 1]);
    UpperIdempotent(t);
    Upper(t)
  }

  /** Normalising a normal text changes nothing. */
  lemma NormalVinOfNormal(t: string)
    requires IsNormalVin(t)
    ensures NormalVin(t) == t
  {
    TrimOfUnpadded(t);
  }

  /** The mask of a normalised VIN: a text of fewer than 6 characters as it
      is; otherwise its first 3 characters, `***` and its last 3. */
  function MaskText(raw: string): (r: string)
    ensures |raw| < 6 ==> r == raw
    ensures |raw| >= 6 ==>
              |r| == 9 && r[..3] == raw[..3] && r[3..6] == "***" && r[6..] == raw[|raw| - 3..]
  {
    if |raw| < 6 then raw else JsSlice(raw, 0, 3) + "***" + JsSlice(raw, -3, |raw|)
  }

  /** `maskVin(v)`. */
  function MaskVin(v: Value): (r: string)
    ensures var t := NormalVin(Text(v));
            && (|t| < 6 ==> r == t)
            && (|t| >= 6 ==> |r| == 9 && r[..3] == t[..3] && r[3..6] == "***" && r[6..] == t[|t| - 3..])
  {
    MaskText(NormalVin(Text(v)))
  }

  lemma UpperAppend(a: string, b: string)
    ensures Upper(a + b) == Upper(a) + Upper(b)
  {
  }

  lemma UpperStars()
    ensures Upper("***") == "***"
  {
    assert forall i :: 0 <= i < 3 ==> Upper("***")[i] == '*';
  }

  /** The mask of a normal text is normal. */
  lemma MaskKeepsNormal(raw: string)
    requires IsNormalVin(raw)
    ensures IsNormalVin(MaskText(raw))
  {
    if |raw| >= 6 {
      var m := MaskText(raw);
      var head := raw[..3];
      var tail := raw[|raw| - 3..];
      assert m == head + "***" + tail by {
        assert m == m[..3] + m[3..6] + m[6..];
      }
      assert Upper(head) == head by {
        assert Upper(raw)[..3] == Upper(head);
      }
      assert Upper(tail) == tail by {
        assert Upper(raw)[|raw| - 3..] == Upper(tail);
      }
      UpperStars();
      UpperAppend(head, "***");
      UpperAppend(head + "***", tail);
      assert m[0] == raw[0] && m[8] == raw[|raw| - 1];
    }
  }

  /** Masking a mask changes nothing. */
  lemma MaskTextIdempotent(raw: string)
    ensures MaskText(MaskText(raw)) == MaskText(raw)
  {
    if |raw| >= 6 {
      var m := MaskText(raw);
      assert m == m[..3] + m[3..6] + m[6..];
    }
  }

  /** Masking a masked VIN changes nothing: the mask is already trimmed,
      upper-case and no longer than 9 characters. */
  lemma MaskVinIdempotent(v: Value)
    ensures MaskVin(Str(MaskVin(v))) == MaskVin(v)
  {
    var raw := NormalVin(Text(v));
    var m := MaskText(raw);
    MaskKeepsNormal(raw);
    NormalVinOfNormal(m);
    MaskTextIdempotent(raw);
  }

  /** The mask of a long VIN depends only on its first and last three
      characters: whatever lies between them is hidden. */
  lemma MaskHidesMiddle(a: string, b: string)
    requires |a| >= 6 && |b| >= 6
    requires a[..3] == b[..3] && a[|a| - 3..] == b[|b| - 3..]
    ensures MaskText(a) == MaskText(b)
  {
    var x := MaskText(a);
    var y := MaskText(b);
    assert x == x[..3] + x[3..6] + x[6..];
    assert y == y[..3] + y[3..6] + y[6..];
  }

  // ---------------------------------------------------------- locale → lang

  /** `detectLangFromLocale(locale)`: 'ru' when the lower-cased locale
      starts with "ru", else 'en'. No character outside ASCII lower-cases to
      `r` or `u`, so ASCII-only case mapping decides the same. */
  function DetectLang(locale: Value): (r: string)
    ensures r == "ru" || r == "en"
  {
    var l := Lower(Text(locale));
    if StartsWith(l, "ru") then "ru" else "en"
  }

  /** Russian exactly when the locale's text begins with `r` and `u` in
      either case. */
  lemma DetectLangIsRuPrefix(locale: Value)
    ensures var s := Text(locale);
            DetectLang(locale) == "ru" <==> |s| >= 2 && (s[0] == 'r' || s[0] == 'R') && (s[1] == 'u' || s[1] == 'U')
  {
    var s := Text(locale);
    var l := Lower(s);
    if |s| >= 2 {
      assert l[..2] == [LowerChar(s[0]), LowerChar(s[1])];
    }
  }

  /** Sample locales. */
  lemma DetectLangSamples()
    ensures DetectLang(Str("ru_RU")) == "ru"
    ensures DetectLang(Str("RU")) == "ru"
    ensures DetectLang(Str("en_US")) == "en"
    ensures DetectLang(Undefined) == "en"
  {
    DetectLangIsRuPrefix(Str("ru_RU"));
    DetectLangIsRuPrefix(Str("RU"));
    DetectLangIsRuPrefix(Str("en_US"));
    DetectLangIsRuPrefix(Undefined);
  }

  // ------------------------------------------------------------ brandEmoji

  /** `s.replace(/\s+/g, ' ')`: every run of white space becomes one space. */
  function Collapse(s: string): string
    decreases |s|
  {
    if s == [] then []
    else if IsSpace(s[0]) then " " + Collapse(TrimStart(s))
    else [s[0]] + Collapse(s[1..])
  }

  /** No white space other than single spaces. */
  predicate Collapsed(s: string) {
    && (forall i :: 0 <= i < |s| && IsSpace(s[i]) ==> s[i] == ' ')
    && (forall i :: 0 <= i < |s| - 1 ==> !(IsSpace(s[i]) && IsSpace(s[i + 1])))
  }

  /** After the replace, white space is single spaces with no two in a row. */
  lemma {:induction false} CollapseIsCollapsed(s: string)
    ensures Collapsed(Collapse(s))
    ensures |Collapse(s)| <= |s|
    ensures s != [] && IsSpace(s[0]) ==> Collapse(s) != [] && Collapse(s)[0] == ' '
    ensures s != [] && !IsSpace(s[0]) ==> Collapse(s) != [] && Collapse(s)[0] == s[0]
    decreases |s|
  {
    if s != [] {
      if IsSpace(s[0]) {
        var t := TrimStart(s);
        CollapseIsCollapsed(t);
        var c := Collapse(t);
        assert Collapse(s) == " " + c;
        assert c == [] || !IsSpace(c[0]);
      } else {
        CollapseIsCollapsed(s[1..]);
        var c := Collapse(s[1..]);
        assert Collapse(s) == [s[0]] + c;
      }
    }
  }

  const Sedan: string := "\U{1F698}"
  const Suv: string := "\U{1F699}"
  const Car: string := "\U{1F697}"
  const RaceCar: string := "\U{1F3CE}\U{FE0F}"
  const Flag: string := "\U{1F3C1}"
  const Battery: string := "\U{1F50B}"

  /** The brand table. */
  const Brands: map<string, string> := map[
    "AUDI" := Sedan, "SKODA" := Suv, "VOLKSWAGEN" := Car, "VW" := Car, "SEAT" := Car,
    "BMW" := RaceCar, "MERCEDES" := Sedan, "MERCEDES-BENZ" := Sedan, "MB" := Sedan,
    "TOYOTA" := Suv, "LEXUS" := Suv, "HONDA" := Flag, "NISSAN" := Car, "INFINITI" := Car,
    "KIA" := Car, "HYUNDAI" := Car, "GENESIS" := Car, "FORD" := Suv, "RENAULT" := Car,
    "PEUGEOT" := Car, "CITROEN" := Car, "MAZDA" := Car, "VOLVO" := Suv, "OPEL" := Car,
    "CHEVROLET" := Car, "PORSCHE" := RaceCar, "JAGUAR" := Sedan, "LAND ROVER" := Suv,
    "RANGE ROVER" := Suv, "MITSUBISHI" := Suv, "SUBARU" := Suv, "SUZUKI" := Car,
    "FIAT" := Car, "ALFA ROMEO" := RaceCar, "TESLA" := Battery]

  /** `.trim().toUpperCase().replace(/\s+/g, ' ')` of the brand's text: the
      key the table is searched with. */
  function BrandKey(text: string): string {
    Collapse(Upper(Trim(text)))
  }

  /** The table entry for a key, else for the key with hyphens read as
      spaces, else the car. */
  function EmojiFor(key: string): (r: string)
    ensures r == Car || r in Brands.Values
    ensures key in Brands ==> r == Brands[key]
  {
    if key in Brands then Brands[key]
    else
      var spaced := ReplaceChar(key, '-', " ");
      if spaced in Brands then Brands[spaced] else Car
  }

  /** `brandEmoji(brand)`. */
  function BrandEmoji(brand: Value): (r: string)
    ensures r == Car || r in Brands.Values
    ensures BrandKey(Text(brand)) in Brands ==> r == Brands[BrandKey(Text(brand))]
  {
    EmojiFor(BrandKey(Text(brand)))
  }

  /** Letter case never changes the key, so never the emoji. */
  lemma BrandKeyIgnoresCase(s: string)
    ensures BrandKey(Upper(s)) == BrandKey(s)
  {
    TrimUpper(s);
    UpperIdempotent(Trim(s));
  }

  /** White space around the brand never changes the key. */
  lemma BrandKeyIgnoresPadding(c: char, s: string)
    requires IsSpace(c)
    ensures BrandKey([c] + s) == BrandKey(s)
    ensures BrandKey(s + [c]) == BrandKey(s)
  {
    TrimPadded(c, s);
  }

  lemma {:induction false} TrimStartSpaces(w: string, b: string)
    requires AllSpaces(w)
    requires b == [] || !IsSpace(b[0])
    ensures TrimStart(w + b) == b
    decreases |w|
  {
    if w != [] {
      assert (w + b)[1..] == w[1..] + b;
      TrimStartSpaces(w[1..], b);
    } else {
      assert w + b == b;
    }
  }

  lemma Associative(x: string, y: string, z: string)
    ensures x + (y + z) == (x + y) + z
  {
  }

  /** A text whose trim-start is empty is all white space. */
  lemma TrimStartOfAllSpacesRev(a: string)
    requires TrimStart(a) == []
    ensures AllSpaces(a)
  {
  }

  lemma {:induction false} TrimStartAppendRest(a: string, rest: string)
    requires !AllSpaces(a)
    ensures TrimStart(a + rest) == TrimStart(a) + rest
    decreases |a|
  {
    if IsSpace(a[0]) {
      assert (a + rest)[1..] == a[1..] + rest;
      TrimStartAppendRest(a[1..], rest);
    }
  }

  /** The step of `CollapseRun` for a text that starts with white space. */
  lemma CollapseRunSpace(a: string, w: string, b: string)
    requires AllSpaces(w) && w != []
    requires a != [] && IsSpace(a[0]) && !IsSpace(a[|a| - 1])
    ensures TrimStart(a) != [] && !IsSpace(TrimStart(a)[|TrimStart(a)| - 1])
    ensures TrimStart(a + w + b) == TrimStart(a) + w + b
  {
    var t := TrimStart(a);
    assert !AllSpaces(a) by {
      assert !IsSpace(a[|a| - 1]);
    }
    if t == [] {
      TrimStartOfAllSpacesRev(a);
    }
    assert t[|t| - 1] == a[|a| - 1];
    TrimStartAppendRest(a, w + b);
    assert a + w + b == a + (w + b);
  }

  /** A run of white space between two words collapses to one space, however
      long it is. */
  lemma {:induction false} CollapseRun(a: string, w: string, b: string)
    requires AllSpaces(w) && w != []
    requires a == [] || !IsSpace(a[|a| - 1])
    requires b == [] || !IsSpace(b[0])
    ensures Collapse(a + w + b) == Collapse(a) + (" " + Collapse(b))
    decreases |a|
  {
    var s := a + w + b;
    if a == [] {
      assert s == w + b;
      TrimStartSpaces(w, b);
    } else if IsSpace(a[0]) {
      var t := TrimStart(a);
      CollapseRunSpace(a, w, b);
      CollapseRun(t, w, b);
      assert s[0] == a[0] && TrimStart(s) == t + w + b;
      assert Collapse(s) == " " + Collapse(t + w + b);
      Associative(" ", Collapse(t), " " + Collapse(b));
    } else {
      assert s[0] == a[0] && s[1..] == a[1..] + w + b;
      assert a[1..] == [] || a[1..][|a[1..]| - 1] == a[|a| - 1];
      CollapseRun(a[1..], w, b);
      assert Collapse(s) == [a[0]] + Collapse(a[1..] + w + b);
      Associative([a[0]], Collapse(a[1..]), " " + Collapse(b));
    }
  }

  /** The key of a text with no white space at either end. */
  lemma BrandKeyOfUnpadded(s: string)
    requires s != [] && !IsSpace(s[0]) && !IsSpace(s[|s| - 1])
    ensures BrandKey(s) == Collapse(Upper(s))
  {
    TrimOfUnpadded(s);
  }

  lemma UpperJoin(a: string, w: string, b: string)
    ensures Upper(a + w + b) == Upper(a) + Upper(w) + Upper(b)
  {
    UpperAppend(a, w);
    UpperAppend(a + w, b);
  }

  lemma UpperKeepsAllSpaces(w: string)
    requires AllSpaces(w)
    ensures AllSpaces(Upper(w))
  {
    forall i | 0 <= i < |w| ensures IsSpace(Upper(w)[i]) { CaseKeepsSpace(w[i]); }
  }

  /** The key of two words separated by white space. */
  lemma BrandKeyOfJoin(a: string, w: string, b: string)
    requires a != [] && !IsSpace(a[0]) && !IsSpace(a[|a| - 1])
    requires b != [] && !IsSpace(b[0]) && !IsSpace(b[|b| - 1])
    requires AllSpaces(w) && w != []
    ensures BrandKey(a + w + b) == Collapse(Upper(a)) + (" " + Collapse(Upper(b)))
  {
    var s := a + w + b;
    assert s[0] == a[0] && s[|s| - 1] == b[|b| - 1];
    BrandKeyOfUnpadded(s);
    var ua := Upper(a);
    var ub := Upper(b);
    UpperKeepsAllSpaces(w);
    UpperJoin(a, w, b);
    CaseKeepsSpace(a[|a| - 1]);
    CaseKeepsSpace(b[0]);
    assert ua[|ua| - 1] == UpperChar(a[|a| - 1]);
    assert ub[0] == UpperChar(b[0]);
    CollapseRun(ua, Upper(w), ub);
  }

  /** Inner white space never changes the key: two words separated by any
      run of it have the same key whatever the run, a single space included. */
  lemma BrandKeyIgnoresInnerSpacing(a: string, w1: string, w2: string, b: string)
    requires a != [] && !IsSpace(a[0]) && !IsSpace(a[|a| - 1])
    requires b != [] && !IsSpace(b[0]) && !IsSpace(b[|b| - 1])
    requires AllSpaces(w1) && w1 != [] && AllSpaces(w2) && w2 != []
    ensures BrandKey(a + w1 + b) == BrandKey(a + w2 + b)
  {
    BrandKeyOfJoin(a, w1, b);
    BrandKeyOfJoin(a, w2, b);
  }

  /** The emoji, like the key, ignores case, padding and inner spacing. */
  lemma BrandEmojiIgnoresSpelling(s: string, c: char, a: string, w1: string, w2: string, b: string)
    requires IsSpace(c)
    requires a != [] && !IsSpace(a[0]) && !IsSpace(a[|a| - 1])
    requires b != [] && !IsSpace(b[0]) && !IsSpace(b[|b| - 1])
    requires AllSpaces(w1) && w1 != [] && AllSpaces(w2) && w2 != []
    ensures BrandEmoji(Str(Upper(s))) == BrandEmoji(Str(s))
    ensures BrandEmoji(Str([c] + s)) == BrandEmoji(Str(s))
    ensures BrandEmoji(Str(s + [c])) == BrandEmoji(Str(s))
    ensures BrandEmoji(Str(a + w1 + b)) == BrandEmoji(Str(a + w2 + b))
  {
    BrandKeyIgnoresCase(s);
    BrandKeyIgnoresPadding(c, s);
    BrandKeyIgnoresInnerSpacing(a, w1, w2, b);
    assert Text(Str(s)) == s;
    assert Text(Str(Upper(s))) == Upper(s);
    assert Text(Str([c] + s)) == [c] + s;
    assert Text(Str(s + [c])) == s + [c];
    assert Text(Str(a + w1 + b)) == a + w1 + b;
    assert Text(Str(a + w2 + b)) == a + w2 + b;
  }

  /** A hyphen between two words reads as a space when the hyphenated key
      itself is not in the table: `Land-Rover` finds `LAND ROVER`. */
  lemma EmojiForHyphenated(x: string, y: string)
    requires '-' !in x && '-' !in y
    requires x + "-" + y !in Brands
    ensures x + " " + y in Brands ==> EmojiFor(x + "-" + y) == Brands[x + " " + y]
    ensures x + " " + y !in Brands ==> EmojiFor(x + "-" + y) == Car
  {
    ReplaceCharAppend(x + "-", y, '-', " ");
    ReplaceCharAppend(x, "-", '-', " ");
    ReplaceCharAbsent(x, '-', " ");
    ReplaceCharAbsent(y, '-', " ");
    ReplaceCharOne('-', '-', " ");
    assert ReplaceChar(x + "-" + y, '-', " ") == x + " " + y;
  }
}

=== FILE: wrappers.dfy ===
/** Option and Result datatypes used across the model: `None` for a JavaScript
    `null` result, `Err` for a thrown exception or a rejected promise. */
module Wrappers {

  datatype Option<+T> = None | Some(value: T) {

    /** Returns the value in `Some` or the given default. */
    function GetOr(default: T): T {
      match this
      case Some(v) => v
      case None => default
    }
  }

  /** Success carries the value; failure carries the error message. */
  datatype Result<+T> = Ok(value: T) | Err(message: string)
}
